=== FILE: README.md ===
# A 2-3-4 tree and its conversion to a red-black tree, in Dafny

This project models `TwoThreeFourTree<T>` from `Program.cs`, and the
`BSTforRBTree<T>.Add` method its conversion relies on, as pure Dafny functions
over immutable datatypes.

- A 2-3-4 node (`Nodes.Node`) holds a list of keys and a list of children.
  The tree is `Empty` or has a `Root`.
- Keys are `int`, which stands in for the source's `IComparable` type
  parameter.
- `Insert` splits every full node it meets on the way down. The choice between
  the two halves after a split is a parameter (`Steering`):
  - `LastParentKey` is the source's comparison with the parent's last key.
  - `Median` is the comparison with the promoted key.
- `Search` descends by the first greater key. Every index error counts as
  "not found".
- `Delete` overwrites an internal key with the last key of the rightmost leaf
  on its left. It then calls `Remove`, which starts at the parent of that leaf.
  - The answer is `Removed` (the source's `true`), `Absent` (`false`) or
    `Fault` (an exception escaping the method).
  - `DeletionFixed` is the deletion the design evidently intends.
- `Convert` walks the tree in pre-order. It emits one `Add(key, colour)` call
  per key, and `AddAll` replays those calls into an unbalanced binary search
  tree (`RedBlack.Bst`).
  - `Layout.KeysInOrder` adds a 4-node's keys left to right, as the source
    does.
  - `Layout.MiddleFirst` adds the middle key first.
  - `None` stands for the exception a keyless node causes.
- `RedBlackShape.ToRb` describes the converted tree directly, node by node.
  The main theorems relate `Convert` to it.
- `Scenarios` replays the run of `Main`. `Findings` holds the concrete inputs
  behind the findings below.

The code and its evident intent disagree in five places. The model follows
the code in each, and the corrected behaviour is modelled beside it:
- Insertion steering after a split.
- Deleting an internal key whose predecessor leaf is a direct child.
- Deleting a key that is not stored. `Delete` starts with `found = false`
  and returns it (Program.cs:154, 197), and it answers false on an empty
  tree (Program.cs:150). So a missing key should give false, but the code
  throws.
- Converting a 4-node. Its second and third keys are both added red in key
  order (Program.cs:262-267), so one red node becomes the child of the
  other, and the result is not a red-black tree.
- Converting a node with more than four children. `ConvertNode` visits
  children 0 to 3 only (Program.cs:271-286). After the faulty deletion has
  unbalanced the tree, later insertions can give a node a fifth child, and
  that child's keys are silently left out of the red-black tree.

## Model

| member | source | states |
|---|---|---|
| Seqs.UpperIndex | Program.cs:81 | `FindIndex(x => k < x)`, with the list length standing for -1: every key before the position is at most `k`, and the key at it is greater |
| Seqs.IndexOf | Program.cs:158 | the first position holding `k`; the length exactly when `k` is absent, and no earlier position holds `k` |
| Seqs.InsertSorted | Program.cs:86-93 | a leaf gains exactly `k` (multiset), one more key, and sorted keys stay sorted |
| Seqs.RemoveAt | Program.cs:166 | `RemoveAt`: one key fewer, the keys before the position unchanged, the rest shifted left, and the multiset loses exactly that key |
| Seqs.RemoveAtSorted | Program.cs:164-167 | removing a key from a leaf keeps its keys sorted |
| Insertion.Split | Program.cs:105-121 | a full node splits into `[k0]`, the median `k1` and `[k2]`, and an internal node's four children are split two and two |
| InsertionProperties.SplitJoin | Program.cs:105-121 | a split loses and reorders nothing: putting the median back between the halves gives the node back |
| InsertionProperties.SplitKeys | Program.cs:105-121 | the left half, the median and the right half together hold exactly the node's keys |
| Insertion.SplitChild | Program.cs:123-135 | the parent gains the median and one child, its key multiset grows by the median, and sorted keys stay sorted |
| InsertionOrder.SplitChildKeysAt | Program.cs:123-135 | the median lands exactly at the split child's slot among the parent's keys |
| InsertionProperties.SplitChildKeys | Program.cs:123-135 | splitting a child leaves the subtree's keys unchanged |
| InsertionOrder.SplitChildOrdered | Program.cs:123-135 | splitting a child of an ordered node keeps it ordered |
| Insertion.SplitRoot | Program.cs:136-143 | a full root becomes a one-key root over the two halves |
| InsertionProperties.SplitRootKeys | Program.cs:136-143 | the new root holds exactly the old root's keys |
| InsertionOrder.SplitRootOrdered | Program.cs:136-143 | splitting an ordered full root gives an ordered root |
| Insertion.ChildSlot | Program.cs:97-99 | the descent takes the child before the first greater key, or the last child when no key is greater |
| Insertion.NextSlot | Program.cs:58-70 | after a split the descent continues into the split child or into the new sibling right after it |
| InsertionOrder.SteeringsDisagree | Program.cs:58-70 | `GoesRight` (Program.cs:61): the source's comparison with the parent's last key and the comparison with the median send a key different ways exactly when it lies above the median but not above the parent's last key; when the last child was split they always agree |
| Insertion.SplitCase | Program.cs:52-78 | when the child on the way is full, the insertion splits it and continues into the half chosen by the steering |
| Insertion.InsertNode | Program.cs:43-100 | a leaf stays a leaf and an internal node stays internal; a leaf gains exactly `k` (multiset), one more key, and its sorted keys stay sorted |
| Insertion.Insert | Program.cs:31-102 | the result always has a root, and an empty tree gets the one-key root `[k]` |
| InsertionProperties.InsertAddsKey | Program.cs:31-102 | with either steering, the tree's key multiset grows by exactly `k` and the shape invariant is kept |
| InsertionProperties.InsertKeepsBalance | Program.cs:31-102 | on any shaped tree whose leaves lie at one depth, keyless leaves included, every leaf stays at one depth, which grows by one exactly when the root was full; a tree whose nodes all hold keys keeps them so |
| InsertionOrder.InsertNodeOrdered | Program.cs:43-100 | with the median steering, insertion keeps a node ordered |
| InsertionOrder.InsertKeepsValid | Program.cs:31-102 | with the median steering, a valid 2-3-4 tree stays valid and gains exactly `k` |
| Lookup.Search | Program.cs:216-237 | nothing is found in an empty tree, and a found key is one of the tree's keys |
| Lookup.SearchNode | Program.cs:222-230 | a found key is stored in the subtree, a key in the node itself is found, and in a leaf found means one of its keys |
| Lookup.SearchComplete | Program.cs:216-237 | in an ordered subtree, search answers true exactly for the stored keys |
| Lookup.SearchFindsStored | Program.cs:216-237 | on an ordered tree, `Search(t, k)` holds iff `k` is among the tree's keys |
| Lookup.SearchAfterInsert | Program.cs:216-237 | after a median-steered insertion into a valid tree, search finds exactly the old keys plus `k` |
| Deletion.RightmostLeaf | Program.cs:172-179 | the walk down the last children ends at a leaf |
| Deletion.RemoveUnderRightmost | Program.cs:182 | `Remove(predParent, v)` for a deeper predecessor never answers false; when it throws it changed nothing; it never adds or drops a child |
| Deletion.RemoveFrom | Program.cs:200-214 | `Remove` never answers false; when it throws it changed nothing, and it never adds or drops a child |
| Deletion.RemoveFromKeys | Program.cs:200-214 | when `Remove` succeeds, exactly one `v` has left the subtree |
| Deletion.RemoveBeyondLastFaults | Program.cs:210-211 | when every key of the node is below `v`, `Children[-1]` throws |
| Deletion.RemoveUnderRightmostFaults | Program.cs:200-214 | starting at the parent of the rightmost leaf, `Remove` throws when that parent's keys are all below `v` |
| Deletion.DeleteNode | Program.cs:156-195 | the descent never answers false and never changes the number of children |
| Deletion.Delete | Program.cs:147-198 | false exactly on the empty tree, which stays empty |
| Deletion.DeleteNodeKeys | Program.cs:156-195 | when the answer is true, the tree's key multiset has lost exactly one `k`, even on the faulty paths |
| Deletion.DeleteNodeShape | Program.cs:156-195 | deletion never moves or drops a child, and the shape invariant is kept |
| Deletion.MissingKeyFaults | Program.cs:185-195 | a key stored nowhere makes the descent throw, with the tree unchanged |
| Deletion.DeleteFromLeaf | Program.cs:164-167 | in a leaf the first occurrence is removed, the keys before it unchanged and the rest shifted, and sorted keys stay sorted |
| Deletion.PredecessorInChildLeaf | Program.cs:171-182 | when the child left of `k` is a leaf, the answer is true, yet the node itself loses a key and keeps all its children |
| Deletion.PredecessorInChildLeafUnbalances | Program.cs:171-182 | in that case a balanced node stops being balanced and ordered |
| Deletion.DeeperPredecessorFaults | Program.cs:171-182 | when the predecessor lies deeper and every key of its leaf's parent is below it, `k` is overwritten with it and then `Remove` throws, leaving the predecessor stored twice |
| DeletionFixed.TakeMax | Program.cs:172-179 | a predecessor is taken exactly when the rightmost leaf holds a key; it is that leaf's last key; no node gains or loses a child, and only a leaf loses a key |
| DeletionFixed.TakeMaxPops | Program.cs:172-182 | taking the predecessor drops the last key of the rightmost leaf and changes nothing else: every node on the way keeps its keys and every child off the way is unchanged |
| DeletionFixed.TakeMaxKeys | Program.cs:172-182 | taking the predecessor removes exactly that key from the subtree |
| DeletionFixed.TakeMaxOrdered | Program.cs:172-179 | in an ordered subtree the predecessor is the largest key, and taking it keeps the subtree ordered |
| DeletionFixed.DeleteFixed | Program.cs:156-195 | the corrected descent changes nothing unless it answers true, and never changes the number of children |
| DeletionFixed.DeleteFixedKeys | Program.cs:156-195 | when the corrected deletion answers true, exactly one `k` has left the tree |
| DeletionFixed.DeleteFixedAbsentIffNotFound | Program.cs:147-198 | the corrected deletion answers false exactly when search does not find `k` |
| DeletionFixed.DeleteFixedOrdered | Program.cs:156-195 | the corrected deletion keeps the tree ordered |
| DeletionFixed.DeleteFixedShape | Program.cs:156-195 | the corrected deletion keeps every child and the balance |
| DeletionFixed.DeleteFixedNoFault | Program.cs:156-195 | on an ordered tree whose nodes all hold keys, the corrected deletion never throws |
| DeletionFixed.DeleteTreeFixed | Program.cs:147-198 | the corrected deletion answers false on an empty tree, which stays empty, and never removes or adds the root |
| DeletionFixed.DeleteTreeFixedCorrect | Program.cs:147-198 | on a valid tree: no exception; false iff `k` is absent; exactly one `k` removed; order and leaf depth kept; search then finds exactly the remaining keys |
| RedBlack.Add | Program.cs:379-416 | the tree's items gain exactly `item`, search-tree order is kept, and an existing root keeps its item and colour |
| RedBlack.AddExisting | Program.cs:412-413 | adding an item already present leaves the tree unchanged |
| RedBlack.AddNew | Program.cs:384-411 | adding a new item adds exactly that entry, with its colour, and one node |
| RedBlack.AddGrafts | Program.cs:384-411 | a new item is hung as a new leaf, with the colour passed, at the empty spot where the comparisons lead; every node on the way keeps its item and colour, and each side not taken is left unchanged |
| Conversion.Opposite | Program.cs:262 | the colour of a node's second and third keys is the opposite of the parent's colour |
| Conversion.ChildColor | Program.cs:271-286 | the second and fourth children are passed black, and every child of a black node is passed black |
| Conversion.OwnEntries | Program.cs:256-268 | a node's own `Add` calls: up to three, with the first key coloured as the node and the others with the other colour |
| Conversion.EmitNode | Program.cs:252-286 | a node that converts holds a key and emits at least one `Add` call |
| Conversion.EmitChildren | Program.cs:271-286 | when the walk over the children succeeds, each of the first four children from the current one holds a key |
| Conversion.EmitPainted | Program.cs:252-286 | on a tree within 2-3-4 capacity (at most three keys and four children per node), starting from black: every node's first key is added black and its other keys red, and the walk does not fail when every node holds a key |
| Conversion.ChildrenPainted | Program.cs:271-286 | on a tree within 2-3-4 capacity (at most three keys and four children per node): the walk over a black node's children from the `i`-th emits each child's painting in order |
| Conversion.EmitFailsOnEmpty | Program.cs:258 | on a tree within 2-3-4 capacity (at most three keys and four children per node): a keyless node anywhere in the tree makes `Keys[0]` throw |
| Conversion.ChildrenFail | Program.cs:271-286 | on a tree within 2-3-4 capacity (at most three keys and four children per node): a keyless child at or after the current one makes the walk over the children throw |
| Conversion.ConvertFails | Program.cs:241-286 | on a tree within 2-3-4 capacity (at most three keys and four children per node): a conversion fails exactly when some node holds no key |
| Conversion.FirstFour | Program.cs:271-286 | a node cut down to its first four children keeps its keys and those children |
| Conversion.EmitOnlyFirstFour | Program.cs:271-286 | the walk of any node, however many children it has, emits exactly what the walk of its first four children emits |
| Conversion.ChildrenFirstFour | Program.cs:271-286 | the same for the walk over the children from any of the first four onwards |
| Conversion.AddAll | Program.cs:379-416 | replaying `Add` calls stores exactly the old items plus the added keys, keeps the order, and the first call fixes the root |
| Conversion.Convert | Program.cs:241-249 | an empty tree converts to an empty tree, and a non-empty one to a non-empty tree |
| Conversion.PaintedKeys | Program.cs:252-286 | on a tree within 2-3-4 capacity (at most three keys and four children per node): the walk emits every key of the subtree exactly once |
| Conversion.ConvertKeys | Program.cs:241-286 | on a tree within 2-3-4 capacity (at most three keys and four children per node) whose nodes all hold keys, the result holds exactly the tree's keys, is a search tree, and has a black root |
| Conversion.ConvertValid | Program.cs:241-249 | every valid 2-3-4 tree converts, to a tree holding exactly its keys |
| RedBlackShape.ToRb | Program.cs:252-286 | the binary tree a 2-3-4 node stands for has a black root, and is empty exactly when the node holds no key |
| RedBlackShape.Built | Program.cs:252-286 | on strictly ordered keys, replaying the walk's calls builds exactly `ToRb` |
| RedBlackShape.ConvertBuilds | Program.cs:241-249 | on a tree with strictly ordered keys where every node holds a key, `Convert` yields exactly `ToRb` of the root, for either layout |
| RedBlackShape.BuildChain | Program.cs:257-269 | a 4-node's keys added in order give a black node with a chain of two red right children |
| RedBlackShape.BuildBalanced | Program.cs:257-269 | the middle key added first gives a black node between two red children |
| RedBlackShape.ToRbBlackHeight | Program.cs:252-286 | a node whose leaves are `h` levels down converts with black height `h + 1` on every path |
| RedBlackShape.MiddleFirstNoRedRed | Program.cs:252-286 | with the middle key first, no red node has a red child |
| RedBlackShape.FullNodeRedRed | Program.cs:257-269 | with keys in order, any 4-node anywhere in the tree puts a red node under a red node |
| RedBlackShape.NoFullSameShape | Program.cs:257-269 | without 4-nodes the two layouts give the same tree |
| RedBlackShape.ConvertMiddleFirstRedBlack | Program.cs:241-286 | a valid 2-3-4 tree without repeated keys converts, with the middle key first, into a red-black tree holding exactly its keys, with black height equal to its number of levels |
| RedBlackShape.ConvertInOrderRedBlackIff | Program.cs:241-286 | the source's conversion always gives an ordered tree with a black root and equal black heights; it is a red-black tree exactly when no node is full |
| Capacity.BalancedFits | Program.cs:14-22 | a shaped node whose leaves are all at one depth is within capacity |
| Capacity.FitsShaped | Program.cs:14-22 | conversely, a balanced node within capacity is shaped |
| Capacity.TakeMaxFits | Program.cs:172-182 | taking the predecessor keeps a node within capacity |
| Capacity.DeleteFixedFits | Program.cs:156-195 | the corrected deletion keeps a node within capacity |
| Capacity.FitsConvertKeepsKeys | Program.cs:241-286 | within capacity, a conversion that succeeds holds exactly the tree's keys |
| Capacity.InsertFits | Program.cs:31-102 | insertion, with either steering, keeps a shaped, balanced node within capacity, even when some leaf holds no key |
| Capacity.InsertBalanced | Program.cs:31-102 | insertion keeps a tree shaped with all leaves at one depth |
| Capacity.DeleteBalanced | Program.cs:147-198 | so does the corrected deletion |
| Capacity.Run | Program.cs:31-198 | any run of insertions and corrected deletions from a shaped, balanced tree ends shaped and balanced |
| Capacity.RunConvertsAllKeys | Program.cs:31-286 | after any such run the tree is within capacity, so a conversion that succeeds holds exactly the tree's keys |
| Capacity.FixedDeleteConvertsAllKeys | Program.cs:147-198 | the corrected deletion keeps a shaped, balanced tree shaped, balanced and within capacity, so converting the result, when it succeeds, loses no key |
| Scenarios.InsertAll | Program.cs:451-456 | inserting a list of keys one by one adds exactly those keys and keeps the shape invariant |
| Scenarios.MainInsertions | Program.cs:449-456 | Main's seven insertions give `[50]` over `[20,30,40]` and `[60,70,80]`, with either steering |
| Scenarios.MainTreesValid | Program.cs:449-466 | the trees Main holds after its insertions and after its deletions are valid 2-3-4 trees |
| Scenarios.SearchOneKeyRoot | Program.cs:216-237 | in a one-key root over two leaves, search finds the root key and the keys on the correct side |
| Scenarios.MainSearches | Program.cs:460-462 | Main's searches: 60 is found and 15 is not |
| Scenarios.MainDeletes | Program.cs:464-466 | deleting 20 and then 60 answers true twice and leaves `[50]` over `[30,40]` and `[70,80]`, where neither 20 nor 60 is found |
| Scenarios.MainConvert | Program.cs:470-473 | Main's final tree converts to the red-black tree `50B(30B(-,40R),70B(-,80R))` with either layout |
| Findings.LastParentKeyLosesKey | Program.cs:58-70 | inserting 35 into Main's tree leaves it under `[20]`, left of the promoted 30, where search does not find it |
| Findings.MedianKeepsKey | Program.cs:58-70 | steered by the median, the same insertion puts 35 right of 30, where search finds it |
| Findings.PredecessorLeafLosesKeys | Program.cs:171-182 | deleting 50 from Main's final tree answers true, empties the root, and makes 30 and 40 unfindable |
| Findings.FixedDeleteKeepsKeys | Program.cs:171-182 | the corrected deletion of 50 still finds 30, 40, 70 and 80, and no longer finds 50 |
| Findings.MissingKeyThrows | Program.cs:185-195 | deleting 15 from Main's tree throws, with the tree unchanged |
| Findings.FixedMissingKeyAbsent | Program.cs:185-197 | the corrected deletion of 15 answers false, with the tree unchanged |
| Findings.InOrderConvertRedRed | Program.cs:257-269 | converting Main's tree before the deletions gives the chains 20B-30R-40R and 60B-70R-80R, which break the red-black rule |
| Findings.MiddleFirstConvertValid | Program.cs:257-269 | adding the middle key first converts the same tree into a red-black tree with two black levels |
| FifthChild.FifthChildDropsKeys | Program.cs:31-286 | from Main's tree, inserting 75, deleting 50 and inserting 85, 90 and 10 gives a root with five children; search finds 85 and 90, yet the conversion succeeds without them |
| FifthChild.FifthChildConverts | Program.cs:241-286 | the five-child tree converts, with either layout, into a tree that holds neither 85 nor 90 |
| Findings.ConvertAfterLostKeysFails | Program.cs:258 | after the faulty deletion of 50, converting the tree throws on the keyless root |

## Left out

- `Print` (Program.cs:290-325 and 418-440), the console output in `Search`'s handler and in `Main`: these are output only. `Main` itself is replayed by the `Scenarios` lemmas.
- Exceptions are modelled as outcomes: `Fault` for `Delete`, `None` for `Convert`, and `false` for `Search`, whose handler catches them. What an exception leaves behind is modelled too: a key may already be overwritten when `Remove` throws.
- Generics: the keys are `int`, and `CompareTo` is integer comparison.
- Reference identity: `FindIndex(x => x == curr)` in `Insert` and `Split` is modelled by the child's slot number. The children of a node are distinct objects.
- `Node.CanLend` (Program.cs:21) is never used.
- The check for null key lists (Program.cs:47-50) is left out, because the lists are never null. `Insert`'s `return false` (Program.cs:101) cannot be reached, so `Insert` returns only the tree.
- `ConvertNode`'s null check and `ElementAtOrDefault` (Program.cs:254, 272-284) are left out, because children are never null.
- The loop in `BSTforRBTree.Add` is modelled as recursion down the same path.
- Neither the source's deletion nor the corrected one merges or rebalances nodes. Leaves may therefore lose all their keys. The corrected deletion still throws when the predecessor leaf is empty, as the source does.
- Lookup.SearchAfterInsert: holds only for the median steering. With the source's steering it fails (see Findings).
- Conversion.ConvertKeys: requires every node to hold one to three keys and at most four children. A keyless node makes the walk throw, and a node with more children loses the keys of the fifth and later ones (see Findings; Capacity.FitsConvertKeepsKeys and Capacity.FixedDeleteConvertsAllKeys say when capacity holds).
- Conversion.EmitPainted: requires the node to be within capacity; beyond it the walk skips children, as Conversion.EmitOnlyFirstFour states.
- Conversion.ChildrenPainted: requires the node to be within capacity, for the same reason.
- Conversion.EmitFailsOnEmpty: requires the node to be within capacity; a keyless node past the fourth child is never looked at and causes no exception.
- Conversion.ChildrenFail: requires the node to be within capacity, for the same reason.
- Conversion.ConvertFails: requires the root to be within capacity, for the same reason.
- Conversion.PaintedKeys: requires the node to be within capacity; beyond it the emitted keys are those of Conversion.FirstFour.
- RedBlackShape.ConvertMiddleFirstRedBlack: requires strictly ordered keys. `Insert` accepts repeated keys, but `Add` drops repeats, so a tree with repeated keys converts to a tree with fewer nodes.
- RedBlackShape.ConvertInOrderRedBlackIff: requires strictly ordered keys, for the same reason.
- Deletion.Delete: states no validity of the result, because the source does not keep the tree valid (see Findings).

## Findings

| source | as written | input that shows it | evidently intended | confidence | as-written member | corrected member |
|---|---|---|---|---|---|---|
| Program.cs:61 | after a split, the new key goes right when it exceeds the parent's last key | insert 35 after Main's keys 50, 40, 60, 30, 70, 20, 80; then search for 35 | go right when the key exceeds the promoted median | high, not executed | Findings.LastParentKeyLosesKey | InsertionOrder.InsertKeepsValid |
| Program.cs:172-182 | when the child left of the key is a leaf, `predParent` is the node itself, so `Remove` deletes the overwritten key from that node | delete 50 from Main's final tree `[50]` over `[30,40]`, `[70,80]` | remove the predecessor from the leaf it came from | high, not executed | Findings.PredecessorLeafLosesKeys | DeletionFixed.DeleteTreeFixedCorrect |
| Program.cs:185-195 | a key that is not stored walks off a leaf and throws | delete 15 from Main's tree after its insertions | answer false | high, not executed | Findings.MissingKeyThrows | DeletionFixed.DeleteFixedAbsentIffNotFound |
| Program.cs:271-286 | the walk visits children 0 to 3 only, so a fifth child and its keys are skipped without an error | from Main's tree after its insertions: insert 75, delete 50, insert 85, 90 and 10 | keep every node within four children, as insertion and the corrected deletion do, so every key is emitted | high, not executed | FifthChild.FifthChildDropsKeys | Capacity.RunConvertsAllKeys |
| Program.cs:262-267 | a 4-node's second and third keys are both added red, in key order, so one becomes the red child of the other | convert Main's tree after its insertions | add the middle key black first, then the outer keys red | high, not executed | Findings.InOrderConvertRedRed | RedBlackShape.ConvertMiddleFirstRedBlack |

=== FILE: capacity.dfy ===
/** The capacity of a 2-3-4 node, which the conversion walk relies on: at
    most three keys and four children (Program.cs:271-286 visits children
    0 to 3 only).  A shaped, balanced tree stays within it, and the corrected
    deletion keeps a tree shaped and balanced; so on such trees the
    conversion emits every key.  The source's own deletion breaks the
    balance (Deletion.PredecessorInChildLeafUnbalances), after which
    insertions can give a node a fifth child.  Insertion itself keeps a
    shaped, balanced tree so, keyless leaves included; hence any run of
    insertions and corrected deletions stays within capacity. */
module Capacity {
  import opened Seqs
  import opened Nodes
  import opened Insertion
  import opened InsertionProperties
  import opened Deletion
  import opened DeletionFixed
  import opened RedBlack
  import opened Conversion

  /** Balance gives every internal node one child more than keys, so a
      shaped, balanced node has at most four children. */
  lemma {:induction false} BalancedFits(n: Node, h: nat)
    requires Shaped(n) && BalancedAt(n, h)
    ensures Fits(n)
    decreases n
  {
    forall i | 0 <= i < |n.children| ensures Fits(n.children[i]) {
      assert h > 0;
      BalancedFits(n.children[i], h - 1);
    }
  }

  /** Conversely, a balanced node within capacity is shaped. */
  lemma {:induction false} FitsShaped(n: Node, h: nat)
    requires Fits(n) && BalancedAt(n, h)
    ensures Shaped(n)
    decreases n
  {
    forall i | 0 <= i < |n.children| ensures Shaped(n.children[i]) {
      assert h > 0;
      FitsShaped(n.children[i], h - 1);
    }
  }

  /** Taking the predecessor adds no key and no child anywhere. */
  lemma {:induction false} TakeMaxFits(c: Node)
    requires Fits(c) && TakeMax(c).Taken?
    ensures Fits(TakeMax(c).node)
    decreases c
  {
    if !c.IsLeaf() {
      var i := |c.children| - 1;
      TakeMaxFits(c.children[i]);
      var r := TakeMax(c).node;
      forall j | 0 <= j < |r.children| ensures Fits(r.children[j]) {
        if j != i {
          assert r.children[j] == c.children[j];
        }
      }
    }
  }

  /** Nor does the corrected deletion. */
  lemma {:induction false} DeleteFixedFits(n: Node, k: int)
    requires Fits(n)
    ensures Fits(DeleteFixed(n, k).node)
    decreases n
  {
    var r := DeleteFixed(n, k).node;
    var i := IndexOf(n.keys, k);
    if i < |n.keys| {
      if !n.IsLeaf() && i < |n.children| && TakeMax(n.children[i]).Taken? {
        TakeMaxFits(n.children[i]);
        forall j | 0 <= j < |r.children| ensures Fits(r.children[j]) {
          if j != i {
            assert r.children[j] == n.children[j];
          }
        }
      }
    } else if !n.IsLeaf() {
      var j := ChildSlot(n, k);
      if 0 <= j < |n.children| && DeleteFixed(n.children[j], k).outcome == Removed {
        DeleteFixedFits(n.children[j], k);
        forall m | 0 <= m < |r.children| ensures Fits(r.children[m]) {
          if m != j {
            assert r.children[m] == n.children[m];
          }
        }
      }
    }
  }

  /** Within capacity, a conversion that succeeds holds exactly the tree's
      keys. */
  lemma FitsConvertKeepsKeys(t: Tree, layout: Layout)
    requires t.Root? ==> Fits(t.root)
    ensures Convert(t, layout).Some? ==> forall x :: x in Items(Convert(t, layout).value) <==> x in TreeKeys(t)
  {
    if t.Root? && Convert(t, layout).Some? {
      ConvertFails(t, layout);
      ConvertKeys(t, layout);
    }
  }

  /** The corrected deletion keeps a shaped, balanced tree shaped, balanced
      and within capacity, so its conversion, when it succeeds, loses no
      key. */
  lemma FixedDeleteConvertsAllKeys(t: Tree, k: int, h: nat, layout: Layout)
    requires t.Root? ==> Shaped(t.root) && BalancedAt(t.root, h)
    ensures var u := DeleteTreeFixed(t, k).tree;
      u.Root? ==> Shaped(u.root) && BalancedAt(u.root, h) && Fits(u.root)
    ensures var u := DeleteTreeFixed(t, k).tree;
      Convert(u, layout).Some? ==> forall x :: x in Items(Convert(u, layout).value) <==> x in TreeKeys(u)
  {
    var u := DeleteTreeFixed(t, k).tree;
    if t.Root? {
      BalancedFits(t.root, h);
      DeleteFixedFits(t.root, k);
      DeleteFixedShape(t.root, k, h);
      FitsShaped(u.root, h);
    }
    FitsConvertKeepsKeys(u, layout);
  }

  /** A tree that is shaped and has all its leaves at one depth.  Leaves may
      have lost all their keys. */
  ghost predicate Balanced(t: Tree) {
    t.Root? ==> Shaped(t.root) && BalancedAt(t.root, Height(t.root))
  }

  /** Insertion keeps a shaped, balanced node within capacity, with either
      steering, even when some leaf holds no key. */
  lemma InsertFits(n: Node, k: int, steer: Steering, h: nat)
    requires Shaped(n) && BalancedAt(n, h)
    ensures Fits(Insert(Root(n), k, steer).root)
  {
    InsertKeepsBalance(n, k, steer, h);
    InsertAddsKey(Root(n), k, steer);
    BalancedFits(Insert(Root(n), k, steer).root, if n.IsFull() then h + 1 else h);
  }

  /** Insertion keeps a tree balanced. */
  lemma InsertBalanced(t: Tree, k: int, steer: Steering)
    requires Balanced(t)
    ensures Balanced(Insert(t, k, steer))
  {
    InsertAddsKey(t, k, steer);
    if t.Root? {
      var h := if t.root.IsFull() then Height(t.root) + 1 else Height(t.root);
      InsertKeepsBalance(t.root, k, steer, Height(t.root));
      BalancedHeight(Insert(t, k, steer).root, h);
    } else {
      assert BalancedAt(Insert(t, k, steer).root, 0);
    }
  }

  /** So does the corrected deletion. */
  lemma DeleteBalanced(t: Tree, k: int)
    requires Balanced(t)
    ensures Balanced(DeleteTreeFixed(t, k).tree)
  {
    if t.Root? {
      FixedDeleteConvertsAllKeys(t, k, Height(t.root), KeysInOrder);
      BalancedHeight(DeleteTreeFixed(t, k).tree.root, Height(t.root));
    }
  }

  /** One step of a run: an insertion or a deletion of a key. */
  datatype Op = Ins(key: int) | Del(key: int)

  /** A run of insertions and corrected deletions, in order. */
  function Run(t: Tree, ops: seq<Op>, steer: Steering): (r: Tree)
    requires Balanced(t)
    ensures Balanced(r)
    decreases |ops|
  {
    if |ops| == 0 then t
    else
      var u := match ops[0]
        case Ins(k) => (InsertBalanced(t, k, steer); Insert(t, k, steer))
        case Del(k) => (DeleteBalanced(t, k); DeleteTreeFixed(t, k).tree);
      Run(u, ops[1..], steer)
  }

  /** Any run of insertions and corrected deletions from a balanced tree ends
      within capacity, so converting the result, when it succeeds, keeps
      every key. */
  lemma RunConvertsAllKeys(t: Tree, ops: seq<Op>, steer: Steering, layout: Layout)
    requires Balanced(t)
    ensures var u := Run(t, ops, steer); u.Root? ==> Fits(u.root)
    ensures var u := Run(t, ops, steer);
      Convert(u, layout).Some? ==> forall x :: x in Items(Convert(u, layout).value) <==> x in TreeKeys(u)
  {
    var u := Run(t, ops, steer);
    if u.Root? {
      BalancedFits(u.root, Height(u.root));
    }
    FitsConvertKeepsKeys(u, layout);
  }
}

=== FILE: conversion.dfy ===
/** The 2-3-4 to red-black conversion (Program.cs:241-286).

    The source walks the tree in pre-order and, for each node, calls `Add`
    on the target tree for its keys and then recurses into at most four
    children.  Here the walk produces the sequence of `Add` calls it makes,
    and `Convert` performs them in that order; the two are the same because
    nothing else touches the target tree in between.  A node without keys
    makes the source index an empty list and throw out of `Convert`: that is
    `None` here.

    `Layout` selects how a node's own keys are handed to `Add`: as the
    source does (`KeysInOrder`) or with the middle key of a full node first
    (`MiddleFirst`, the correction proved in RedBlackShape). */
module Conversion {
  import opened Nodes
  import opened RedBlack

  datatype Option<T> = None | Some(value: T)

  /** One call `Add(key, rb)` on the target tree. */
  datatype Entry = Entry(key: int, rb: Color)

  datatype Layout = KeysInOrder | MiddleFirst

  function Opposite(c: Color): (r: Color)
    ensures r != c
  {
    if c == Red then Black else Red
  }

  /** The colour passed down to child `i` (Program.cs:271-286): the node's
      own colour to the first and third child, black to the second and
      fourth. */
  function ChildColor(i: nat, nodeColor: Color): (c: Color)
    ensures i % 2 == 1 ==> c == Black
    ensures nodeColor == Black ==> c == Black
  {
    if i % 2 == 0 then nodeColor else Black
  }

  /** The `Add` calls for a node's own keys (Program.cs:257-269): the first
      key with the node's colour, the second and third with the opposite of
      the parent's colour.  Keys past the third are never looked at. */
  function OwnEntries(ks: seq<int>, nodeColor: Color, otherColor: Color, layout: Layout): (r: seq<Entry>)
    requires |ks| > 0
    ensures |r| == if |ks| < 3 then |ks| else 3
    ensures layout == KeysInOrder || |ks| < 3 ==>
              r[0] == Entry(ks[0], nodeColor) && forall j :: 1 <= j < |r| ==> r[j] == Entry(ks[j], otherColor)
    ensures layout == MiddleFirst && |ks| >= 3 ==>
              r == [Entry(ks[1], nodeColor), Entry(ks[0], otherColor), Entry(ks[2], otherColor)]
  {
    if layout == MiddleFirst && |ks| >= 3 then
      [Entry(ks[1], nodeColor), Entry(ks[0], otherColor), Entry(ks[2], otherColor)]
    else
      [Entry(ks[0], nodeColor)]
      + (if |ks| > 1 then [Entry(ks[1], otherColor)] else [])
      + (if |ks| > 2 then [Entry(ks[2], otherColor)] else [])
  }

  /** `ConvertNode` of Program.cs:252-286.  Only the root has no parent,
      and only the root takes black regardless of `parentColor`. */
  function EmitNode(n: Node, parentColor: Color, isRoot: bool, layout: Layout): (r: Option<seq<Entry>>)
    ensures r.Some? ==> |n.keys| > 0 && |r.value| > 0
    decreases n, 1
  {
    if |n.keys| == 0 then None
    else
      var nodeColor := if isRoot then Black else parentColor;
      var own := OwnEntries(n.keys, nodeColor, Opposite(parentColor), layout);
      match EmitChildren(n, 0, nodeColor, layout)
      case None => None
      case Some(rest) => Some(own + rest)
  }

  /** Children `i` up to the fourth, left to right; the first failure stops
      the walk. */
  function EmitChildren(n: Node, i: nat, nodeColor: Color, layout: Layout): (r: Option<seq<Entry>>)
    ensures r.Some? ==> forall j :: i <= j < |n.children| && j < 4 ==> |n.children[j].keys| > 0
    decreases n, 0, 4 - i
  {
    if i < 4 && i < |n.children| then
      match EmitNode(n.children[i], ChildColor(i, nodeColor), false, layout)
      case None => None
      case Some(es) =>
        match EmitChildren(n, i + 1, nodeColor, layout)
        case None => None
        case Some(rest) => Some(es + rest)
    else Some([])
  }

  /** A node cut down to its first four children, the most the walk visits. */
  function FirstFour(n: Node): (r: Node)
    ensures r.keys == n.keys
    ensures |r.children| == if |n.children| <= 4 then |n.children| else 4
    ensures forall i :: 0 <= i < |r.children| ==> r.children[i] == n.children[i]
  {
    Node(n.keys, if |n.children| <= 4 then n.children else n.children[..4])
  }

  /** Program.cs:271-286 names the children 0 to 3 one by one, so a fifth
      child and everything below it never reach the output: the walk of any
      node gives what the walk of its first four children gives. */
  lemma EmitOnlyFirstFour(n: Node, parentColor: Color, isRoot: bool, layout: Layout)
    ensures EmitNode(n, parentColor, isRoot, layout) == EmitNode(FirstFour(n), parentColor, isRoot, layout)
  {
    ChildrenFirstFour(n, 0, if isRoot then Black else parentColor, layout);
  }

  lemma {:induction false} ChildrenFirstFour(n: Node, i: nat, nodeColor: Color, layout: Layout)
    requires i <= 4
    ensures EmitChildren(n, i, nodeColor, layout) == EmitChildren(FirstFour(n), i, nodeColor, layout)
    decreases 4 - i
  {
    if i < 4 && i < |n.children| {
      ChildrenFirstFour(n, i + 1, nodeColor, layout);
    }
  }

  function EntryKeys(es: seq<Entry>): (ks: seq<int>)
    ensures |ks| == |es|
    ensures forall j :: 0 <= j < |es| ==> ks[j] == es[j].key
  {
    if |es| == 0 then [] else [es[0].key] + EntryKeys(es[1..])
  }

  /** The calls to `Add` made one after another. */
  function AddAll(b: Bst, es: seq<Entry>): (r: Bst)
    ensures forall x :: x in Items(r) <==> x in Items(b) || x in EntryKeys(es)
    ensures BstOrdered(b) ==> BstOrdered(r)
    ensures b.BNode? ==> r.BNode? && r.item == b.item && r.rb == b.rb
    ensures b.Nil? && |es| > 0 ==> r.BNode? && r.item == es[0].key && r.rb == es[0].rb
    decreases |es|
  {
    if |es| == 0 then b
    else
      assert EntryKeys(es) == [es[0].key] + EntryKeys(es[1..]);
      AddAll(Add(b, es[0].key, es[0].rb), es[1..])
  }

  /** Program.cs:241-249: an empty tree converts to an empty tree; otherwise
      the root is converted as a node without a parent, starting from
      black. */
  function Convert(t: Tree, layout: Layout): (r: Option<Bst>)
    ensures t.Empty? ==> r == Some(Nil)
    ensures t.Root? && r.Some? ==> r.value.BNode?
  {
    match t
    case Empty => Some(Nil)
    case Root(n) =>
      match EmitNode(n, Black, true, layout)
      case None => None
      case Some(es) => Some(AddAll(Nil, es))
  }

  // ---------------------------------------------------------------------
  // What the walk emits

  /** Every node within the capacity of a 2-3-4 node: at most three keys and
      four children, so the walk looks at all of them. */
  ghost predicate Fits(n: Node)
    decreases n
  {
    && |n.keys| <= 3 && |n.children| <= 4
    && forall i :: 0 <= i < |n.children| ==> Fits(n.children[i])
  }

  lemma {:induction false} OrderedFits(n: Node)
    requires Ordered(n) && Occupied(n)
    ensures Fits(n)
    decreases n
  {
    forall i | 0 <= i < |n.children| ensures Fits(n.children[i]) {
      OrderedFits(n.children[i]);
    }
  }

  /** The colouring the walk is meant to give, stated without colours being
      passed down: each node's leading entry black, its other keys red,
      then its children left to right. */
  function Painted(n: Node, layout: Layout): seq<Entry>
    decreases n
  {
    (if |n.keys| == 0 then [] else OwnEntries(n.keys, Black, Red, layout)) + PaintForest(n.children, layout)
  }

  function PaintForest(cs: seq<Node>, layout: Layout): seq<Entry>
    decreases cs
  {
    if |cs| == 0 then [] else Painted(cs[0], layout) + PaintForest(cs[1..], layout)
  }

  /** Starting from black, the colour passed down is always black, so every
      node gets the black-leader, red-others colouring; and on a tree where
      every node holds a key the walk never fails. */
  lemma {:induction false} EmitPainted(n: Node, parentColor: Color, isRoot: bool, layout: Layout)
    requires Occupied(n) && Fits(n) && parentColor == Black
    ensures EmitNode(n, parentColor, isRoot, layout) == Some(Painted(n, layout))
    decreases n, 1
  {
    ChildrenPainted(n, 0, layout);
    assert Opposite(parentColor) == Red;
    assert n.children[0..] == n.children;
  }

  lemma {:induction false} ChildrenPainted(n: Node, i: nat, layout: Layout)
    requires Occupied(n) && Fits(n) && i <= |n.children|
    ensures EmitChildren(n, i, Black, layout) == Some(PaintForest(n.children[i..], layout))
    decreases n, 0, |n.children| - i
  {
    if i < |n.children| {
      EmitPainted(n.children[i], Black, false, layout);
      ChildrenPainted(n, i + 1, layout);
      assert n.children[i..][1..] == n.children[i + 1..];
    }
  }

  /** With every node inside a 2-3-4 node's capacity, the walk fails exactly
      when some node holds no key. */
  lemma {:induction false} EmitFailsOnEmpty(n: Node, parentColor: Color, isRoot: bool, layout: Layout)
    requires Fits(n) && !Occupied(n)
    ensures EmitNode(n, parentColor, isRoot, layout).None?
    decreases n, 1
  {
    if |n.keys| > 0 {
      var j :| 0 <= j < |n.children| && !Occupied(n.children[j]);
      var nodeColor := if isRoot then Black else parentColor;
      ChildrenFail(n, 0, j, nodeColor, layout);
    }
  }

  lemma {:induction false} ChildrenFail(n: Node, i: nat, j: nat, nodeColor: Color, layout: Layout)
    requires Fits(n) && i <= j < |n.children| && !Occupied(n.children[j])
    ensures EmitChildren(n, i, nodeColor, layout).None?
    decreases n, 0, |n.children| - i
  {
    if i == j {
      EmitFailsOnEmpty(n.children[i], ChildColor(i, nodeColor), false, layout);
    } else {
      ChildrenFail(n, i + 1, j, nodeColor, layout);
    }
  }

  lemma {:induction false} EntryKeysAppend(a: seq<Entry>, b: seq<Entry>)
    ensures EntryKeys(a + b) == EntryKeys(a) + EntryKeys(b)
  {
  }

  /** The walk emits every key of the subtree exactly as often as it is
      stored: each key is added once, in pre-order. */
  lemma {:induction false} PaintedKeys(n: Node, layout: Layout)
    requires Fits(n)
    ensures multiset(EntryKeys(Painted(n, layout))) == KeysOf(n)
    decreases n, 1
  {
    var own := if |n.keys| == 0 then [] else OwnEntries(n.keys, Black, Red, layout);
    EntryKeysAppend(own, PaintForest(n.children, layout));
    PaintForestKeys(n, 0, layout);
    assert n.children[0..] == n.children;
    if |n.keys| > 0 {
      OwnKeys(n.keys, layout);
    }
  }

  lemma OwnKeys(ks: seq<int>, layout: Layout)
    requires 0 < |ks| <= 3
    ensures multiset(EntryKeys(OwnEntries(ks, Black, Red, layout))) == multiset(ks)
  {
    if layout == MiddleFirst && |ks| == 3 {
      MiddleFirstKeys(ks);
    } else {
      InOrderKeys(ks, layout);
    }
  }

  lemma InOrderKeys(ks: seq<int>, layout: Layout)
    requires 0 < |ks| <= 3 && (layout == KeysInOrder || |ks| < 3)
    ensures EntryKeys(OwnEntries(ks, Black, Red, layout)) == ks
  {
    var own := OwnEntries(ks, Black, Red, layout);
    var eks := EntryKeys(own);
    forall j | 0 <= j < |ks| ensures eks[j] == ks[j] {
      assert eks[j] == own[j].key;
    }
  }

  lemma MiddleFirstKeys(ks: seq<int>)
    requires |ks| == 3
    ensures multiset(EntryKeys(OwnEntries(ks, Black, Red, MiddleFirst))) == multiset(ks)
  {
    var eks := EntryKeys(OwnEntries(ks, Black, Red, MiddleFirst));
    assert eks == [ks[1]] + [ks[0]] + [ks[2]];
    assert ks == [ks[0]] + [ks[1]] + [ks[2]];
  }

  lemma {:induction false} PaintForestKeys(n: Node, i: nat, layout: Layout)
    requires Fits(n) && i <= |n.children|
    ensures multiset(EntryKeys(PaintForest(n.children[i..], layout))) == ForestKeys(n.children[i..])
    decreases n, 0, |n.children| - i
  {
    if i < |n.children| {
      var cs := n.children[i..];
      assert cs[1..] == n.children[i + 1..];
      PaintedKeys(n.children[i], layout);
      PaintForestKeys(n, i + 1, layout);
      EntryKeysAppend(Painted(cs[0], layout), PaintForest(cs[1..], layout));
    }
  }

  lemma {:induction false} EntryKeysMember(es: seq<Entry>, x: int)
    ensures x in EntryKeys(es) <==> x in multiset(EntryKeys(es))
  {
  }

  /** Program.cs:241-286 on a tree whose nodes each hold one to three keys
      and have at most four children: the conversion succeeds, its result is
      a search tree holding exactly the keys of the 2-3-4 tree (a repeated
      key once), and its root is black. */
  lemma ConvertKeys(t: Tree, layout: Layout)
    requires t.Root? ==> Occupied(t.root) && Fits(t.root)
    ensures Convert(t, layout).Some?
    ensures forall x :: x in Items(Convert(t, layout).value) <==> x in TreeKeys(t)
    ensures BstOrdered(Convert(t, layout).value)
    ensures RootColor(Convert(t, layout).value) == Black
  {
    if t.Root? {
      var n := t.root;
      EmitPainted(n, Black, true, layout);
      PaintedKeys(n, layout);
      var es := Painted(n, layout);
      forall x ensures x in EntryKeys(es) <==> x in KeysOf(n) {
        EntryKeysMember(es, x);
      }
    }
  }

  /** The conversion of a tree whose nodes fit a 2-3-4 node fails exactly
      when some node holds no key, as deletion can leave a leaf. */
  lemma ConvertFails(t: Tree, layout: Layout)
    requires t.Root? && Fits(t.root)
    ensures Convert(t, layout).None? <==> !Occupied(t.root)
  {
    if Occupied(t.root) {
      EmitPainted(t.root, Black, true, layout);
    } else {
      EmitFailsOnEmpty(t.root, Black, true, layout);
    }
  }

  /** On a valid 2-3-4 tree the conversion always succeeds. */
  lemma ConvertValid(t: Tree, layout: Layout)
    requires ValidTree(t)
    ensures Convert(t, layout).Some?
    ensures forall x :: x in Items(Convert(t, layout).value) <==> x in TreeKeys(t)
  {
    if t.Root? {
      OrderedFits(t.root);
    }
    ConvertKeys(t, layout);
  }
}

=== FILE: deletion.dfy ===
/** Deletion as the source writes it (Program.cs:147-214).

    The descent looks for `k` in each node it enters.  In a leaf the first
    occurrence is removed.  In an internal node at position `pos` the key is
    overwritten with the last key of the rightmost leaf under
    `Children[pos]`, and that value is then removed, starting from the parent
    of that leaf, by `Remove`.

    The source signals failure by throwing from list indexing: a descent
    that reaches a leaf without finding `k`, an empty predecessor leaf, and
    `Remove` computing `Children[-1]` all throw.  Those are the `Fault`
    outcome here, carrying the tree as it was when the exception left the
    method (the overwrite of the key may already have happened). */
module Deletion {
  import opened Seqs
  import opened Nodes
  import opened Insertion

  /** `Removed` is the source's `true`, `Absent` its `false`, `Fault` an
      exception. */
  datatype Outcome = Removed | Absent | Fault

  datatype Removal = Removal(node: Node, outcome: Outcome)

  datatype TreeRemoval = TreeRemoval(tree: Tree, outcome: Outcome)

  /** Program.cs:200-214: remove the first occurrence of `v` from `n`, else
      descend into the child before the first greater key.  When no key is
      greater, `FindIndex` answers -1 and `Children[-1]` throws. */
  function RemoveFrom(n: Node, v: int): (r: Removal)
    ensures r.outcome != Absent
    ensures r.outcome == Fault ==> r.node == n
    ensures |r.node.children| == |n.children|
    decreases n
  {
    var i := IndexOf(n.keys, v);
    if i < |n.keys| then Removal(Node(RemoveAt(n.keys, i), n.children), Removed)
    else
      var u := UpperIndex(n.keys, v);
      if u == |n.keys| || u >= |n.children| then Removal(n, Fault)
      else
        var sub := RemoveFrom(n.children[u], v);
        Removal(Node(n.keys, n.children[u := sub.node]), sub.outcome)
  }

  /** The leaf the predecessor loop (Program.cs:172-177) stops at: always the
      last child. */
  function RightmostLeaf(c: Node): (l: Node)
    ensures l.IsLeaf()
    decreases c
  {
    if c.IsLeaf() then c else RightmostLeaf(Last(c.children))
  }

  /** `Remove(v, predParent)` where `predParent` is the parent of the
      rightmost leaf of the internal node `c`, with the path back up to `c`
      rebuilt around the result. */
  function RemoveUnderRightmost(c: Node, v: int): (r: Removal)
    requires !c.IsLeaf()
    ensures r.outcome != Absent
    ensures r.outcome == Fault ==> r.node == c
    ensures |r.node.children| == |c.children|
    decreases c
  {
    var last := Last(c.children);
    if last.IsLeaf() then RemoveFrom(c, v)
    else
      var sub := RemoveUnderRightmost(last, v);
      Removal(Node(c.keys, c.children[|c.children| - 1 := sub.node]), sub.outcome)
  }

  /** The loop of Program.cs:156-195 from a node it has entered. */
  function DeleteNode(n: Node, k: int): (r: Removal)
    ensures r.outcome != Absent
    ensures |r.node.children| == |n.children|
    decreases n
  {
    var i := IndexOf(n.keys, k);
    if i < |n.keys| then
      if n.IsLeaf() then Removal(Node(RemoveAt(n.keys, i), []), Removed)
      else if i >= |n.children| then Removal(n, Fault)
      else
        var c := n.children[i];
        var pred := RightmostLeaf(c);
        if |pred.keys| == 0 then Removal(n, Fault)
        else
          var v := Last(pred.keys);
          var m := Node(n.keys[i := v], n.children);
          if c.IsLeaf() then RemoveFrom(m, v)
          else
            var sub := RemoveUnderRightmost(c, v);
            Removal(Node(m.keys, m.children[i := sub.node]), sub.outcome)
    else if n.IsLeaf() then Removal(n, Fault)
    else
      var j := ChildSlot(n, k);
      if j < 0 || j >= |n.children| then Removal(n, Fault)
      else
        var sub := DeleteNode(n.children[j], k);
        Removal(Node(n.keys, n.children[j := sub.node]), sub.outcome)
  }

  /** Program.cs:147-198: an empty tree answers false and stays empty. */
  function Delete(t: Tree, k: int): (r: TreeRemoval)
    ensures t.Empty? <==> r.outcome == Absent
    ensures t.Empty? ==> r.tree.Empty?
    ensures r.tree.Root? <==> t.Root?
  {
    match t
    case Empty => TreeRemoval(Empty, Absent)
    case Root(n) =>
      var r := DeleteNode(n, k);
      TreeRemoval(Root(r.node), r.outcome)
  }

  // ---------------------------------------------------------------------
  // What a removal does to the keys

  /** Removing the key at `i` from a node's own list drops exactly it from
      the subtree. */
  lemma RemoveOwnKey(n: Node, i: nat)
    requires i < |n.keys|
    ensures KeysOf(Node(RemoveAt(n.keys, i), n.children)) + multiset{n.keys[i]} == KeysOf(n)
  {
    var a, f, x := multiset(RemoveAt(n.keys, i)), ForestKeys(n.children), multiset{n.keys[i]};
    assert a + x == multiset(n.keys);
    forall y ensures (a + f + x)[y] == (multiset(n.keys) + f)[y] {
    }
  }

  lemma {:induction false} RemoveFromKeys(n: Node, v: int)
    ensures RemoveFrom(n, v).outcome == Removed ==> KeysOf(RemoveFrom(n, v).node) + multiset{v} == KeysOf(n)
    decreases n
  {
    var i := IndexOf(n.keys, v);
    if i < |n.keys| {
      RemoveOwnKey(n, i);
    } else {
      var u := UpperIndex(n.keys, v);
      if u < |n.keys| && u < |n.children| {
        var sub := RemoveFrom(n.children[u], v);
        RemoveFromKeys(n.children[u], v);
        if sub.outcome == Removed {
          ReplaceChildRemoves(n, u, sub.node, v);
        }
      }
    }
  }

  lemma {:induction false} RemoveUnderRightmostKeys(c: Node, v: int)
    requires !c.IsLeaf()
    ensures RemoveUnderRightmost(c, v).outcome == Removed ==> KeysOf(RemoveUnderRightmost(c, v).node) + multiset{v} == KeysOf(c)
    decreases c
  {
    var last := Last(c.children);
    if last.IsLeaf() {
      RemoveFromKeys(c, v);
    } else {
      var sub := RemoveUnderRightmost(last, v);
      RemoveUnderRightmostKeys(last, v);
      if sub.outcome == Removed {
        ReplaceChildRemoves(c, |c.children| - 1, sub.node, v);
      }
    }
  }

  /** Overwriting key `i` with `v` trades one occurrence of the old key for
      one of `v`. */
  lemma OverwriteKeys(n: Node, i: nat, v: int)
    requires i < |n.keys|
    ensures KeysOf(Node(n.keys[i := v], n.children)) + multiset{n.keys[i]} == KeysOf(n) + multiset{v}
  {
    var ks := n.keys[i := v];
    assert multiset(ks) + multiset{n.keys[i]} == multiset(n.keys) + multiset{v} by {
      assert ks == n.keys[..i] + [v] + n.keys[i + 1..];
      assert n.keys == n.keys[..i] + [n.keys[i]] + n.keys[i + 1..];
    }
    var f := ForestKeys(n.children);
    forall y ensures (multiset(ks) + f + multiset{n.keys[i]})[y] == (multiset(n.keys) + f + multiset{v})[y] {
    }
  }

  /** Whatever path it takes, a successful deletion drops exactly one
      occurrence of `k` from the subtree. */
  lemma {:induction false} DeleteNodeKeys(n: Node, k: int)
    ensures DeleteNode(n, k).outcome == Removed ==> KeysOf(DeleteNode(n, k).node) + multiset{k} == KeysOf(n)
    decreases n
  {
    var r := DeleteNode(n, k);
    var i := IndexOf(n.keys, k);
    if r.outcome != Removed {
    } else if i < |n.keys| {
      if n.IsLeaf() {
        RemoveOwnKey(n, i);
      } else {
        var c := n.children[i];
        var v := Last(RightmostLeaf(c).keys);
        var m := Node(n.keys[i := v], n.children);
        OverwriteKeys(n, i, v);
        if c.IsLeaf() {
          RemoveFromKeys(m, v);
          CancelTrade(KeysOf(r.node), KeysOf(m), KeysOf(n), k, v);
        } else {
          var sub := RemoveUnderRightmost(c, v);
          RemoveUnderRightmostKeys(c, v);
          ReplaceChildRemoves(m, i, sub.node, v);
          CancelTrade(KeysOf(r.node), KeysOf(m), KeysOf(n), k, v);
        }
      }
    } else {
      var j := ChildSlot(n, k);
      var sub := DeleteNode(n.children[j], k);
      DeleteNodeKeys(n.children[j], k);
      ReplaceChildRemoves(n, j, sub.node, k);
    }
  }

  /** Removing `v` after trading `k` for `v` removes `k`. */
  lemma CancelTrade(r: multiset<int>, m: multiset<int>, n: multiset<int>, k: int, v: int)
    requires r + multiset{v} == m && m + multiset{k} == n + multiset{v}
    ensures r + multiset{k} == n
  {
    forall y ensures (r + multiset{k})[y] == n[y] {
      assert (r + multiset{v} + multiset{k})[y] == (n + multiset{v})[y];
    }
  }

  // ---------------------------------------------------------------------
  // Shape

  lemma {:induction false} RemoveFromShape(n: Node, v: int)
    ensures SameShape(RemoveFrom(n, v).node, n)
    ensures Shaped(n) ==> Shaped(RemoveFrom(n, v).node)
    decreases n
  {
    var i := IndexOf(n.keys, v);
    if i < |n.keys| {
      KeysOnlySameShape(n, RemoveAt(n.keys, i));
    } else {
      var u := UpperIndex(n.keys, v);
      if u == |n.keys| || u >= |n.children| {
        SameShapeRefl(n);
      } else {
        var sub := RemoveFrom(n.children[u], v);
        RemoveFromShape(n.children[u], v);
        ReplaceChildSameShape(n, n.keys, u, sub.node);
        if Shaped(n) {
          ReplaceChildShaped(n, u, sub.node);
        }
      }
    }
  }

  lemma {:induction false} RemoveUnderRightmostShape(c: Node, v: int)
    requires !c.IsLeaf()
    ensures SameShape(RemoveUnderRightmost(c, v).node, c)
    ensures Shaped(c) ==> Shaped(RemoveUnderRightmost(c, v).node)
    decreases c
  {
    var last := Last(c.children);
    if last.IsLeaf() {
      RemoveFromShape(c, v);
    } else {
      var sub := RemoveUnderRightmost(last, v);
      RemoveUnderRightmostShape(last, v);
      ReplaceChildSameShape(c, c.keys, |c.children| - 1, sub.node);
      if Shaped(c) {
        ReplaceChildShaped(c, |c.children| - 1, sub.node);
      }
    }
  }

  /** Deletion never adds or removes a child anywhere, and keeps the shape
      invariant: it only removes or overwrites keys. */
  lemma {:induction false} DeleteNodeShape(n: Node, k: int)
    ensures SameShape(DeleteNode(n, k).node, n)
    ensures Shaped(n) ==> Shaped(DeleteNode(n, k).node)
    decreases n
  {
    var i := IndexOf(n.keys, k);
    if i < |n.keys| {
      if n.IsLeaf() {
        KeysOnlySameShape(n, RemoveAt(n.keys, i));
      } else if i >= |n.children| || |RightmostLeaf(n.children[i]).keys| == 0 {
        SameShapeRefl(n);
      } else {
        var c := n.children[i];
        var v := Last(RightmostLeaf(c).keys);
        var m := Node(n.keys[i := v], n.children);
        KeysOnlySameShape(n, m.keys);
        if c.IsLeaf() {
          RemoveFromShape(m, v);
          SameShapeTrans(RemoveFrom(m, v).node, m, n);
        } else {
          var sub := RemoveUnderRightmost(c, v);
          RemoveUnderRightmostShape(c, v);
          ReplaceChildSameShape(n, m.keys, i, sub.node);
          if Shaped(n) {
            ReplaceChildShaped(m, i, sub.node);
          }
        }
      }
    } else if n.IsLeaf() || ChildSlot(n, k) >= |n.children| {
      SameShapeRefl(n);
    } else {
      var j := ChildSlot(n, k);
      var sub := DeleteNode(n.children[j], k);
      DeleteNodeShape(n.children[j], k);
      ReplaceChildSameShape(n, n.keys, j, sub.node);
      if Shaped(n) {
        ReplaceChildShaped(n, j, sub.node);
      }
    }
  }

  // ---------------------------------------------------------------------
  // The individual paths

  /** A key stored nowhere in the subtree is never matched, so the descent
      ends on a leaf and throws, with nothing changed: the source never
      answers false for a non-empty tree. */
  lemma {:induction false} MissingKeyFaults(n: Node, k: int)
    requires k !in KeysOf(n)
    ensures DeleteNode(n, k) == Removal(n, Fault)
    decreases n
  {
    assert k !in n.keys;
    if !n.IsLeaf() {
      var j := ChildSlot(n, k);
      if 0 <= j < |n.children| {
        ChildKeysIncluded(n.children, j);
        MissingKeyFaults(n.children[j], k);
        assert n.children[j := n.children[j]] == n.children;
      }
    }
  }

  /** Program.cs:163-167: in a leaf the first occurrence of `k` is removed,
      the keys before it stay in place, the rest shift left, and sorted keys
      stay sorted. */
  lemma DeleteFromLeaf(n: Node, k: int)
    requires n.IsLeaf() && k in n.keys
    ensures DeleteNode(n, k).outcome == Removed
    ensures DeleteNode(n, k).node.IsLeaf()
    ensures multiset(DeleteNode(n, k).node.keys) == multiset(n.keys) - multiset{k}
    ensures forall j :: 0 <= j < IndexOf(n.keys, k) ==> DeleteNode(n, k).node.keys[j] == n.keys[j] != k
    ensures forall j :: IndexOf(n.keys, k) <= j < |n.keys| - 1 ==> DeleteNode(n, k).node.keys[j] == n.keys[j + 1]
    ensures Sorted(n.keys) ==> Sorted(DeleteNode(n, k).node.keys)
  {
  }

  /** Program.cs:168-182 when the child left of `k` is a leaf: the
      predecessor loop never runs, so `predParent` is the node itself.  The
      key is overwritten with the leaf's last key, and `Remove` then deletes
      the first occurrence of that value from the node's own keys.  The node
      ends up with one key fewer and the same children, while the value stays
      in the leaf. */
  lemma PredecessorInChildLeaf(n: Node, k: int)
    requires k in n.keys && IndexOf(n.keys, k) < |n.children|
    requires n.children[IndexOf(n.keys, k)].IsLeaf() && |n.children[IndexOf(n.keys, k)].keys| > 0
    ensures var r := DeleteNode(n, k);
      && r.outcome == Removed
      && r.node.children == n.children
      && |r.node.keys| == |n.keys| - 1
  {
    var i := IndexOf(n.keys, k);
    var v := Last(n.children[i].keys);
    var m := Node(n.keys[i := v], n.children);
    assert m.keys[i] == v;
    assert IndexOf(m.keys, v) < |m.keys|;
  }

  /** With such a node, a balanced node stops being balanced: it has two
      more children than keys. */
  lemma PredecessorInChildLeafUnbalances(n: Node, k: int, h: nat)
    requires BalancedAt(n, h) && !n.IsLeaf()
    requires k in n.keys && n.children[IndexOf(n.keys, k)].IsLeaf() && |n.children[IndexOf(n.keys, k)].keys| > 0
    ensures DeleteNode(n, k).outcome == Removed
    ensures !BalancedAt(DeleteNode(n, k).node, h) && !Ordered(DeleteNode(n, k).node)
  {
    PredecessorInChildLeaf(n, k);
  }

  /** The parent of the rightmost leaf below an internal node: where the
      source's `Remove` starts. */
  function RightmostParent(c: Node): (p: Node)
    requires !c.IsLeaf()
    ensures !p.IsLeaf() && Last(p.children).IsLeaf()
    decreases c
  {
    var last := Last(c.children);
    if last.IsLeaf() then c else RightmostParent(last)
  }

  /** Program.cs:207-211: when every key of the node is below `v`,
      `FindIndex` answers -1 and `Children[-1]` throws. */
  lemma RemoveBeyondLastFaults(n: Node, v: int)
    requires forall j :: 0 <= j < |n.keys| ==> n.keys[j] < v
    ensures RemoveFrom(n, v) == Removal(n, Fault)
  {
  }

  /** ... so below an internal child whose rightmost leaf's parent holds only
      smaller keys, `Remove` throws. */
  lemma {:induction false} RemoveUnderRightmostFaults(c: Node, v: int)
    requires !c.IsLeaf()
    requires forall j :: 0 <= j < |RightmostParent(c).keys| ==> RightmostParent(c).keys[j] < v
    ensures RemoveUnderRightmost(c, v) == Removal(c, Fault)
    decreases c
  {
    var last := Last(c.children);
    if last.IsLeaf() {
      assert RightmostParent(c) == c;
      RemoveBeyondLastFaults(c, v);
    } else {
      assert RightmostParent(c) == RightmostParent(last);
      RemoveUnderRightmostFaults(last, v);
      assert c.children[|c.children| - 1 := last] == c.children;
    }
  }

  /** Program.cs:168-182 when the child left of `k` is internal: the key has
      already been overwritten with the predecessor `v` when `Remove`, started
      at the parent of the rightmost leaf, finds only smaller keys there and
      throws.  The tree keeps `v` twice and loses `k`. */
  lemma DeeperPredecessorFaults(n: Node, k: int)
    requires k in n.keys && IndexOf(n.keys, k) < |n.children|
    requires !n.children[IndexOf(n.keys, k)].IsLeaf()
    requires |RightmostLeaf(n.children[IndexOf(n.keys, k)]).keys| > 0
    requires var c := n.children[IndexOf(n.keys, k)];
      forall j :: 0 <= j < |RightmostParent(c).keys| ==> RightmostParent(c).keys[j] < Last(RightmostLeaf(c).keys)
    ensures var i := IndexOf(n.keys, k);
      var v := Last(RightmostLeaf(n.children[i]).keys);
      DeleteNode(n, k) == Removal(Node(n.keys[i := v], n.children), Fault)
  {
    var i := IndexOf(n.keys, k);
    var c := n.children[i];
    RemoveUnderRightmostFaults(c, Last(RightmostLeaf(c).keys));
    assert n.children[i := c] == n.children;
  }
}

=== FILE: deletion_fixed.dfy ===
/** Deletion as Program.cs:147-214 evidently intends it: an internal key is
    replaced by its predecessor, the largest key of the subtree to its left,
    and that predecessor is removed from the rightmost leaf it came from; a
    key that is not stored answers false.  Like the source, nothing is
    merged or rebalanced, so leaves may become empty; an empty rightmost
    leaf still has no predecessor to give (`Fault`, as in the source). */
module DeletionFixed {
  import opened Seqs
  import opened Nodes
  import opened Insertion
  import opened Deletion
  import opened Lookup

  /** The largest key of a subtree taken out of its rightmost leaf. */
  datatype MaxTaken = Taken(node: Node, max: int) | NoMax

  function TakeMax(c: Node): (r: MaxTaken)
    ensures r.Taken? <==> |RightmostLeaf(c).keys| > 0
    ensures r.Taken? ==> r.max == Last(RightmostLeaf(c).keys)
    ensures r.Taken? ==> |r.node.children| == |c.children| && |r.node.keys| == |c.keys| - (if c.IsLeaf() then 1 else 0)
    decreases c
  {
    if c.IsLeaf() then
      if |c.keys| == 0 then NoMax else Taken(Node(c.keys[..|c.keys| - 1], []), Last(c.keys))
    else
      match TakeMax(Last(c.children))
      case NoMax => NoMax
      case Taken(l, v) => Taken(Node(c.keys, c.children[|c.children| - 1 := l]), v)
  }

  /** `r` is `c` with the last key of its rightmost leaf dropped: every node
      on the path down the last children keeps its keys, and every other
      child is left as it was. */
  ghost predicate PoppedRightmost(c: Node, r: Node)
    decreases c
  {
    if c.IsLeaf() then |c.keys| > 0 && r == Node(c.keys[..|c.keys| - 1], [])
    else
      && r.keys == c.keys && |r.children| == |c.children|
      && r.children[..|c.children| - 1] == c.children[..|c.children| - 1]
      && PoppedRightmost(Last(c.children), Last(r.children))
  }

  /** Taking the predecessor changes nothing but its own leaf. */
  lemma {:induction false} TakeMaxPops(c: Node)
    requires TakeMax(c).Taken?
    ensures PoppedRightmost(c, TakeMax(c).node)
    decreases c
  {
    if !c.IsLeaf() {
      var i := |c.children| - 1;
      TakeMaxPops(c.children[i]);
      var r := TakeMax(c).node;
      assert r.children[..i] == c.children[..i];
      assert Last(r.children) == TakeMax(c.children[i]).node;
    }
  }

  /** The descent of Program.cs:156-195 with the two corrections: the
      predecessor is removed where it was found, and a missing key answers
      false. */
  function DeleteFixed(n: Node, k: int): (r: Removal)
    ensures r.outcome != Removed ==> r.node == n
    ensures |r.node.children| == |n.children|
    decreases n
  {
    var i := IndexOf(n.keys, k);
    if i < |n.keys| then
      if n.IsLeaf() then Removal(Node(RemoveAt(n.keys, i), []), Removed)
      else if i >= |n.children| then Removal(n, Fault)
      else
        match TakeMax(n.children[i])
        case NoMax => Removal(n, Fault)
        case Taken(c, v) => Removal(Node(n.keys[i := v], n.children[i := c]), Removed)
    else if n.IsLeaf() then Removal(n, Absent)
    else
      var j := ChildSlot(n, k);
      if j < 0 || j >= |n.children| then Removal(n, Absent)
      else
        var sub := DeleteFixed(n.children[j], k);
        if sub.outcome == Removed then Removal(Node(n.keys, n.children[j := sub.node]), Removed)
        else Removal(n, sub.outcome)
  }

  function DeleteTreeFixed(t: Tree, k: int): (r: TreeRemoval)
    ensures t.Empty? ==> r == TreeRemoval(Empty, Absent)
    ensures r.tree.Root? <==> t.Root?
  {
    match t
    case Empty => TreeRemoval(Empty, Absent)
    case Root(n) =>
      var r := DeleteFixed(n, k);
      TreeRemoval(Root(r.node), r.outcome)
  }

  // ---------------------------------------------------------------------
  // The predecessor

  lemma {:induction false} TakeMaxKeys(c: Node)
    requires TakeMax(c).Taken?
    ensures KeysOf(TakeMax(c).node) + multiset{TakeMax(c).max} == KeysOf(c)
    decreases c
  {
    if c.IsLeaf() {
      assert c.keys == c.keys[..|c.keys| - 1] + [Last(c.keys)];
    } else {
      var i := |c.children| - 1;
      TakeMaxKeys(c.children[i]);
      ReplaceChildRemoves(c, i, TakeMax(c.children[i]).node, TakeMax(c).max);
    }
  }

  /** In an ordered subtree the predecessor is its largest key. */
  lemma {:induction false} TakeMaxIsMax(c: Node)
    requires Ordered(c) && TakeMax(c).Taken?
    ensures AtMost(KeysOf(c), TakeMax(c).max)
    decreases c
  {
    var v := TakeMax(c).max;
    if c.IsLeaf() {
      var ks := c.keys;
      assert forall j :: 0 <= j < |ks| ==> ks[j] <= ks[|ks| - 1];
      NodeAtMost(c, v);
    } else {
      var i := |c.children| - 1;
      var last := c.children[i];
      TakeMaxIsMax(last);
      TakeMaxKeys(last);
      assert InSlot(c.keys, i, last);
      assert v in KeysOf(last);
      LowerSlotsAtMost(c, v);
      NodeAtMost(c, v);
    }
  }

  /** Keys and children before the last slot of an ordered node are at most
      any key of the last child. */
  lemma LowerSlotsAtMost(c: Node, v: int)
    requires Ordered(c) && !c.IsLeaf()
    requires v in KeysOf(Last(c.children)) && AtMost(KeysOf(Last(c.children)), v)
    ensures forall j :: 0 <= j < |c.keys| ==> c.keys[j] <= v
    ensures forall j :: 0 <= j < |c.children| ==> AtMost(KeysOf(c.children[j]), v)
  {
    var i := |c.children| - 1;
    if 0 < i {
      assert c.keys[i - 1] <= v by {
        assert InSlot(c.keys, i, c.children[i]);
      }
      forall j | 0 <= j < |c.keys| ensures c.keys[j] <= v {
        assert c.keys[j] <= c.keys[i - 1];
      }
      forall j | 0 <= j < i ensures AtMost(KeysOf(c.children[j]), v) {
        SlotAtMost(c, j, v);
      }
    }
  }

  /** A child left of a key at most `v` holds only keys at most `v`. */
  lemma SlotAtMost(c: Node, j: nat, v: int)
    requires Ordered(c) && j < |c.keys| && j < |c.children| && c.keys[j] <= v
    ensures AtMost(KeysOf(c.children[j]), v)
  {
    assert InSlot(c.keys, j, c.children[j]);
    AtMostRaise(KeysOf(c.children[j]), c.keys[j], v);
  }

  lemma AtMostRaise(m: multiset<int>, a: int, b: int)
    requires AtMost(m, a) && a <= b
    ensures AtMost(m, b)
  {
  }

  /** ... and taking it out keeps the subtree ordered. */
  lemma {:induction false} TakeMaxOrdered(c: Node)
    requires Ordered(c) && TakeMax(c).Taken?
    ensures AtMost(KeysOf(c), TakeMax(c).max)
    ensures Ordered(TakeMax(c).node)
    decreases c
  {
    TakeMaxIsMax(c);
    if !c.IsLeaf() {
      var i := |c.children| - 1;
      var last := c.children[i];
      TakeMaxOrdered(last);
      TakeMaxKeys(last);
      var l := TakeMax(last).node;
      assert InSlot(c.keys, i, last);
      InSlotSubset(c.keys, i, last, l);
      ReplaceChildOrdered(c, i, l);
    }
  }

  lemma {:induction false} TakeMaxBalanced(c: Node, h: nat)
    requires BalancedAt(c, h) && TakeMax(c).Taken?
    ensures BalancedAt(TakeMax(c).node, h)
    decreases c
  {
    if !c.IsLeaf() {
      var i := |c.children| - 1;
      TakeMaxBalanced(c.children[i], h - 1);
      ReplaceChildBalanced(c, c.keys, i, TakeMax(c.children[i]).node, h);
    }
  }

  /** When every node holds a key, so does the rightmost leaf. */
  lemma {:induction false} OccupiedHasMax(c: Node)
    requires Occupied(c)
    ensures TakeMax(c).Taken?
    decreases c
  {
    if !c.IsLeaf() {
      OccupiedHasMax(Last(c.children));
    }
  }

  // ---------------------------------------------------------------------
  // The corrected deletion

  /** A successful deletion drops exactly one occurrence of `k`. */
  lemma {:induction false} DeleteFixedKeys(n: Node, k: int)
    ensures DeleteFixed(n, k).outcome == Removed ==> KeysOf(DeleteFixed(n, k).node) + multiset{k} == KeysOf(n)
    decreases n
  {
    var r := DeleteFixed(n, k);
    var i := IndexOf(n.keys, k);
    if r.outcome == Removed {
      if i < |n.keys| {
        if !n.IsLeaf() {
          var c := TakeMax(n.children[i]).node;
          var v := TakeMax(n.children[i]).max;
          var m := Node(n.keys[i := v], n.children);
          TakeMaxKeys(n.children[i]);
          OverwriteKeys(n, i, v);
          ReplaceChildRemoves(m, i, c, v);
          CancelTrade(KeysOf(r.node), KeysOf(m), KeysOf(n), k, v);
        }
      } else {
        var j := ChildSlot(n, k);
        DeleteFixedKeys(n.children[j], k);
        ReplaceChildRemoves(n, j, DeleteFixed(n.children[j], k).node, k);
      }
    }
  }

  /** The corrected deletion answers "not stored" exactly where the descent
      of the lookup (Program.cs:216-237) answers false. */
  lemma {:induction false} DeleteFixedAbsentIffNotFound(n: Node, k: int)
    ensures DeleteFixed(n, k).outcome == Absent <==> !SearchNode(n, k)
    decreases n
  {
    if k !in n.keys && !n.IsLeaf() {
      var j := ChildSlot(n, k);
      if 0 <= j < |n.children| {
        DeleteFixedAbsentIffNotFound(n.children[j], k);
      }
    }
  }

  /** Deletion keeps the search-tree order: the predecessor fits exactly in
      the slot of the key it replaces. */
  lemma {:induction false} DeleteFixedOrdered(n: Node, k: int)
    requires Ordered(n)
    ensures Ordered(DeleteFixed(n, k).node)
    decreases n
  {
    var r := DeleteFixed(n, k);
    var i := IndexOf(n.keys, k);
    if r.outcome == Removed {
      if i < |n.keys| {
        if n.IsLeaf() {
          RemoveAtSorted(n.keys, i);
        } else {
          DeleteFixedOrderedAt(n, i);
        }
      } else {
        var j := ChildSlot(n, k);
        var sub := DeleteFixed(n.children[j], k);
        DeleteFixedOrdered(n.children[j], k);
        DeleteFixedKeys(n.children[j], k);
        assert InSlot(n.keys, j, n.children[j]);
        InSlotSubset(n.keys, j, n.children[j], sub.node);
        ReplaceChildOrdered(n, j, sub.node);
      }
    }
  }

  /** A key of a sorted list replaced by a value between its neighbours
      keeps the list sorted. */
  lemma SortedReplace(ks: seq<int>, i: nat, v: int)
    requires Sorted(ks) && i < |ks| && (0 < i ==> ks[i - 1] <= v) && v <= ks[i]
    ensures Sorted(ks[i := v])
  {
    var q := ks[i := v];
    forall a, b | 0 <= a < b < |ks| ensures q[a] <= q[b] {
      if a == i {
        assert ks[i] <= ks[b];
      } else if b == i {
        assert ks[a] <= ks[i - 1];
      }
    }
  }

  /** Such a node stays ordered when child `i` gives up keys and the key
      after it drops to `v`. */
  lemma ReplaceKeyInSlots(n: Node, i: nat, v: int, c: Node)
    requires Ordered(n) && !n.IsLeaf() && i < |n.keys|
    requires Ordered(c) && InSlot(n.keys[i := v], i, c) && v <= n.keys[i]
    requires Sorted(n.keys[i := v])
    ensures Ordered(Node(n.keys[i := v], n.children[i := c]))
  {
    var q := Node(n.keys[i := v], n.children[i := c]);
    forall j | 0 <= j < |q.children| ensures Ordered(q.children[j]) && InSlot(q.keys, j, q.children[j]) {
      if j != i {
        var d := n.children[j];
        assert q.children[j] == d && Ordered(d) && InSlot(n.keys, j, d);
        if j == i + 1 {
          assert AtLeast(KeysOf(d), n.keys[i]);
          assert AtLeast(KeysOf(d), v);
        } else {
          assert 0 < j ==> q.keys[j - 1] == n.keys[j - 1];
        }
        assert j < |q.keys| ==> q.keys[j] == n.keys[j];
      }
    }
  }

  /** Replacing key `i` of an ordered internal node by its predecessor. */
  lemma DeleteFixedOrderedAt(n: Node, i: nat)
    requires Ordered(n) && !n.IsLeaf() && i < |n.keys| && TakeMax(n.children[i]).Taken?
    ensures Ordered(Node(n.keys[i := TakeMax(n.children[i]).max], n.children[i := TakeMax(n.children[i]).node]))
  {
    var ks := n.keys;
    var cs := n.children;
    var c := TakeMax(cs[i]).node;
    var v := TakeMax(cs[i]).max;
    TakeMaxOrdered(cs[i]);
    TakeMaxKeys(cs[i]);
    assert InSlot(ks, i, cs[i]);
    assert v in KeysOf(cs[i]);
    assert 0 < i ==> ks[i - 1] <= v;
    assert v <= ks[i];
    SortedReplace(ks, i, v);
    InSlotSubset(ks, i, cs[i], c);
    assert InSlot(ks[i := v], i, c);
    ReplaceKeyInSlots(n, i, v, c);
  }

  /** Deletion moves keys but never children, so every leaf stays at the
      depth it had. */
  lemma {:induction false} TakeMaxSameShape(c: Node)
    requires TakeMax(c).Taken?
    ensures SameShape(TakeMax(c).node, c)
    decreases c
  {
    if c.IsLeaf() {
    } else {
      var i := |c.children| - 1;
      TakeMaxSameShape(c.children[i]);
      ReplaceChildSameShape(c, c.keys, i, TakeMax(c.children[i]).node);
    }
  }

  lemma {:induction false} DeleteFixedShape(n: Node, k: int, h: nat)
    ensures SameShape(DeleteFixed(n, k).node, n)
    ensures BalancedAt(n, h) ==> BalancedAt(DeleteFixed(n, k).node, h)
    decreases n
  {
    var r := DeleteFixed(n, k);
    var i := IndexOf(n.keys, k);
    if r.outcome != Removed {
      SameShapeRefl(n);
    } else if i < |n.keys| {
      if n.IsLeaf() {
      } else {
        var t := TakeMax(n.children[i]);
        TakeMaxSameShape(n.children[i]);
        ReplaceChildSameShape(n, n.keys[i := t.max], i, t.node);
        if BalancedAt(n, h) {
          TakeMaxBalanced(n.children[i], h - 1);
          ReplaceChildBalanced(n, n.keys[i := t.max], i, t.node, h);
        }
      }
    } else {
      var j := ChildSlot(n, k);
      var sub := DeleteFixed(n.children[j], k);
      DeleteFixedShape(n.children[j], k, if h == 0 then 0 else h - 1);
      ReplaceChildSameShape(n, n.keys, j, sub.node);
      if BalancedAt(n, h) {
        ReplaceChildBalanced(n, n.keys, j, sub.node, h);
      }
    }
  }

  /** On a tree whose nodes all hold a key and keep the search-tree order
      the corrected deletion never faults. */
  lemma {:induction false} DeleteFixedNoFault(n: Node, k: int)
    requires Ordered(n) && Occupied(n)
    ensures DeleteFixed(n, k).outcome != Fault
    decreases n
  {
    var i := IndexOf(n.keys, k);
    if i < |n.keys| {
      if !n.IsLeaf() {
        OccupiedHasMax(n.children[i]);
      }
    } else if !n.IsLeaf() {
      var j := ChildSlot(n, k);
      DeleteFixedNoFault(n.children[j], k);
    }
  }

  /** The corrected Program.cs:147-198 on a valid tree: it answers false
      exactly when the key is not stored, otherwise it removes one occurrence,
      keeps the order and the leaf depth, and a lookup afterwards finds
      exactly the keys that remain. */
  lemma DeleteTreeFixedCorrect(t: Tree, k: int, x: int)
    requires ValidTree(t)
    ensures DeleteTreeFixed(t, k).outcome != Fault
    ensures DeleteTreeFixed(t, k).outcome == Absent <==> k !in TreeKeys(t)
    ensures DeleteTreeFixed(t, k).outcome == Removed ==> TreeKeys(DeleteTreeFixed(t, k).tree) + multiset{k} == TreeKeys(t)
    ensures DeleteTreeFixed(t, k).tree.Root? ==>
              Ordered(DeleteTreeFixed(t, k).tree.root) && BalancedAt(DeleteTreeFixed(t, k).tree.root, Height(t.root))
    ensures Search(DeleteTreeFixed(t, k).tree, x) <==> x in TreeKeys(t) - multiset{k}
  {
    if t.Root? {
      var n := t.root;
      var r := DeleteFixed(n, k);
      DeleteFixedNoFault(n, k);
      DeleteFixedAbsentIffNotFound(n, k);
      SearchComplete(n, k);
      DeleteFixedKeys(n, k);
      DeleteFixedOrdered(n, k);
      DeleteFixedShape(n, k, Height(n));
      SearchComplete(r.node, x);
    }
  }
}

=== FILE: fifth_child.dfy ===
/** A concrete run on which the source, as written, gives a node a fifth
    child, whose keys the conversion then silently leaves out.

    From Main's tree after its insertions: insert 75, delete 50, insert 85,
    90 and 10, all with the source's steering.  The deletion of 50 takes its
    predecessor 40 from the leaf directly below and so removes the key from
    the root itself (Program.cs:172-182): the root keeps three children for
    one key.  The later splits then add children to it until it has five,
    and the conversion (Program.cs:271-286) visits only four. */
module FifthChild {
  import opened Seqs
  import opened Nodes
  import opened Insertion
  import opened Lookup
  import opened Deletion
  import opened RedBlack
  import opened Conversion
  import opened Scenarios

  const AfterSeventyFive: Tree := Root(Node([50, 70], [Leaf([20, 30, 40]), Leaf([60]), Leaf([75, 80])]))
  const AfterFifty: Tree := Root(Node([70], [Leaf([20, 30, 40]), Leaf([60]), Leaf([75, 80])]))
  const AfterEightyFive: Tree := Root(Node([70], [Leaf([20, 30, 40]), Leaf([60]), Leaf([75, 80, 85])]))
  const AfterNinety: Tree := Root(Node([70, 80], [Leaf([20, 30, 40]), Leaf([60]), Leaf([75]), Leaf([85, 90])]))
  const AfterTen: Tree := Root(Node([30, 70, 80], [Leaf([10, 20]), Leaf([40]), Leaf([60]), Leaf([75]), Leaf([85, 90])]))

  /** A node over leaves of at most three keys, with more children than
      keys, is shaped. */
  lemma LeavesShaped(ks: seq<int>, ls: seq<Node>)
    requires |ks| <= 3 && |ls| > |ks|
    requires forall i :: 0 <= i < |ls| ==> ls[i].IsLeaf() && |ls[i].keys| <= 3
    ensures Shaped(Node(ks, ls))
  {
    forall i | 0 <= i < |ls| ensures Shaped(ls[i]) {
      assert ls[i].IsLeaf() && |ls[i].keys| <= 3;
    }
  }

  /** The split case of the descent from a root with room: the full child
      at `ci` is split into `q`, and the key goes on into slot `j`. */
  lemma SplitDescend(n: Node, k: int, ci: nat, q: Node, j: nat, c: Node)
    requires Shaped(n) && |n.keys| < 3 && !n.IsLeaf() && ci == ChildSlot(n, k)
    requires n.children[ci].IsFull() && Splittable(n.children[ci]) && SplitChild(n, ci) == q
    requires j == NextSlot(LastParentKey, k, q, ci, Split(n.children[ci]).median)
    requires j < |q.children| && Shaped(q.children[j]) && |q.children[j].keys| < 3
    requires InsertNode(q.children[j], k, LastParentKey) == c
    ensures Insert(Root(n), k, LastParentKey) == Root(Node(q.keys, q.children[j := c]))
  {
    SplitCase(n, k, LastParentKey);
  }

  lemma SplitForSeventyFive()
    ensures SplitChild(MainTree.root, 1) == Node([50, 70], [Leaf([20, 30, 40]), Leaf([60]), Leaf([80])])
  {
    var n := MainTree.root;
    assert Split(Leaf([60, 70, 80])) == Halves(Leaf([60]), 70, Leaf([80]));
    assert UpperIndex([50], 70) == 1;
    assert InsertSorted([50], 70) == [50, 70];
    assert n.children[..1] + [Leaf([60]), Leaf([80])] + n.children[2..] == [Leaf([20, 30, 40]), Leaf([60]), Leaf([80])];
  }

  lemma InsertSeventyFive()
    ensures TreeShaped(MainTree)
    ensures Insert(MainTree, 75, LastParentKey) == AfterSeventyFive
  {
    var n := MainTree.root;
    LeavesShaped([50], n.children);
    SplitForSeventyFive();
    var q := Node([50, 70], [Leaf([20, 30, 40]), Leaf([60]), Leaf([80])]);
    assert UpperIndex([50], 75) == 1;
    assert NextSlot(LastParentKey, 75, q, 1, 70) == 2;
    assert UpperIndex([80], 75) == 0;
    LeafInsert([80], 75, 0, LastParentKey);
    assert [80][..0] + [75] + [80][0..] == [75, 80];
    SplitDescend(n, 75, 1, q, 2, Leaf([75, 80]));
    assert q.children[2 := Leaf([75, 80])] == AfterSeventyFive.root.children;
  }

  /** Program.cs:168-182 as written: 50's predecessor 40 sits in the leaf
      directly below, so the 40 that overwrote 50 is removed from the root. */
  lemma DeleteFifty()
    ensures Delete(AfterSeventyFive, 50) == TreeRemoval(AfterFifty, Removed)
  {
    OverwriteFifty();
    RemoveOverwritten(AfterSeventyFive.root.children);
  }

  /** 50 is the root's first key; its predecessor is the last key of the
      leaf child before it, and overwrites it. */
  lemma OverwriteFifty()
    ensures DeleteNode(AfterSeventyFive.root, 50) == RemoveFrom(Node([40, 70], AfterSeventyFive.root.children), 40)
  {
    var n := AfterSeventyFive.root;
    assert IndexOf([50, 70], 50) == 0;
    assert RightmostLeaf(Leaf([20, 30, 40])) == Leaf([20, 30, 40]);
    assert Last([20, 30, 40]) == 40;
    assert n.keys[0 := 40] == [40, 70];
  }

  /** `Remove(40, curr)` on the root after the overwrite. */
  lemma RemoveOverwritten(cs: seq<Node>)
    ensures RemoveFrom(Node([40, 70], cs), 40) == Removal(Node([70], cs), Removed)
  {
    assert IndexOf([40, 70], 40) == 0;
    assert RemoveAt([40, 70], 0) == [70];
  }

  lemma InsertEightyFive()
    ensures TreeShaped(AfterFifty)
    ensures Insert(AfterFifty, 85, LastParentKey) == AfterEightyFive
  {
    var n := AfterFifty.root;
    LeavesShaped([70], n.children);
    assert UpperIndex([70], 85) == 1;
    assert ChildSlot(n, 85) == 2;
    assert UpperIndex([75, 80], 85) == 2;
    LeafInsert([75, 80], 85, 2, LastParentKey);
    assert [75, 80][..2] + [85] + [75, 80][2..] == [75, 80, 85];
    RootDescend(n, 85, LastParentKey, 2, Leaf([75, 80, 85]));
    assert n.children[2 := Leaf([75, 80, 85])] == AfterEightyFive.root.children;
  }

  lemma SplitForNinety()
    ensures SplitChild(AfterEightyFive.root, 2) == Node([70, 80], [Leaf([20, 30, 40]), Leaf([60]), Leaf([75]), Leaf([85])])
  {
    var n := AfterEightyFive.root;
    assert Split(Leaf([75, 80, 85])) == Halves(Leaf([75]), 80, Leaf([85]));
    assert UpperIndex([70], 80) == 1;
    assert InsertSorted([70], 80) == [70, 80];
    assert n.children[..2] + [Leaf([75]), Leaf([85])] + n.children[3..]
        == [Leaf([20, 30, 40]), Leaf([60]), Leaf([75]), Leaf([85])];
  }

  lemma InsertNinety()
    ensures TreeShaped(AfterEightyFive)
    ensures Insert(AfterEightyFive, 90, LastParentKey) == AfterNinety
  {
    var n := AfterEightyFive.root;
    LeavesShaped([70], n.children);
    SplitForNinety();
    var q := Node([70, 80], [Leaf([20, 30, 40]), Leaf([60]), Leaf([75]), Leaf([85])]);
    assert UpperIndex([70], 90) == 1;
    assert ChildSlot(n, 90) == 2;
    assert NextSlot(LastParentKey, 90, q, 2, 80) == 3;
    assert UpperIndex([85], 90) == 1;
    LeafInsert([85], 90, 1, LastParentKey);
    assert [85][..1] + [90] + [85][1..] == [85, 90];
    SplitDescend(n, 90, 2, q, 3, Leaf([85, 90]));
    assert q.children[3 := Leaf([85, 90])] == AfterNinety.root.children;
  }

  lemma SplitForTen()
    ensures SplitChild(AfterNinety.root, 0)
         == Node([30, 70, 80], [Leaf([20]), Leaf([40]), Leaf([60]), Leaf([75]), Leaf([85, 90])])
  {
    var n := AfterNinety.root;
    assert Split(Leaf([20, 30, 40])) == Halves(Leaf([20]), 30, Leaf([40]));
    assert UpperIndex([70, 80], 30) == 0;
    assert InsertSorted([70, 80], 30) == [30, 70, 80];
    assert n.children[..0] + [Leaf([20]), Leaf([40])] + n.children[1..]
        == [Leaf([20]), Leaf([40]), Leaf([60]), Leaf([75]), Leaf([85, 90])];
  }

  lemma DescentForTen()
    ensures ChildSlot(AfterNinety.root, 10) == 0
    ensures NextSlot(LastParentKey, 10, Node([30, 70, 80], [Leaf([20]), Leaf([40]), Leaf([60]), Leaf([75]), Leaf([85, 90])]), 0, 30) == 0
    ensures InsertNode(Leaf([20]), 10, LastParentKey) == Leaf([10, 20])
  {
    assert UpperIndex([70, 80], 10) == 0;
    assert UpperIndex([20], 10) == 0;
    LeafInsert([20], 10, 0, LastParentKey);
    assert [20][..0] + [10] + [20][0..] == [10, 20];
  }

  lemma TenLands()
    ensures [Leaf([20]), Leaf([40]), Leaf([60]), Leaf([75]), Leaf([85, 90])][0 := Leaf([10, 20])]
         == AfterTen.root.children
  {
  }

  /** The split of the leftmost leaf adds a child to a root that already has
      four: it now has five, for three keys. */
  lemma InsertTen()
    ensures TreeShaped(AfterNinety)
    ensures Insert(AfterNinety, 10, LastParentKey) == AfterTen
  {
    var n := AfterNinety.root;
    LeavesShaped([70, 80], n.children);
    SplitForTen();
    DescentForTen();
    var q := Node([30, 70, 80], [Leaf([20]), Leaf([40]), Leaf([60]), Leaf([75]), Leaf([85, 90])]);
    assert Split(n.children[0]).median == 30;
    SplitDescend(n, 10, 0, q, 0, Leaf([10, 20]));
    TenLands();
  }

  /** The tree still answers searches for 85 and 90 ... */
  lemma FifthChildSearches()
    ensures Search(AfterTen, 85) && Search(AfterTen, 90)
  {
    var n := AfterTen.root;
    assert UpperIndex([30, 70, 80], 85) == 3 && UpperIndex([30, 70, 80], 90) == 3;
    assert ChildSlot(n, 85) == 4 && ChildSlot(n, 90) == 4;
    assert SearchNode(Leaf([85, 90]), 85) && SearchNode(Leaf([85, 90]), 90);
  }

  /** ... but its first four children, all the walk looks at, hold no key
      above 80. */
  lemma FirstFourAtMostEighty()
    ensures FirstFour(AfterTen.root) == Node([30, 70, 80], [Leaf([10, 20]), Leaf([40]), Leaf([60]), Leaf([75])])
    ensures Fits(FirstFour(AfterTen.root)) && Occupied(FirstFour(AfterTen.root))
    ensures AtMost(KeysOf(FirstFour(AfterTen.root)), 80)
  {
    var r := Node([30, 70, 80], [Leaf([10, 20]), Leaf([40]), Leaf([60]), Leaf([75])]);
    assert AfterTen.root.children[..4] == r.children;
    forall i | 0 <= i < 4 ensures AtMost(KeysOf(r.children[i]), 80) && Fits(r.children[i]) && Occupied(r.children[i]) {
      var l := r.children[i];
      assert KeysOf(l) == multiset(l.keys);
    }
    NodeAtMost(r, 80);
  }

  /** Converting that tree succeeds but emits only the first four
      children. */
  lemma FifthChildConverts(layout: Layout)
    ensures Convert(AfterTen, layout).Some?
    ensures 85 !in Items(Convert(AfterTen, layout).value) && 90 !in Items(Convert(AfterTen, layout).value)
  {
    FirstFourAtMostEighty();
    var r := FirstFour(AfterTen.root);
    EmitOnlyFirstFour(AfterTen.root, Black, true, layout);
    ConvertKeys(Root(r), layout);
    assert Convert(AfterTen, layout) == Convert(Root(r), layout);
  }

  /** Program.cs:271-286 as written, after the run above: the root has five
      children, the conversion succeeds, and 85 and 90, stored in the fifth
      child and found by a search, are missing from the red-black tree. */
  lemma FifthChildDropsKeys(layout: Layout)
    ensures TreeShaped(MainTree) && Insert(MainTree, 75, LastParentKey) == AfterSeventyFive
    ensures Delete(AfterSeventyFive, 50) == TreeRemoval(AfterFifty, Removed)
    ensures TreeShaped(AfterFifty) && Insert(AfterFifty, 85, LastParentKey) == AfterEightyFive
    ensures TreeShaped(AfterEightyFive) && Insert(AfterEightyFive, 90, LastParentKey) == AfterNinety
    ensures TreeShaped(AfterNinety) && Insert(AfterNinety, 10, LastParentKey) == AfterTen
    ensures |AfterTen.root.children| == 5
    ensures Search(AfterTen, 85) && Search(AfterTen, 90)
    ensures Convert(AfterTen, layout).Some?
    ensures 85 !in Items(Convert(AfterTen, layout).value) && 90 !in Items(Convert(AfterTen, layout).value)
  {
    InsertSeventyFive();
    DeleteFifty();
    InsertEightyFive();
    InsertNinety();
    InsertTen();
    FifthChildSearches();
    FifthChildConverts(layout);
  }
}

=== FILE: findings.dfy ===
/** Concrete inputs on which the source, as written, departs from what its
    design promises, each beside the corrected behaviour on the same input. */
module Findings {
  import opened Seqs
  import opened Nodes
  import opened Insertion
  import opened Lookup
  import opened Deletion
  import opened DeletionFixed
  import opened RedBlack
  import opened Conversion
  import opened RedBlackShape
  import opened Scenarios

  lemma MainTreeShaped()
    ensures TreeShaped(MainTree)
  {
    TwoLeavesShaped([20, 30, 40], [60, 70, 80], 50);
  }

  /** Both steerings split the full leftmost leaf of Main's tree in the same
      way before choosing where 35 goes. */
  lemma SplitForThirtyFive()
    ensures SplitChild(Node([50], [Leaf([20, 30, 40]), Leaf([60, 70, 80])]), 0)
         == Node([30, 50], [Leaf([20]), Leaf([40]), Leaf([60, 70, 80])])
  {
    var n := Node([50], [Leaf([20, 30, 40]), Leaf([60, 70, 80])]);
    var s := Split(Leaf([20, 30, 40]));
    assert s == Halves(Leaf([20]), 30, Leaf([40]));
    assert UpperIndex([50], 30) == 0;
    assert InsertSorted([50], 30) == [30, 50];
    assert n.children[..0] + [s.left, s.right] + n.children[1..] == [Leaf([20]), Leaf([40]), Leaf([60, 70, 80])];
  }

  /** Inserting 35 into Main's tree: the root has room, its leftmost leaf is
      full and split, and 35 goes on into slot `next` of the parent. */
  lemma InsertThirtyFive(steer: Steering, next: nat, c: Node)
    requires next == (if steer == LastParentKey then 0 else 1)
    requires InsertNode([Leaf([20]), Leaf([40]), Leaf([60, 70, 80])][next], 35, steer) == c
    ensures TreeShaped(MainTree)
    ensures Insert(MainTree, 35, steer) == Root(Node([30, 50], [Leaf([20]), Leaf([40]), Leaf([60, 70, 80])][next := c]))
  {
    MainTreeShaped();
    SplitForThirtyFive();
    assert ChildSlot(MainTree.root, 35) == 0;
    var q := Node([30, 50], [Leaf([20]), Leaf([40]), Leaf([60, 70, 80])]);
    assert NextSlot(steer, 35, q, 0, 30) == next;
  }

  lemma LeftLeafThirtyFive(steer: Steering)
    ensures InsertNode(Leaf([20]), 35, steer) == Leaf([20, 35])
  {
    assert UpperIndex([20], 35) == 1;
    LeafInsert([20], 35, 1, steer);
    assert [20][..1] + [35] + [20][1..] == [20, 35];
  }

  lemma RightLeafThirtyFive(steer: Steering)
    ensures InsertNode(Leaf([40]), 35, steer) == Leaf([35, 40])
  {
    assert UpperIndex([40], 35) == 0;
    LeafInsert([40], 35, 0, steer);
    assert [40][..0] + [35] + [40][0..] == [35, 40];
  }

  /** The trees the two steerings give. */
  const SteeredLeft: Tree := Root(Node([30, 50], [Leaf([20, 35]), Leaf([40]), Leaf([60, 70, 80])]))
  const SteeredRight: Tree := Root(Node([30, 50], [Leaf([20]), Leaf([35, 40]), Leaf([60, 70, 80])]))

  lemma SlotUpdates()
    ensures [Leaf([20]), Leaf([40]), Leaf([60, 70, 80])][0 := Leaf([20, 35])] == SteeredLeft.root.children
    ensures [Leaf([20]), Leaf([40]), Leaf([60, 70, 80])][1 := Leaf([35, 40])] == SteeredRight.root.children
  {
  }

  lemma SteeredLeftTree()
    ensures TreeShaped(MainTree)
    ensures Insert(MainTree, 35, LastParentKey) == SteeredLeft
  {
    LeftLeafThirtyFive(LastParentKey);
    InsertThirtyFive(LastParentKey, 0, Leaf([20, 35]));
    SlotUpdates();
  }

  lemma SteeredRightTree()
    ensures TreeShaped(MainTree)
    ensures Insert(MainTree, 35, Median) == SteeredRight
  {
    RightLeafThirtyFive(Median);
    InsertThirtyFive(Median, 1, Leaf([35, 40]));
    SlotUpdates();
  }

  /** A search in a two-key root over three leaves looks in the root, then
      in the leaf of the slot the key falls in. */
  lemma SearchTwoKeyRoot(a: int, b: int, l: seq<int>, m: seq<int>, r: seq<int>, x: int)
    requires a < b
    ensures Search(Root(Node([a, b], [Leaf(l), Leaf(m), Leaf(r)])), x)
        <==> x == a || x == b || (x < a && x in l) || (a < x < b && x in m) || (b < x && x in r)
  {
    assert x != a && x != b ==> UpperIndex([a, b], x) == if x < a then 0 else if x < b then 1 else 2;
  }

  /** A search for 35 goes right of 30 in both. */
  lemma SteeredSearches()
    ensures !Search(SteeredLeft, 35) && Search(SteeredRight, 35)
  {
    SearchTwoKeyRoot(30, 50, [20, 35], [40], [60, 70, 80], 35);
    SearchTwoKeyRoot(30, 50, [20], [35, 40], [60, 70, 80], 35);
    assert 35 !in [40];
  }

  /** Program.cs:61 as written: after the split of the leftmost leaf the
      parent's last key is 50, so 35 stays in the left half [20] although the
      promoted 30 is smaller; the next search for 35 goes right of 30 and
      misses it. */
  lemma LastParentKeyLosesKey()
    ensures TreeShaped(MainTree)
    ensures Insert(MainTree, 35, LastParentKey) == Root(Node([30, 50], [Leaf([20, 35]), Leaf([40]), Leaf([60, 70, 80])]))
    ensures !Search(Insert(MainTree, 35, LastParentKey), 35)
  {
    SteeredLeftTree();
    SteeredSearches();
  }

  /** The same insertion steered by the median: 35 goes right of 30 and is
      found. */
  lemma MedianKeepsKey()
    ensures TreeShaped(MainTree)
    ensures Insert(MainTree, 35, Median) == Root(Node([30, 50], [Leaf([20]), Leaf([35, 40]), Leaf([60, 70, 80])]))
    ensures Search(Insert(MainTree, 35, Median), 35)
  {
    SteeredRightTree();
    SteeredSearches();
  }

  // ---------------------------------------------------------------------
  // Deletion

  /** Program.cs:168-182 as written, on Main's final tree: 50's predecessor
      40 sits in the leaf directly below, so `Remove` deletes the 40 that
      just overwrote 50 from the root itself.  The answer is true, the root
      is left without keys, and neither 30 nor 40 can be found any more. */
  lemma PredecessorLeafLosesKeys()
    ensures Delete(AfterDeletes, 50) == TreeRemoval(Root(Node([], [Leaf([30, 40]), Leaf([70, 80])])), Removed)
    ensures !Search(Delete(AfterDeletes, 50).tree, 30) && !Search(Delete(AfterDeletes, 50).tree, 40)
  {
    var n := AfterDeletes.root;
    assert IndexOf([50], 50) == 0;
    assert RightmostLeaf(Leaf([30, 40])) == Leaf([30, 40]);
    var m := Node([40], n.children);
    assert n.keys[0 := 40] == [40];
    assert IndexOf([40], 40) == 0;
    assert RemoveAt([40], 0) == [];
    assert RemoveFrom(m, 40) == Removal(Node([], n.children), Removed);
    assert 30 !in [70, 80] && 40 !in [70, 80];
  }

  /** The corrected deletion on the same input: the predecessor 40 replaces
      50 and leaves its leaf. */
  lemma FixedDeleteFifty()
    ensures DeleteTreeFixed(AfterDeletes, 50) == TreeRemoval(Root(Node([40], [Leaf([30]), Leaf([70, 80])])), Removed)
  {
    var n := AfterDeletes.root;
    assert IndexOf([50], 50) == 0;
    assert [30, 40][..1] == [30];
    assert TakeMax(Leaf([30, 40])) == Taken(Leaf([30]), 40);
    assert n.children[0 := Leaf([30])] == [Leaf([30]), Leaf([70, 80])];
    assert n.keys[0 := 40] == [40];
  }

  /** ... and every other key is still found. */
  lemma FixedDeleteKeepsKeys()
    ensures var t := DeleteTreeFixed(AfterDeletes, 50).tree;
      Search(t, 30) && Search(t, 40) && Search(t, 70) && Search(t, 80) && !Search(t, 50)
  {
    FixedDeleteFifty();
    FixedResultSearches();
  }

  lemma FixedResultSearches()
    ensures var t := Root(Node([40], [Leaf([30]), Leaf([70, 80])]));
      Search(t, 30) && Search(t, 40) && Search(t, 70) && Search(t, 80) && !Search(t, 50)
  {
    SearchOneKeyRoot(40, [30], [70, 80], 30);
    SearchOneKeyRoot(40, [30], [70, 80], 40);
    SearchOneKeyRoot(40, [30], [70, 80], 70);
    SearchOneKeyRoot(40, [30], [70, 80], 80);
    SearchOneKeyRoot(40, [30], [70, 80], 50);
    assert 50 !in [70, 80];
  }

  /** Program.cs:156-195 as written: deleting a key that is not stored walks
      down to a leaf and throws instead of answering false. */
  lemma MissingKeyThrows()
    ensures Delete(MainTree, 15) == TreeRemoval(MainTree, Fault)
  {
    var n := MainTree.root;
    assert IndexOf([50], 15) == 1;
    assert ChildSlot(n, 15) == 0;
    assert IndexOf([20, 30, 40], 15) == 3;
    assert n.children[0 := n.children[0]] == n.children;
  }

  /** The corrected deletion answers false and leaves the tree alone. */
  lemma FixedMissingKeyAbsent()
    ensures DeleteTreeFixed(MainTree, 15) == TreeRemoval(MainTree, Absent)
  {
    var n := MainTree.root;
    assert IndexOf([50], 15) == 1;
    assert ChildSlot(n, 15) == 0;
    assert IndexOf([20, 30, 40], 15) == 3;
  }

  // ---------------------------------------------------------------------
  // Conversion

  /** A full leaf as its keys are added in order, or middle key first. */
  lemma FullLeafRb(x: int, y: int, z: int)
    ensures ToRb(Leaf([x, y, z]), KeysInOrder) == BNode(Nil, x, Black, BNode(Nil, y, Red, BNode(Nil, z, Red, Nil)))
    ensures ToRb(Leaf([x, y, z]), MiddleFirst) == BNode(BNode(Nil, x, Red, Nil), y, Black, BNode(Nil, z, Red, Nil))
  {
  }

  lemma MainTreeRb(layout: Layout)
    ensures Convert(MainTree, layout)
         == Some(BNode(ToRb(Leaf([20, 30, 40]), layout), 50, Black, ToRb(Leaf([60, 70, 80]), layout)))
  {
    MainTreesValid();
    MainTreesStrict();
    ConvertBuilds(MainTree, layout);
    TwoNodeRb(50, Leaf([20, 30, 40]), Leaf([60, 70, 80]), layout);
  }

  /** Program.cs:257-269 as written, on Main's tree before the deletions:
      each full leaf is added key by key, so 30 and 40 (and 70 and 80) become
      a red node under a red node. */
  lemma InOrderConvertRedRed()
    ensures Convert(MainTree, KeysInOrder)
         == Some(BNode(BNode(Nil, 20, Black, BNode(Nil, 30, Red, BNode(Nil, 40, Red, Nil))), 50, Black,
                       BNode(Nil, 60, Black, BNode(Nil, 70, Red, BNode(Nil, 80, Red, Nil)))))
    ensures !NoRedRed(Convert(MainTree, KeysInOrder).value)
  {
    MainTreeRb(KeysInOrder);
    FullLeafRb(20, 30, 40);
    FullLeafRb(60, 70, 80);
  }

  /** The middle key of a full leaf added first gives a black node between
      two red ones, and the whole tree is a red-black tree. */
  lemma MiddleFirstConvertValid()
    ensures Convert(MainTree, MiddleFirst)
         == Some(BNode(BNode(BNode(Nil, 20, Red, Nil), 30, Black, BNode(Nil, 40, Red, Nil)), 50, Black,
                       BNode(BNode(Nil, 60, Red, Nil), 70, Black, BNode(Nil, 80, Red, Nil))))
    ensures RedBlackTree(Convert(MainTree, MiddleFirst).value, 2)
  {
    MainTreeRb(MiddleFirst);
    FullLeafRb(20, 30, 40);
    FullLeafRb(60, 70, 80);
    MainTreesValid();
    MainTreesStrict();
    ConvertMiddleFirstRedBlack(MainTree);
    assert BlackLevels(MainTree) == 2;
  }

  /** After the faulty deletion of 50 the root holds no key, and converting
      the tree throws (`None`) with either layout. */
  lemma ConvertAfterLostKeysFails(layout: Layout)
    ensures Convert(Delete(AfterDeletes, 50).tree, layout) == None
  {
    PredecessorLeafLosesKeys();
  }
}

=== FILE: insertion.dfy ===
/** Insertion into the 2-3-4 tree (Program.cs:31-145): full nodes are split
    on the way down, so the key always lands in a leaf that has room.

    The operations are defined here with their structural contracts; what
    they preserve (keys, shape, balance, order) is proved in
    InsertionProperties. */
module Insertion {
  import opened Seqs
  import opened Nodes

  /** Which key decides, after a split, whether the new key continues into the
      left half or into the new sibling. */
  datatype Steering =
    | LastParentKey  // the parent's last key after the split (Program.cs:61)
    | Median         // the median the split just promoted

  /** A split node: the left half (the original node), the promoted median,
      and the new sibling. */
  datatype Halves = Halves(left: Node, median: int, right: Node)

  /** What Split needs of the node: a key at the middle index, and, for an
      internal node, a child after it. */
  predicate Splittable(c: Node) {
    |c.keys| > 0 && (c.IsLeaf() || |c.children| > |c.keys| / 2)
  }

  /** Program.cs:105-121: the keys after the middle one, and for an internal
      node the children after the middle slot, move to a new sibling; the
      middle key moves up.  Only full nodes are ever split. */
  function Split(c: Node): (s: Halves)
    requires Splittable(c)
    ensures |s.left.keys| == |c.keys| / 2
    ensures |s.left.keys| + 1 + |s.right.keys| == |c.keys|
    ensures c.IsLeaf() ==> s.left.IsLeaf() && s.right.IsLeaf()
    ensures !c.IsLeaf() ==> |s.left.children| == |c.keys| / 2 + 1
    ensures !c.IsLeaf() ==> |s.left.children| + |s.right.children| == |c.children|
    ensures c.IsFull() ==>
      && s.left.keys == [c.keys[0]] && s.median == c.keys[1] && s.right.keys == [c.keys[2]]
      && (!c.IsLeaf() ==> s.left.children == c.children[..2] && s.right.children == c.children[2..])
  {
    var mid := |c.keys| / 2;
    var cut := if c.IsLeaf() then 0 else mid + 1;
    Halves(Node(c.keys[..mid], c.children[..cut]), c.keys[mid], Node(c.keys[mid + 1..], c.children[cut..]))
  }

  /** The inverse of Split: the median back between the two halves. */
  function Join(s: Halves): Node {
    Node(s.left.keys + [s.median] + s.right.keys, s.left.children + s.right.children)
  }

  /** Program.cs:123-135: child `ci` of `p` is split, the median joins the
      parent's keys at its sorted position and the sibling is placed right
      after the child. */
  function SplitChild(p: Node, ci: nat): (q: Node)
    requires ci < |p.children| && Splittable(p.children[ci])
    ensures |q.keys| == |p.keys| + 1 && |q.children| == |p.children| + 1
    ensures multiset(q.keys) == multiset(p.keys) + multiset{Split(p.children[ci]).median}
    ensures Sorted(p.keys) ==> Sorted(q.keys)
  {
    var s := Split(p.children[ci]);
    Node(InsertSorted(p.keys, s.median), p.children[..ci] + [s.left, s.right] + p.children[ci + 1..])
  }

  /** Program.cs:136-143: splitting the root makes a new root holding only the
      median, with the two halves as its only children. */
  function SplitRoot(c: Node): (r: Node)
    requires Splittable(c)
    ensures r.keys == [Split(c).median] && r.children == [Split(c).left, Split(c).right]
  {
    var s := Split(c);
    Node([s.median], [s.left, s.right])
  }

  /** Whether the key continues into the sibling after the child was split and
      `q` is the parent afterwards. */
  predicate GoesRight(steer: Steering, k: int, q: Node, median: int)
    requires |q.keys| > 0
  {
    match steer
    case LastParentKey => k > Last(q.keys)
    case Median => k > median
  }

  /** The slot the descent continues into after child `ci` was split: the
      new sibling right after it, or the child itself. */
  function NextSlot(steer: Steering, k: int, q: Node, ci: nat, median: int): (j: nat)
    requires |q.keys| > 0
    ensures j == ci || j == ci + 1
  {
    if GoesRight(steer, k, q, median) then ci + 1 else ci
  }

  /** The child slot a descent takes from a node that does not hold `k`:
      before the first greater key, else the last child (Program.cs:99). */
  function ChildSlot(n: Node, k: int): (i: int)
    ensures |n.children| > |n.keys| ==> 0 <= i < |n.children|
    ensures UpperIndex(n.keys, k) < |n.keys| ==> i == UpperIndex(n.keys, k)
    ensures UpperIndex(n.keys, k) == |n.keys| ==> i == |n.children| - 1
  {
    var pos := UpperIndex(n.keys, k);
    if pos == |n.keys| then |n.children| - 1 else pos
  }

  /** The insertion loop (Program.cs:43-100) from a node `n` it has entered:
      `n` is not full, because a full node is split before it is entered. */
  function InsertNode(n: Node, k: int, steer: Steering): (r: Node)
    requires Shaped(n) && |n.keys| < 3
    ensures n.IsLeaf() <==> r.IsLeaf()
    ensures n.IsLeaf() ==> |r.keys| == |n.keys| + 1
    ensures n.IsLeaf() ==> multiset(r.keys) == multiset(n.keys) + multiset{k}
    ensures n.IsLeaf() ==> Sorted(n.keys) ==> Sorted(r.keys)
    decreases Depth(n)
  {
    if n.IsLeaf() then
      Node(InsertSorted(n.keys, k), [])
    else
      var ci := ChildSlot(n, k);
      var c := n.children[ci];
      if c.IsFull() then
        SplitChildParts(n, ci);
        var q := SplitChild(n, ci);
        var next := NextSlot(steer, k, q, ci, Split(c).median);
        Node(q.keys, q.children[next := InsertNode(q.children[next], k, steer)])
      else
        ChildShaped(n, ci);
        DepthChild(n, ci);
        Node(n.keys, n.children[ci := InsertNode(c, k, steer)])
  }

  /** Program.cs:31-102: an empty tree gets a one-key root; a full root is
      split first; then the loop runs from the root.  The source always
      answers true, so only the tree is returned. */
  function Insert(t: Tree, k: int, steer: Steering): (r: Tree)
    requires TreeShaped(t)
    ensures r.Root?
    ensures t.Empty? ==> r.root == Node([k], [])
  {
    match t
    case Empty => Root(Node([k], []))
    case Root(n) =>
      if n.IsFull() then
        SplitRootShaped(n);
        Root(InsertNode(SplitRoot(n), k, steer))
      else
        Root(InsertNode(n, k, steer))
  }

  // ---------------------------------------------------------------------
  // Facts the definitions above need

  lemma ChildShaped(n: Node, i: nat)
    requires Shaped(n) && i < |n.children|
    ensures Shaped(n.children[i])
  {
  }

  lemma SlicesShaped(c: Node, cut: nat)
    requires Shaped(c) && cut <= |c.children|
    ensures forall i :: 0 <= i < cut ==> Shaped(c.children[..cut][i])
    ensures forall i :: 0 <= i < |c.children| - cut ==> Shaped(c.children[cut..][i])
  {
    assert forall i :: 0 <= i < |c.children| - cut ==> c.children[cut..][i] == c.children[cut + i];
  }

  /** Split keeps both halves well-shaped. */
  lemma SplitShaped(c: Node)
    requires Shaped(c) && Splittable(c)
    ensures Shaped(Split(c).left) && Shaped(Split(c).right)
  {
    SlicesShaped(c, if c.IsLeaf() then 0 else |c.keys| / 2 + 1);
  }

  /** Splitting never deepens a subtree. */
  lemma SplitDepth(c: Node)
    requires Splittable(c)
    ensures Depth(Split(c).left) <= Depth(c) && Depth(Split(c).right) <= Depth(c)
  {
    var s := Split(c);
    var cut := if c.IsLeaf() then 0 else |c.keys| / 2 + 1;
    var b := ForestDepth(c.children);
    forall i | 0 <= i < |s.left.children| ensures Depth(s.left.children[i]) <= b {
      ForestDepthBound(c.children, i);
    }
    forall i | 0 <= i < |s.right.children| ensures Depth(s.right.children[i]) <= b {
      assert s.right.children[i] == c.children[cut + i];
      ForestDepthBound(c.children, cut + i);
    }
    ForestDepthAtMost(s.left.children, b);
    ForestDepthAtMost(s.right.children, b);
  }

  /** After splitting a full child of a node with room, the parent is still
      well-shaped, the halves sit at `ci` and `ci + 1`, and each has one key,
      room for the key being inserted, and no more depth than the child. */
  lemma SplitChildParts(p: Node, ci: nat)
    requires Shaped(p) && |p.keys| < 3 && ci < |p.children|
    requires p.children[ci].IsFull()
    ensures Splittable(p.children[ci])
    ensures SplitChild(p, ci).children[ci] == Split(p.children[ci]).left
    ensures SplitChild(p, ci).children[ci + 1] == Split(p.children[ci]).right
    ensures Shaped(SplitChild(p, ci))
    ensures |SplitChild(p, ci).children[ci].keys| == 1 && |SplitChild(p, ci).children[ci + 1].keys| == 1
    ensures Depth(SplitChild(p, ci).children[ci]) < Depth(p)
    ensures Depth(SplitChild(p, ci).children[ci + 1]) < Depth(p)
  {
    var c := p.children[ci];
    assert Shaped(c);
    SplitDepth(c);
    DepthChild(p, ci);
    SplitChildLayout(p, ci);
    SplitChildShaped(p, ci);
  }

  /** SplitChildParts for the child the descent towards `k` splits. */
  lemma SplitStep(n: Node, k: int)
    requires Shaped(n) && |n.keys| < 3 && !n.IsLeaf() && n.children[ChildSlot(n, k)].IsFull()
    ensures var ci := ChildSlot(n, k);
      && Splittable(n.children[ci])
      && var q := SplitChild(n, ci);
      && ci + 1 < |q.children| && Shaped(q)
      && Shaped(q.children[ci]) && Shaped(q.children[ci + 1])
      && |q.children[ci].keys| == 1 && |q.children[ci + 1].keys| == 1
      && Depth(q.children[ci]) < Depth(n) && Depth(q.children[ci + 1]) < Depth(n)
  {
    var ci := ChildSlot(n, k);
    SplitChildParts(n, ci);
    ChildShaped(SplitChild(n, ci), ci);
    ChildShaped(SplitChild(n, ci), ci + 1);
  }

  /** The split case of InsertNode: split the full child, then insert into
      the half NextSlot picks. */
  lemma SplitCase(n: Node, k: int, steer: Steering)
    requires Shaped(n) && |n.keys| < 3 && !n.IsLeaf() && n.children[ChildSlot(n, k)].IsFull()
    ensures Splittable(n.children[ChildSlot(n, k)])
    ensures var ci := ChildSlot(n, k);
      var q := SplitChild(n, ci);
      var j := NextSlot(steer, k, q, ci, Split(n.children[ci]).median);
      && j < |q.children| && Shaped(q) && Shaped(q.children[j]) && |q.children[j].keys| < 3
      && Depth(q.children[j]) < Depth(n)
      && InsertNode(n, k, steer) == Node(q.keys, q.children[j := InsertNode(q.children[j], k, steer)])
  {
    SplitStep(n, k);
  }

  /** Where the children of the parent end up after the split: the sibling
      right after the split child, the others unmoved. */
  lemma SplitChildLayout(p: Node, ci: nat)
    requires ci < |p.children| && Splittable(p.children[ci])
    ensures SplitChild(p, ci).children
            == p.children[..ci] + [Split(p.children[ci]).left, Split(p.children[ci]).right] + p.children[ci + 1..]
    ensures SplitChild(p, ci).children[ci] == Split(p.children[ci]).left
    ensures SplitChild(p, ci).children[ci + 1] == Split(p.children[ci]).right
    ensures forall i :: 0 <= i < ci ==> SplitChild(p, ci).children[i] == p.children[i]
    ensures forall i :: ci + 1 < i < |p.children| + 1 ==> SplitChild(p, ci).children[i] == p.children[i - 1]
  {
  }

  lemma SplitChildShaped(p: Node, ci: nat)
    requires Shaped(p) && |p.keys| < 3 && ci < |p.children|
    requires p.children[ci].IsFull()
    ensures Splittable(p.children[ci])
    ensures Shaped(SplitChild(p, ci))
  {
    var c := p.children[ci];
    assert Shaped(c);
    SplitShaped(c);
    SplitChildLayout(p, ci);
    var q := SplitChild(p, ci);
    assert forall i :: 0 <= i < |q.children| ==> Shaped(q.children[i]);
  }

  lemma SplitRootShaped(c: Node)
    requires Shaped(c) && c.IsFull()
    ensures Splittable(c) && Shaped(SplitRoot(c)) && |SplitRoot(c).keys| == 1
  {
    SplitShaped(c);
  }
}

=== FILE: insertion_order.dfy ===
/** The search-tree order under insertion.  Steering by the promoted median
    keeps every key between the keys that bound its slot; steering by the
    parent's last key does not (see Findings.LastParentKeyLosesKey). */
module InsertionOrder {
  import opened Seqs
  import opened Nodes
  import opened Insertion
  import opened InsertionProperties

  /** A one-key node over two ordered subtrees that the key separates is
      ordered. */
  lemma PairOrdered(k: int, a: Node, b: Node)
    requires Ordered(a) && Ordered(b) && AtMost(KeysOf(a), k) && AtLeast(KeysOf(b), k)
    ensures Ordered(Node([k], [a, b]))
  {
    var n := Node([k], [a, b]);
    assert InSlot(n.keys, 0, a) && InSlot(n.keys, 1, b);
  }

  /** What an ordered full node says about each of its children. */
  lemma FullChildren(c: Node)
    requires Ordered(c) && c.IsFull() && !c.IsLeaf()
    ensures |c.children| == 4
    ensures Ordered(c.children[0]) && AtMost(KeysOf(c.children[0]), c.keys[0])
    ensures Ordered(c.children[1]) && AtLeast(KeysOf(c.children[1]), c.keys[0]) && AtMost(KeysOf(c.children[1]), c.keys[1])
    ensures Ordered(c.children[2]) && AtLeast(KeysOf(c.children[2]), c.keys[1]) && AtMost(KeysOf(c.children[2]), c.keys[2])
    ensures Ordered(c.children[3]) && AtLeast(KeysOf(c.children[3]), c.keys[2])
  {
    assert InSlot(c.keys, 0, c.children[0]) && InSlot(c.keys, 1, c.children[1]);
    assert InSlot(c.keys, 2, c.children[2]) && InSlot(c.keys, 3, c.children[3]);
  }

  /** The left half of an ordered full node is ordered and lies at or below
      the median. */
  lemma SplitLeftOrdered(c: Node)
    requires Ordered(c) && c.IsFull()
    ensures Splittable(c)
    ensures Ordered(Split(c).left) && AtMost(KeysOf(Split(c).left), Split(c).median)
  {
    var l := Split(c).left;
    var ks := c.keys;
    assert ks[0] <= ks[1];
    if !c.IsLeaf() {
      var cs := c.children;
      FullChildren(c);
      PairOrdered(ks[0], cs[0], cs[1]);
      assert l == Node([ks[0]], [cs[0], cs[1]]);
      NodeAtMost(l, ks[1]);
    } else {
      NodeAtMost(l, ks[1]);
    }
  }

  /** The right half of an ordered full node is ordered and lies at or above
      the median. */
  lemma SplitRightOrdered(c: Node)
    requires Ordered(c) && c.IsFull()
    ensures Splittable(c)
    ensures Ordered(Split(c).right) && AtLeast(KeysOf(Split(c).right), Split(c).median)
  {
    var r := Split(c).right;
    var ks := c.keys;
    assert ks[1] <= ks[2];
    if !c.IsLeaf() {
      var cs := c.children;
      FullChildren(c);
      PairOrdered(ks[2], cs[2], cs[3]);
      assert r == Node([ks[2]], [cs[2], cs[3]]);
      NodeAtLeast(r, ks[1]);
    } else {
      NodeAtLeast(r, ks[1]);
    }
  }

  /** The median of a full child lies within that child's slot of the
      parent. */
  lemma MedianInSlot(p: Node, ci: nat)
    requires Ordered(p) && ci < |p.children| && p.children[ci].IsFull()
    ensures Splittable(p.children[ci])
    ensures forall j :: 0 <= j < ci && j < |p.keys| ==> p.keys[j] <= Split(p.children[ci]).median
    ensures ci < |p.keys| ==> Split(p.children[ci]).median <= p.keys[ci]
  {
    var c := p.children[ci];
    var m := Split(c).median;
    assert InSlot(p.keys, ci, c);
    assert m in multiset(c.keys);
    assert m in KeysOf(c);
    forall j | 0 <= j < ci && j < |p.keys| ensures p.keys[j] <= m {
      assert p.keys[j] <= p.keys[ci - 1];
    }
  }

  /** The median lands in key slot `ci` of the parent, between the halves. */
  lemma SplitChildKeysAt(p: Node, ci: nat)
    requires Ordered(p) && ci < |p.children| && p.children[ci].IsFull()
    ensures Splittable(p.children[ci]) && ci <= |p.keys|
    ensures SplitChild(p, ci).keys == InsertAt(p.keys, ci, Split(p.children[ci]).median)
  {
    MedianInSlot(p, ci);
    InsertSortedAnySlot(p.keys, ci, Split(p.children[ci]).median);
  }

  /** The two readings of the descent after a split (Program.cs:61) send
      `k` different ways exactly when it lies above the median but not above
      the parent's last key; when the split child was the last one, the
      median is that last key and the readings agree. */
  lemma SteeringsDisagree(p: Node, ci: nat, k: int)
    requires Ordered(p) && ci < |p.children| && p.children[ci].IsFull()
    ensures Splittable(p.children[ci]) && |SplitChild(p, ci).keys| > 0
    ensures var q := SplitChild(p, ci); var m := Split(p.children[ci]).median;
      GoesRight(LastParentKey, k, q, m) != GoesRight(Median, k, q, m) <==> m < k <= Last(q.keys)
    ensures ci == |p.keys| ==>
      var q := SplitChild(p, ci); var m := Split(p.children[ci]).median;
      GoesRight(LastParentKey, k, q, m) == GoesRight(Median, k, q, m)
  {
    SplitChildKeysAt(p, ci);
    SplitChildOrdered(p, ci);
    var q := SplitChild(p, ci);
    var m := Split(p.children[ci]).median;
    assert q.keys[ci] == m;
    assert m <= Last(q.keys);
  }

  /** Splitting child `ci` of an ordered node keeps it ordered. */
  lemma SplitChildOrdered(p: Node, ci: nat)
    requires Ordered(p) && ci < |p.children| && p.children[ci].IsFull()
    ensures Splittable(p.children[ci])
    ensures Ordered(SplitChild(p, ci))
  {
    var c := p.children[ci];
    SplitLeftOrdered(c);
    SplitRightOrdered(c);
    SplitChildKeysAt(p, ci);
    SplitChildLayout(p, ci);
    var s := Split(c);
    var q := SplitChild(p, ci);
    assert !p.IsLeaf() && |p.children| == |p.keys| + 1;
    assert InSlot(p.keys, ci, c);
    SplitKeys(c);
    assert KeysOf(s.left) <= KeysOf(c) && KeysOf(s.right) <= KeysOf(c);
    forall j | 0 <= j < |q.children| ensures Ordered(q.children[j]) && InSlot(q.keys, j, q.children[j]) {
      if j < ci {
        assert InSlot(p.keys, j, p.children[j]);
      } else if j == ci {
      } else if j == ci + 1 {
      } else {
        assert InSlot(p.keys, j - 1, p.children[j - 1]);
      }
    }
  }

  /** A child that gained a key inside its slot still fits the slot. */
  lemma InSlotAdd(keys: seq<int>, i: int, c: Node, d: Node, k: int)
    requires InSlot(keys, i, c) && KeysOf(d) == KeysOf(c) + multiset{k}
    requires 0 < i <= |keys| ==> keys[i - 1] <= k
    requires 0 <= i < |keys| ==> k <= keys[i]
    ensures InSlot(keys, i, d)
  {
  }

  /** Steering by the median, insertion below an ordered node keeps it
      ordered. */
  lemma {:induction false} InsertNodeOrdered(n: Node, k: int)
    requires Shaped(n) && |n.keys| < 3 && Ordered(n)
    ensures Ordered(InsertNode(n, k, Median))
    decreases Depth(n), 1
  {
    if n.IsLeaf() {
    } else if n.children[ChildSlot(n, k)].IsFull() {
      SplitBranchOrdered(n, k);
    } else {
      DescentOrdered(n, k);
    }
  }

  lemma {:induction false} SplitBranchOrdered(n: Node, k: int)
    requires Shaped(n) && |n.keys| < 3 && Ordered(n)
    requires !n.IsLeaf() && n.children[ChildSlot(n, k)].IsFull()
    ensures Ordered(InsertNode(n, k, Median))
    decreases Depth(n), 0
  {
    var ci := ChildSlot(n, k);
    var m := Split(n.children[ci]).median;
    var q := SplitChild(n, ci);
    SplitChildSlots(n, k);
    SplitCase(n, k, Median);
    var j := NextSlot(Median, k, q, ci, m);
    if j == ci {
      assert k <= q.keys[ci];
    } else {
      assert q.keys[j - 1] <= k;
    }
    ReplaceByInsertOrdered(q, j, k);
  }

  /** After the split on the way down, `k` fits the slot of the left half
      when it is at most the median and the slot of the sibling otherwise;
      both halves have room and are shallower than `n`. */
  lemma SplitChildSlots(n: Node, k: int)
    requires Shaped(n) && |n.keys| < 3 && Ordered(n)
    requires !n.IsLeaf() && n.children[ChildSlot(n, k)].IsFull()
    ensures var ci := ChildSlot(n, k);
      && Splittable(n.children[ci])
      && var q := SplitChild(n, ci);
      && Ordered(q) && ci + 1 < |q.children| && |q.keys| == |q.children| - 1
      && q.keys[ci] == Split(n.children[ci]).median
      && (0 < ci ==> q.keys[ci - 1] <= k)
      && (ci + 1 < |q.keys| ==> k < q.keys[ci + 1])
      && Shaped(q.children[ci]) && Shaped(q.children[ci + 1])
      && |q.children[ci].keys| < 3 && |q.children[ci + 1].keys| < 3
      && Depth(q.children[ci]) < Depth(n) && Depth(q.children[ci + 1]) < Depth(n)
  {
    var ci := ChildSlot(n, k);
    var q := SplitChild(n, ci);
    assert Ordered(q) && |q.keys| == |n.keys| + 1 && q.keys[ci] == Split(n.children[ci]).median
      && (0 < ci ==> q.keys[ci - 1] <= k)
      && (ci + 1 < |q.keys| ==> k < q.keys[ci + 1]) by {
      SplitChildOrdered(n, ci);
      SplitChildKeysAt(n, ci);
      assert 0 < ci ==> n.keys[ci - 1] <= k;
      assert ci < |n.keys| ==> k < n.keys[ci];
    }
    SplitStep(n, k);
  }

  lemma {:induction false} DescentOrdered(n: Node, k: int)
    requires Shaped(n) && |n.keys| < 3 && Ordered(n)
    requires !n.IsLeaf() && !n.children[ChildSlot(n, k)].IsFull()
    ensures Ordered(InsertNode(n, k, Median))
    decreases Depth(n), 0
  {
    var ci := ChildSlot(n, k);
    ChildShaped(n, ci);
    DepthChild(n, ci);
    ReplaceByInsertOrdered(n, ci, k);
    assert InsertNode(n, k, Median) == Node(n.keys, n.children[ci := InsertNode(n.children[ci], k, Median)]);
  }

  /** Inserting a key that fits the slot of child `i` into that child keeps
      the node ordered. */
  lemma {:induction false} ReplaceByInsertOrdered(p: Node, i: nat, k: int)
    requires Ordered(p) && i < |p.children|
    requires Shaped(p.children[i]) && |p.children[i].keys| < 3
    requires 0 < i <= |p.keys| ==> p.keys[i - 1] <= k
    requires 0 <= i < |p.keys| ==> k <= p.keys[i]
    ensures Ordered(Node(p.keys, p.children[i := InsertNode(p.children[i], k, Median)]))
    decreases Depth(p.children[i]), 2
  {
    var d := p.children[i];
    var sub := InsertNode(d, k, Median);
    assert Ordered(d) && InSlot(p.keys, i, d);
    InsertNodeOrdered(d, k);
    InsertNodeKeys(d, k, Median);
    InSlotAdd(p.keys, i, d, sub, k);
    ReplaceChildOrdered(p, i, sub);
  }

  /** Splitting an ordered full root gives an ordered one-key root. */
  lemma SplitRootOrdered(c: Node)
    requires Ordered(c) && c.IsFull()
    ensures Splittable(c) && Ordered(SplitRoot(c))
  {
    SplitLeftOrdered(c);
    SplitRightOrdered(c);
    PairOrdered(Split(c).median, Split(c).left, Split(c).right);
  }

  /** Program.cs:31-102 with the median steering: a valid tree stays a valid
      2-3-4 tree and gains exactly the key `k`. */
  lemma InsertKeepsValid(t: Tree, k: int)
    requires ValidTree(t)
    ensures TreeShaped(t)
    ensures ValidTree(Insert(t, k, Median))
    ensures TreeKeys(Insert(t, k, Median)) == TreeKeys(t) + multiset{k}
  {
    if t.Root? {
      var n := t.root;
      OrderedShaped(n);
      if n.IsFull() {
        SplitRootShaped(n);
        FullRootInsertValid(n, k);
        assert Insert(t, k, Median).root == InsertNode(SplitRoot(n), k, Median);
      } else {
        RootInsertValid(n, k);
        assert Insert(t, k, Median).root == InsertNode(n, k, Median);
      }
    }
    InsertAddsKey(t, k, Median);
  }

  lemma FullRootInsertValid(n: Node, k: int)
    requires Valid(n) && Shaped(n) && n.IsFull()
    ensures Splittable(n) && Shaped(SplitRoot(n)) && |SplitRoot(n).keys| < 3
    ensures Valid(InsertNode(SplitRoot(n), k, Median))
  {
    SplitRootShaped(n);
    var r := InsertNode(SplitRoot(n), k, Median);
    FullRootBalanced(n, k);
    FullRootOrdered(n, k);
    BalancedHeight(r, Height(n) + 1);
  }

  lemma FullRootBalanced(n: Node, k: int)
    requires Shaped(n) && n.IsFull() && BalancedAt(n, Height(n)) && Occupied(n)
    ensures Splittable(n) && Shaped(SplitRoot(n)) && |SplitRoot(n).keys| < 3
    ensures BalancedAt(InsertNode(SplitRoot(n), k, Median), Height(n) + 1)
    ensures Occupied(InsertNode(SplitRoot(n), k, Median))
  {
    SplitRootShaped(n);
    InsertKeepsBalance(n, k, Median, Height(n));
    assert Insert(Root(n), k, Median).root == InsertNode(SplitRoot(n), k, Median);
  }

  lemma FullRootOrdered(n: Node, k: int)
    requires Shaped(n) && n.IsFull() && Ordered(n)
    ensures Splittable(n) && Shaped(SplitRoot(n)) && |SplitRoot(n).keys| < 3
    ensures Ordered(InsertNode(SplitRoot(n), k, Median))
  {
    SplitRootShaped(n);
    SplitRootOrdered(n);
    InsertNodeOrdered(SplitRoot(n), k);
  }

  lemma RootInsertValid(n: Node, k: int)
    requires Valid(n) && Shaped(n) && !n.IsFull()
    ensures Valid(InsertNode(n, k, Median))
  {
    var r := InsertNode(n, k, Median);
    assert BalancedAt(r, Height(n)) && Occupied(r) by {
      InsertKeepsBalance(n, k, Median, Height(n));
      assert Insert(Root(n), k, Median).root == r;
    }
    assert Ordered(r) by {
      InsertNodeOrdered(n, k);
    }
    BalancedHeight(r, Height(n));
  }
}

=== FILE: insertion_properties.dfy ===
/** What insertion preserves.  Both steerings keep every key, the shape
    invariant, one to three keys per node and all leaves at one depth; only
    steering by the promoted median keeps the search-tree order. */
module InsertionProperties {
  import opened Seqs
  import opened Nodes
  import opened Insertion

  // ---------------------------------------------------------------------
  // Split

  /** Joining the halves gives back the node that was split. */
  lemma SplitJoin(c: Node)
    requires Splittable(c)
    ensures Join(Split(c)) == c
  {
    var mid := |c.keys| / 2;
    assert c.keys == c.keys[..mid] + [c.keys[mid]] + c.keys[mid + 1..];
    var cut := if c.IsLeaf() then 0 else mid + 1;
    assert c.children == c.children[..cut] + c.children[cut..];
  }

  /** No key is lost or duplicated by a split. */
  lemma SplitKeys(c: Node)
    requires Splittable(c)
    ensures KeysOf(Split(c).left) + multiset{Split(c).median} + KeysOf(Split(c).right) == KeysOf(c)
  {
    var s := Split(c);
    SplitJoin(c);
    assert multiset(c.keys) == multiset(s.left.keys) + multiset{s.median} + multiset(s.right.keys);
    ForestKeysAppend(s.left.children, s.right.children);
  }

  lemma SplitChildKeys(p: Node, ci: nat)
    requires ci < |p.children| && Splittable(p.children[ci])
    ensures KeysOf(SplitChild(p, ci)) == KeysOf(p)
  {
    var q := SplitChild(p, ci);
    var m := multiset{Split(p.children[ci]).median};
    SplitChildForest(p, ci);
    var f, g, b := ForestKeys(q.children), ForestKeys(p.children), multiset(p.keys);
    assert KeysOf(q) == (b + m) + f;
    assert KeysOf(p) == b + (f + m);
    forall x ensures ((b + m) + f)[x] == (b + (f + m))[x] {
    }
  }

  /** The children after a split hold the split child's keys except the
      median. */
  lemma SplitChildForest(p: Node, ci: nat)
    requires ci < |p.children| && Splittable(p.children[ci])
    ensures ForestKeys(SplitChild(p, ci).children) + multiset{Split(p.children[ci]).median} == ForestKeys(p.children)
  {
    var c := p.children[ci];
    var s := Split(c);
    var pre, post := p.children[..ci], p.children[ci + 1..];
    var a, f, l, r := ForestKeys(pre), ForestKeys(post), KeysOf(s.left), KeysOf(s.right);
    var m := multiset{s.median};
    ForestKeysAround(p.children, ci);
    assert ForestKeys(SplitChild(p, ci).children) == a + (l + r) + f by {
      SplitChildLayout(p, ci);
      ForestKeysSplice(pre, [s.left, s.right], post);
      ForestKeysPair(s.left, s.right);
    }
    assert KeysOf(c) == l + m + r by {
      SplitKeys(c);
    }
    forall x ensures (a + (l + r) + f + m)[x] == (a + (l + m + r) + f)[x] {
    }
  }

  lemma SplitRootKeys(c: Node)
    requires Splittable(c)
    ensures KeysOf(SplitRoot(c)) == KeysOf(c)
  {
    var s := Split(c);
    SplitKeys(c);
    ForestKeysPair(s.left, s.right);
  }

  // ---------------------------------------------------------------------
  // Keys and the shape invariant

  /** Insertion below a node adds exactly the one key, whichever way it is
      steered. */
  lemma {:induction false} InsertNodeKeys(n: Node, k: int, steer: Steering)
    requires Shaped(n) && |n.keys| < 3
    ensures KeysOf(InsertNode(n, k, steer)) == KeysOf(n) + multiset{k}
    decreases Depth(n)
  {
    if !n.IsLeaf() {
      var ci := ChildSlot(n, k);
      var c := n.children[ci];
      if c.IsFull() {
        SplitCase(n, k, steer);
        var q := SplitChild(n, ci);
        var next := NextSlot(steer, k, q, ci, Split(c).median);
        var sub := InsertNode(q.children[next], k, steer);
        InsertNodeKeys(q.children[next], k, steer);
        ReplaceChildAdds(q, next, sub, k);
        SplitChildKeys(n, ci);
      } else {
        ChildShaped(n, ci);
        var sub := InsertNode(c, k, steer);
        assert InsertNode(n, k, steer) == Node(n.keys, n.children[ci := sub]);
        DepthChild(n, ci);
        InsertNodeKeys(c, k, steer);
        ReplaceChildAdds(n, ci, sub, k);
      }
    }
  }

  /** Insertion below a node keeps the shape invariant. */
  lemma {:induction false} InsertNodeShaped(n: Node, k: int, steer: Steering)
    requires Shaped(n) && |n.keys| < 3
    ensures Shaped(InsertNode(n, k, steer))
    decreases Depth(n)
  {
    if !n.IsLeaf() {
      var ci := ChildSlot(n, k);
      var c := n.children[ci];
      if c.IsFull() {
        SplitCase(n, k, steer);
        var q := SplitChild(n, ci);
        var next := NextSlot(steer, k, q, ci, Split(c).median);
        var sub := InsertNode(q.children[next], k, steer);
        InsertNodeShaped(q.children[next], k, steer);
        ReplaceChildShaped(q, next, sub);
      } else {
        ChildShaped(n, ci);
        var sub := InsertNode(c, k, steer);
        assert InsertNode(n, k, steer) == Node(n.keys, n.children[ci := sub]);
        DepthChild(n, ci);
        InsertNodeShaped(c, k, steer);
        ReplaceChildShaped(n, ci, sub);
      }
    }
  }

  /** Program.cs:31-102 as a whole: the tree gains exactly the key `k`, keeps
      the shape invariant, and an empty tree becomes a one-key root. */
  lemma InsertAddsKey(t: Tree, k: int, steer: Steering)
    requires TreeShaped(t)
    ensures TreeKeys(Insert(t, k, steer)) == TreeKeys(t) + multiset{k}
    ensures TreeShaped(Insert(t, k, steer))
  {
    match t
    case Empty =>
      assert KeysOf(Node([k], [])) == multiset{k};
    case Root(n) =>
      if n.IsFull() {
        SplitRootShaped(n);
        SplitRootKeys(n);
        InsertNodeKeys(SplitRoot(n), k, steer);
        InsertNodeShaped(SplitRoot(n), k, steer);
      } else {
        InsertNodeKeys(n, k, steer);
        InsertNodeShaped(n, k, steer);
      }
  }

  // ---------------------------------------------------------------------
  // Balance and occupancy

  lemma SplitKeepsBalance(c: Node, h: nat)
    requires Shaped(c) && c.IsFull() && BalancedAt(c, h)
    ensures BalancedAt(Split(c).left, h) && BalancedAt(Split(c).right, h)
    ensures Occupied(c) ==> Occupied(Split(c).left) && Occupied(Split(c).right)
  {
    var s := Split(c);
    if h > 0 {
      assert forall i :: 0 <= i < 2 ==> s.right.children[i] == c.children[2 + i];
    }
  }

  /** Replacing a child by one of the same height keeps the balance, and
      keeps the occupancy when the new child is occupied too. */
  lemma ReplaceChildKeepsBalance(p: Node, i: nat, c: Node, h: nat)
    requires 0 < h && i < |p.children| && BalancedAt(p, h) && BalancedAt(c, h - 1)
    ensures BalancedAt(Node(p.keys, p.children[i := c]), h)
    ensures Occupied(p) && Occupied(c) ==> Occupied(Node(p.keys, p.children[i := c]))
  {
  }

  lemma SplitChildKeepsBalance(p: Node, ci: nat, h: nat)
    requires Shaped(p) && |p.keys| < 3 && ci < |p.children|
    requires 0 < h && p.children[ci].IsFull() && BalancedAt(p, h)
    ensures Splittable(p.children[ci])
    ensures BalancedAt(SplitChild(p, ci), h)
    ensures Occupied(p) ==> Occupied(SplitChild(p, ci))
  {
    var c := p.children[ci];
    assert Shaped(c) && BalancedAt(c, h - 1);
    SplitKeepsBalance(c, h - 1);
    SplitChildLayout(p, ci);
    var q := SplitChild(p, ci);
    assert forall i :: 0 <= i < |q.children| ==> BalancedAt(q.children[i], h - 1);
    if Occupied(p) {
      assert Occupied(c);
      assert forall i :: 0 <= i < |q.children| ==> Occupied(q.children[i]);
    }
  }

  /** Insertion below a node keeps its height, whichever key steers after a
      split, and keeps a key in every node that had one. */
  lemma {:induction false} InsertNodeKeepsBalance(n: Node, k: int, steer: Steering, h: nat)
    requires Shaped(n) && |n.keys| < 3 && BalancedAt(n, h)
    ensures BalancedAt(InsertNode(n, k, steer), h)
    ensures Occupied(n) ==> Occupied(InsertNode(n, k, steer))
    decreases h, 2
  {
    if n.IsLeaf() {
      assert h == 0;
    } else if n.children[ChildSlot(n, k)].IsFull() {
      var ci := ChildSlot(n, k);
      assert h > 0;
      SplitChildKeepsBalance(n, ci, h);
      SplitStep(n, k);
      SplitBranchKeepsBalance(n, k, steer, h);
    } else {
      DescentKeepsBalance(n, k, steer, h);
    }
  }

  lemma {:induction false} SplitBranchKeepsBalance(n: Node, k: int, steer: Steering, h: nat)
    requires Shaped(n) && |n.keys| < 3 && 0 < h
    requires !n.IsLeaf() && n.children[ChildSlot(n, k)].IsFull()
    requires var ci := ChildSlot(n, k);
      && Splittable(n.children[ci])
      && var q := SplitChild(n, ci);
      && BalancedAt(q, h) && ci + 1 < |q.children|
      && Shaped(q.children[ci]) && Shaped(q.children[ci + 1])
      && |q.children[ci].keys| < 3 && |q.children[ci + 1].keys| < 3
    ensures BalancedAt(InsertNode(n, k, steer), h)
    ensures Occupied(SplitChild(n, ChildSlot(n, k))) ==> Occupied(InsertNode(n, k, steer))
    decreases h, 1
  {
    var ci := ChildSlot(n, k);
    var q := SplitChild(n, ci);
    SplitCase(n, k, steer);
    ReplaceByInsertKeepsBalance(q, NextSlot(steer, k, q, ci, Split(n.children[ci]).median), k, steer, h);
  }

  lemma {:induction false} DescentKeepsBalance(n: Node, k: int, steer: Steering, h: nat)
    requires Shaped(n) && |n.keys| < 3 && BalancedAt(n, h)
    requires !n.IsLeaf() && !n.children[ChildSlot(n, k)].IsFull()
    ensures BalancedAt(InsertNode(n, k, steer), h)
    ensures Occupied(n) ==> Occupied(InsertNode(n, k, steer))
    decreases h, 1
  {
    var ci := ChildSlot(n, k);
    assert h > 0;
    ChildShaped(n, ci);
    ReplaceByInsertKeepsBalance(n, ci, k, steer, h);
    assert InsertNode(n, k, steer) == Node(n.keys, n.children[ci := InsertNode(n.children[ci], k, steer)]);
  }

  /** Inserting into child `i` of a balanced node, when that child has room,
      keeps the node balanced. */
  lemma {:induction false} ReplaceByInsertKeepsBalance(p: Node, i: nat, k: int, steer: Steering, h: nat)
    requires 0 < h && i < |p.children| && BalancedAt(p, h)
    requires Shaped(p.children[i]) && |p.children[i].keys| < 3
    ensures BalancedAt(Node(p.keys, p.children[i := InsertNode(p.children[i], k, steer)]), h)
    ensures Occupied(p) ==> Occupied(Node(p.keys, p.children[i := InsertNode(p.children[i], k, steer)]))
    decreases h - 1, 3
  {
    var d := p.children[i];
    assert BalancedAt(d, h - 1);
    assert Occupied(p) ==> Occupied(d);
    InsertNodeKeepsBalance(d, k, steer, h - 1);
    ReplaceChildKeepsBalance(p, i, InsertNode(d, k, steer), h);
  }

  /** Program.cs:31-102: all leaves stay at one depth, which grows by one
      exactly when the root was full, and a tree whose nodes all hold keys
      keeps them so.  A keyless leaf, which deletion can leave behind, does
      not stop the balance from being kept. */
  lemma InsertKeepsBalance(n: Node, k: int, steer: Steering, h: nat)
    requires Shaped(n) && BalancedAt(n, h)
    ensures Insert(Root(n), k, steer).Root?
    ensures BalancedAt(Insert(Root(n), k, steer).root, if n.IsFull() then h + 1 else h)
    ensures Occupied(n) ==> Occupied(Insert(Root(n), k, steer).root)
  {
    if n.IsFull() {
      SplitRootShaped(n);
      SplitKeepsBalance(n, h);
      InsertNodeKeepsBalance(SplitRoot(n), k, steer, h + 1);
    } else {
      InsertNodeKeepsBalance(n, k, steer, h);
    }
  }
}

=== FILE: nodes.dfy ===
/** The 2-3-4 tree's data model (Program.cs:14-24) and the invariants the
    operations are proved against.

    A node is a list of keys plus a list of children; a node without
    children is a leaf.  An empty tree has no root. */
module Nodes {
  import opened Seqs

  datatype Node = Node(keys: seq<int>, children: seq<Node>) {
    predicate IsLeaf() { |children| == 0 }
    predicate IsFull() { |keys| == 3 }
  }

  datatype Tree = Empty | Root(root: Node)

  /** Every key stored in the subtree, with multiplicity. */
  ghost function KeysOf(n: Node): multiset<int>
    decreases n
  {
    multiset(n.keys) + ForestKeys(n.children)
  }

  ghost function ForestKeys(cs: seq<Node>): multiset<int>
    decreases cs
  {
    if |cs| == 0 then multiset{} else KeysOf(cs[0]) + ForestKeys(cs[1..])
  }

  ghost function TreeKeys(t: Tree): multiset<int> {
    match t
    case Empty => multiset{}
    case Root(n) => KeysOf(n)
  }

  /** Number of levels in the subtree; only a termination measure. */
  function Depth(n: Node): nat
    decreases n
  {
    1 + ForestDepth(n.children)
  }

  function ForestDepth(cs: seq<Node>): nat
    decreases cs
  {
    if |cs| == 0 then 0
    else
      var first, rest := Depth(cs[0]), ForestDepth(cs[1..]);
      if first < rest then rest else first
  }

  lemma {:induction false} ForestDepthBound(cs: seq<Node>, i: nat)
    requires i < |cs|
    ensures Depth(cs[i]) <= ForestDepth(cs)
    decreases cs
  {
    if i > 0 {
      assert cs[1..][i - 1] == cs[i];
      ForestDepthBound(cs[1..], i - 1);
    }
  }

  lemma {:induction false} ForestDepthAtMost(cs: seq<Node>, b: nat)
    requires forall i :: 0 <= i < |cs| ==> Depth(cs[i]) <= b
    ensures ForestDepth(cs) <= b
    decreases cs
  {
    if |cs| > 0 {
      assert forall i :: 0 <= i < |cs[1..]| ==> cs[1..][i] == cs[i + 1];
      ForestDepthAtMost(cs[1..], b);
    }
  }

  /** Every child is shallower than its parent. */
  lemma DepthChild(n: Node, i: nat)
    requires i < |n.children|
    ensures Depth(n.children[i]) < Depth(n)
  {
    ForestDepthBound(n.children, i);
  }

  // ---------------------------------------------------------------------
  // Invariants

  /** The shape every tree reachable through the public operations keeps:
      at most three keys per node (insertion splits a full node before it
      enters it), and an internal node has more children than keys.  Deletion
      removes keys without removing children, so "more" rather than
      "exactly one more". */
  ghost predicate Shaped(n: Node)
    decreases n
  {
    && |n.keys| <= 3
    && (n.IsLeaf() || |n.children| > |n.keys|)
    && forall i :: 0 <= i < |n.children| ==> Shaped(n.children[i])
  }

  ghost predicate TreeShaped(t: Tree) {
    t.Root? ==> Shaped(t.root)
  }

  /** All leaves at distance `h` from `n`, each internal node with exactly one
      more child than keys. */
  ghost predicate BalancedAt(n: Node, h: nat)
    decreases n
  {
    if h == 0 then n.IsLeaf()
    else
      && |n.children| == |n.keys| + 1
      && forall i :: 0 <= i < |n.children| ==> BalancedAt(n.children[i], h - 1)
  }

  /** Every node holds between one and three keys. */
  ghost predicate Occupied(n: Node)
    decreases n
  {
    && 1 <= |n.keys| <= 3
    && forall i :: 0 <= i < |n.children| ==> Occupied(n.children[i])
  }

  ghost predicate AtLeast(m: multiset<int>, b: int) {
    forall x :: x in m ==> b <= x
  }

  ghost predicate AtMost(m: multiset<int>, b: int) {
    forall x :: x in m ==> x <= b
  }

  /** Child `i` of a node with keys `keys` lies between `keys[i-1]` and
      `keys[i]`, each bound present only when that key exists. */
  ghost predicate InSlot(keys: seq<int>, i: int, c: Node) {
    && (0 < i <= |keys| ==> AtLeast(KeysOf(c), keys[i - 1]))
    && (0 <= i < |keys| ==> AtMost(KeysOf(c), keys[i]))
  }

  /** The search-tree order: sorted keys, one more child than keys, and the
      keys separate the children's key ranges.  Bounds are inclusive because
      insertion accepts duplicates. */
  ghost predicate Ordered(n: Node)
    decreases n
  {
    && Sorted(n.keys)
    && (n.IsLeaf() || |n.children| == |n.keys| + 1)
    && forall i :: 0 <= i < |n.children| ==>
         Ordered(n.children[i]) && InSlot(n.keys, i, n.children[i])
  }

  /** Number of edges on the leftmost path down to a leaf. */
  function Height(n: Node): nat
    decreases n
  {
    if n.IsLeaf() then 0 else 1 + Height(n.children[0])
  }

  /** The full 2-3-4 invariant. */
  ghost predicate Valid(n: Node) {
    Ordered(n) && Occupied(n) && BalancedAt(n, Height(n))
  }

  ghost predicate ValidTree(t: Tree) {
    t.Root? ==> Valid(t.root)
  }

  /** Same number of children at every position: deletion never changes the
      shape of the tree, only the keys. */
  ghost predicate SameShape(a: Node, b: Node)
    decreases a
  {
    && |a.children| == |b.children|
    && forall i :: 0 <= i < |a.children| ==> SameShape(a.children[i], b.children[i])
  }

  lemma {:induction false} SameShapeRefl(n: Node)
    ensures SameShape(n, n)
    decreases n
  {
    forall i | 0 <= i < |n.children| ensures SameShape(n.children[i], n.children[i]) {
      SameShapeRefl(n.children[i]);
    }
  }

  /** Changing a node's keys and replacing one child by one of the same
      shape keeps the shape. */
  lemma ReplaceChildSameShape(n: Node, ks: seq<int>, i: nat, c: Node)
    requires i < |n.children| && SameShape(c, n.children[i])
    ensures SameShape(Node(ks, n.children[i := c]), n)
  {
    forall j | 0 <= j < |n.children| && j != i ensures SameShape(n.children[j], n.children[j]) {
      SameShapeRefl(n.children[j]);
    }
  }

  lemma {:induction false} SameShapeTrans(a: Node, b: Node, c: Node)
    requires SameShape(a, b) && SameShape(b, c)
    ensures SameShape(a, c)
    decreases a
  {
    forall i | 0 <= i < |a.children| ensures SameShape(a.children[i], c.children[i]) {
      SameShapeTrans(a.children[i], b.children[i], c.children[i]);
    }
  }

  lemma KeysOnlySameShape(n: Node, ks: seq<int>)
    ensures SameShape(Node(ks, n.children), n)
  {
    SameShapeRefl(n);
  }

  // ---------------------------------------------------------------------
  // Facts about ForestKeys

  lemma {:induction false} ForestKeysAppend(a: seq<Node>, b: seq<Node>)
    ensures ForestKeys(a + b) == ForestKeys(a) + ForestKeys(b)
    decreases a
  {
    if |a| == 0 {
      assert a + b == b;
    } else {
      assert (a + b)[1..] == a[1..] + b;
      ForestKeysAppend(a[1..], b);
    }
  }

  lemma ForestKeysSingle(c: Node)
    ensures ForestKeys([c]) == KeysOf(c)
  {
    assert [c][1..] == [];
  }

  lemma ForestKeysPair(a: Node, b: Node)
    ensures ForestKeys([a, b]) == KeysOf(a) + KeysOf(b)
  {
    assert [a, b] == [a] + [b];
    ForestKeysAppend([a], [b]);
    ForestKeysSingle(a);
    ForestKeysSingle(b);
  }

  lemma ForestKeysSplice(pre: seq<Node>, mid: seq<Node>, post: seq<Node>)
    ensures ForestKeys(pre + mid + post) == ForestKeys(pre) + ForestKeys(mid) + ForestKeys(post)
  {
    ForestKeysAppend(pre + mid, post);
    ForestKeysAppend(pre, mid);
  }

  /** The forest's keys around child `i`. */
  lemma ForestKeysAround(cs: seq<Node>, i: nat)
    requires i < |cs|
    ensures ForestKeys(cs) == ForestKeys(cs[..i]) + KeysOf(cs[i]) + ForestKeys(cs[i + 1..])
  {
    var pre, rest := cs[..i], cs[i..];
    assert cs == pre + rest;
    ForestKeysAppend(pre, rest);
    assert rest[1..] == cs[i + 1..];
  }

  /** Replacing child `i` swaps its keys for the new child's keys. */
  lemma ForestKeysUpdate(cs: seq<Node>, i: nat, c: Node)
    requires i < |cs|
    ensures ForestKeys(cs[i := c]) + KeysOf(cs[i]) == ForestKeys(cs) + KeysOf(c)
  {
    var ds := cs[i := c];
    ForestKeysAround(cs, i);
    ForestKeysAround(ds, i);
    assert ds[..i] == cs[..i] && ds[i + 1..] == cs[i + 1..];
  }

  /** Replacing a child by a well-shaped one keeps the node well-shaped when
      it does not add keys. */
  lemma ReplaceChildShaped(p: Node, i: nat, c: Node)
    requires Shaped(p) && i < |p.children| && Shaped(c)
    ensures Shaped(Node(p.keys, p.children[i := c]))
  {
  }

  /** A child that gained the key `k` makes its parent gain exactly `k`. */
  lemma ReplaceChildAdds(p: Node, i: nat, c: Node, k: int)
    requires i < |p.children| && KeysOf(c) == KeysOf(p.children[i]) + multiset{k}
    ensures KeysOf(Node(p.keys, p.children[i := c])) == KeysOf(p) + multiset{k}
  {
    ForestKeysUpdate(p.children, i, c);
    var a, f, before, after := ForestKeys(p.children[i := c]), ForestKeys(p.children), KeysOf(p.children[i]), KeysOf(c);
    forall x ensures a[x] == (f + multiset{k})[x] {
      assert (a + before)[x] == (f + after)[x];
    }
    assert a == f + multiset{k};
  }

  /** A child that lost one occurrence of `k` makes its parent lose it. */
  lemma ReplaceChildRemoves(p: Node, i: nat, c: Node, k: int)
    requires i < |p.children| && KeysOf(c) + multiset{k} == KeysOf(p.children[i])
    ensures KeysOf(Node(p.keys, p.children[i := c])) + multiset{k} == KeysOf(p)
  {
    ForestKeysUpdate(p.children, i, c);
    var a, f, before, after := ForestKeys(p.children[i := c]), ForestKeys(p.children), KeysOf(p.children[i]), KeysOf(c);
    forall x ensures (a + multiset{k})[x] == f[x] {
      assert (a + before)[x] == (f + after)[x];
    }
    assert a + multiset{k} == f;
  }

  /** A key is in a forest exactly when it is in one of its trees. */
  lemma {:induction false} ForestKeysMember(cs: seq<Node>, x: int)
    ensures x in ForestKeys(cs) <==> exists i :: 0 <= i < |cs| && x in KeysOf(cs[i])
    decreases cs
  {
    if |cs| > 0 {
      ForestKeysMember(cs[1..], x);
      if x in ForestKeys(cs[1..]) {
        var i :| 0 <= i < |cs[1..]| && x in KeysOf(cs[1..][i]);
        assert x in KeysOf(cs[i + 1]);
      }
      if exists i :: 0 <= i < |cs| && x in KeysOf(cs[i]) {
        var i :| 0 <= i < |cs| && x in KeysOf(cs[i]);
        if i > 0 {
          assert cs[1..][i - 1] == cs[i];
        }
      }
    }
  }

  /** Each child's keys are part of the forest's keys, with multiplicity. */
  lemma {:induction false} ChildKeysIncluded(cs: seq<Node>, i: nat)
    requires i < |cs|
    ensures KeysOf(cs[i]) <= ForestKeys(cs)
    decreases cs
  {
    if i > 0 {
      assert cs[1..][i - 1] == cs[i];
      ChildKeysIncluded(cs[1..], i - 1);
    }
  }

  /** A bound on every tree of a forest is a bound on the forest. */
  lemma {:induction false} ForestAtMost(cs: seq<Node>, b: int)
    requires forall i :: 0 <= i < |cs| ==> AtMost(KeysOf(cs[i]), b)
    ensures AtMost(ForestKeys(cs), b)
  {
    forall x | x in ForestKeys(cs) ensures x <= b {
      ForestKeysMember(cs, x);
    }
  }

  lemma {:induction false} ForestAtLeast(cs: seq<Node>, b: int)
    requires forall i :: 0 <= i < |cs| ==> AtLeast(KeysOf(cs[i]), b)
    ensures AtLeast(ForestKeys(cs), b)
  {
    forall x | x in ForestKeys(cs) ensures b <= x {
      ForestKeysMember(cs, x);
    }
  }

  /** A bound on a node's own keys and on each child is a bound on the
      subtree. */
  lemma NodeAtMost(n: Node, b: int)
    requires forall i :: 0 <= i < |n.keys| ==> n.keys[i] <= b
    requires forall i :: 0 <= i < |n.children| ==> AtMost(KeysOf(n.children[i]), b)
    ensures AtMost(KeysOf(n), b)
  {
    ForestAtMost(n.children, b);
  }

  lemma NodeAtLeast(n: Node, b: int)
    requires forall i :: 0 <= i < |n.keys| ==> b <= n.keys[i]
    requires forall i :: 0 <= i < |n.children| ==> AtLeast(KeysOf(n.children[i]), b)
    ensures AtLeast(KeysOf(n), b)
  {
    ForestAtLeast(n.children, b);
  }

  /** Replacing a child by an ordered one that fits its slot keeps the
      order. */
  lemma ReplaceChildOrdered(p: Node, i: nat, c: Node)
    requires Ordered(p) && i < |p.children| && Ordered(c) && InSlot(p.keys, i, c)
    ensures Ordered(Node(p.keys, p.children[i := c]))
  {
  }

  /** A subtree holding a part of a slot's keys still fits the slot. */
  lemma InSlotSubset(keys: seq<int>, i: int, c: Node, d: Node)
    requires InSlot(keys, i, c) && KeysOf(d) <= KeysOf(c)
    ensures InSlot(keys, i, d)
  {
  }

  /** Replacing a child by one of the same height, and the keys by as many,
      keeps a node balanced. */
  lemma ReplaceChildBalanced(p: Node, ks: seq<int>, i: nat, c: Node, h: nat)
    requires 0 < h && BalancedAt(p, h) && |ks| == |p.keys| && i < |p.children| && BalancedAt(c, h - 1)
    ensures BalancedAt(Node(ks, p.children[i := c]), h)
  {
  }

  /** The order and occupancy invariants together imply the weaker shape
      invariant. */
  lemma {:induction false} OrderedShaped(n: Node)
    requires Ordered(n) && Occupied(n)
    ensures Shaped(n)
    decreases n
  {
    forall i | 0 <= i < |n.children| ensures Shaped(n.children[i]) {
      OrderedShaped(n.children[i]);
    }
  }

  /** A subtree balanced at `h` has height `h`. */
  lemma {:induction false} BalancedHeight(n: Node, h: nat)
    requires BalancedAt(n, h)
    ensures Height(n) == h
    decreases n
  {
    if h > 0 {
      BalancedHeight(n.children[0], h - 1);
    }
  }

}

=== FILE: rbshape.dfy ===
/** The tree the conversion builds, described directly.

    Adding the keys of a 2-3-4 tree in pre-order into an empty binary search
    tree reproduces the 2-3-4 tree's structure node by node: a 2-node becomes
    one black node, a 3-node a black node with a red right child, and a
    4-node either a black node with a chain of two red right children (keys
    added in order, as Program.cs:257-269 does) or a black node between two
    red children (middle key added first).  Only the second is a red-black
    tree: the chain puts a red node under a red node.

    These results need keys that are strictly ordered (no repeated key);
    insertion into the 2-3-4 tree accepts repeats, and the target tree drops
    them. */
module RedBlackShape {
  import opened Seqs
  import opened Nodes
  import opened RedBlack
  import opened Conversion

  /** Keys of child `i` lie strictly between the neighbouring node keys. */
  ghost predicate Between(keys: seq<int>, i: int, c: Node) {
    && (0 < i <= |keys| ==> forall x :: x in KeysOf(c) ==> keys[i - 1] < x)
    && (0 <= i < |keys| ==> forall x :: x in KeysOf(c) ==> x < keys[i])
  }

  /** The search-tree order without repeated keys. */
  ghost predicate Strict(n: Node)
    decreases n
  {
    && (forall i, j :: 0 <= i < j < |n.keys| ==> n.keys[i] < n.keys[j])
    && (n.IsLeaf() || |n.children| == |n.keys| + 1)
    && forall i :: 0 <= i < |n.children| ==> Strict(n.children[i]) && Between(n.keys, i, n.children[i])
  }

  /** No node holds three keys. */
  ghost predicate NoFull(n: Node)
    decreases n
  {
    |n.keys| < 3 && forall i :: 0 <= i < |n.children| ==> NoFull(n.children[i])
  }

  /** The binary tree a 2-3-4 node stands for, with `layout` deciding the
      shape of a 4-node. */
  function ToRb(n: Node, layout: Layout): (r: Bst)
    ensures RootColor(r) == Black
    ensures r.BNode? <==> |n.keys| > 0
    decreases n, 1
  {
    var ks := n.keys;
    if |ks| == 0 then Nil
    else if |ks| == 1 then BNode(Sub(n, 0, layout), ks[0], Black, Sub(n, 1, layout))
    else if |ks| == 2 then
      BNode(Sub(n, 0, layout), ks[0], Black, BNode(Sub(n, 1, layout), ks[1], Red, Sub(n, 2, layout)))
    else if layout == KeysInOrder then
      BNode(Sub(n, 0, layout), ks[0], Black,
        BNode(Sub(n, 1, layout), ks[1], Red, BNode(Sub(n, 2, layout), ks[2], Red, Sub(n, 3, layout))))
    else
      BNode(BNode(Sub(n, 0, layout), ks[0], Red, Sub(n, 1, layout)), ks[1], Black,
        BNode(Sub(n, 2, layout), ks[2], Red, Sub(n, 3, layout)))
  }

  /** The binary tree standing for child `i`, empty when there is none. */
  function Sub(n: Node, i: nat, layout: Layout): (r: Bst)
    ensures RootColor(r) == Black
    decreases n, 0
  {
    if i < |n.children| then ToRb(n.children[i], layout) else Nil
  }

  // ---------------------------------------------------------------------
  // Adding a run of keys into a binary search tree

  ghost predicate Below(es: seq<Entry>, x: int) {
    forall j :: 0 <= j < |es| ==> es[j].key < x
  }

  ghost predicate Above(es: seq<Entry>, x: int) {
    forall j :: 0 <= j < |es| ==> x < es[j].key
  }

  lemma {:induction false} AddAllAppend(b: Bst, s: seq<Entry>, t: seq<Entry>)
    ensures AddAll(b, s + t) == AddAll(AddAll(b, s), t)
    decreases |s|
  {
    if |s| > 0 {
      assert (s + t)[0] == s[0];
      assert (s + t)[1..] == s[1..] + t;
      AddAllAppend(Add(b, s[0].key, s[0].rb), s[1..], t);
    } else {
      assert s + t == t;
    }
  }

  lemma AddAllOne(b: Bst, e: Entry)
    ensures AddAll(b, [e]) == Add(b, e.key, e.rb)
  {
    assert [e][1..] == [];
  }

  /** Adding a run that starts with `e`: first `e`, then the rest. */
  lemma AddAllFirst(b: Bst, e: Entry, rest: seq<Entry>)
    ensures AddAll(b, [e] + rest) == AddAll(Add(b, e.key, e.rb), rest)
  {
    AddAllAppend(b, [e], rest);
    AddAllOne(b, e);
  }

  /** Keys smaller than the root all go into its left subtree. */
  lemma {:induction false} AddAllLeft(l: Bst, x: int, c: Color, r: Bst, es: seq<Entry>)
    requires Below(es, x)
    ensures AddAll(BNode(l, x, c, r), es) == BNode(AddAll(l, es), x, c, r)
    decreases |es|
  {
    if |es| > 0 {
      AddAllLeft(Add(l, es[0].key, es[0].rb), x, c, r, es[1..]);
    }
  }

  /** Keys larger than the root all go into its right subtree. */
  lemma {:induction false} AddAllRight(l: Bst, x: int, c: Color, r: Bst, es: seq<Entry>)
    requires Above(es, x)
    ensures AddAll(BNode(l, x, c, r), es) == BNode(l, x, c, AddAll(r, es))
    decreases |es|
  {
    if |es| > 0 {
      AddAllRight(l, x, c, Add(r, es[0].key, es[0].rb), es[1..]);
    }
  }

  /** Adding a node's own entries and then the runs of its children one
      after another. */
  lemma AddAllRuns(e: seq<Entry>, p0: seq<Entry>, p1: seq<Entry>, p2: seq<Entry>, p3: seq<Entry>)
    ensures AddAll(Nil, e + p0 + p1 + p2 + p3)
         == AddAll(AddAll(AddAll(AddAll(AddAll(Nil, e), p0), p1), p2), p3)
  {
    AddAllAppend(Nil, e + p0 + p1 + p2, p3);
    AddAllAppend(Nil, e + p0 + p1, p2);
    AddAllAppend(Nil, e + p0, p1);
    AddAllAppend(Nil, e, p0);
  }

  lemma BuildOne(k0: int, p0: seq<Entry>, p1: seq<Entry>)
    requires Below(p0, k0) && Above(p1, k0)
    ensures AddAll(Nil, [Entry(k0, Black)] + p0 + p1) == BNode(AddAll(Nil, p0), k0, Black, AddAll(Nil, p1))
  {
    var e := [Entry(k0, Black)];
    AddAllRuns(e, p0, p1, [], []);
    assert e + p0 + p1 + [] + [] == e + p0 + p1;
    AddAllOne(Nil, Entry(k0, Black));
    AddAllLeft(Nil, k0, Black, Nil, p0);
    AddAllRight(AddAll(Nil, p0), k0, Black, Nil, p1);
  }

  lemma BuildTwo(k0: int, k1: int, p0: seq<Entry>, p1: seq<Entry>, p2: seq<Entry>)
    requires k0 < k1 && Below(p0, k0) && Above(p1, k0) && Below(p1, k1) && Above(p2, k1)
    ensures AddAll(Nil, [Entry(k0, Black), Entry(k1, Red)] + p0 + p1 + p2)
         == BNode(AddAll(Nil, p0), k0, Black, BNode(AddAll(Nil, p1), k1, Red, AddAll(Nil, p2)))
  {
    var e := [Entry(k0, Black), Entry(k1, Red)];
    var s0, s1, s2 := AddAll(Nil, p0), AddAll(Nil, p1), AddAll(Nil, p2);
    var r1 := BNode(Nil, k1, Red, Nil);
    var t0 := BNode(Nil, k0, Black, r1);
    assert AddAll(Nil, e) == t0 by {
      AddAllFirst(Nil, Entry(k0, Black), [Entry(k1, Red)]);
      AddAllOne(BNode(Nil, k0, Black, Nil), Entry(k1, Red));
    }
    var t1 := BNode(s0, k0, Black, r1);
    assert AddAll(t0, p0) == t1 by {
      AddAllLeft(Nil, k0, Black, r1, p0);
    }
    var t2 := BNode(s0, k0, Black, BNode(s1, k1, Red, Nil));
    assert AddAll(t1, p1) == t2 by {
      AddAllRight(s0, k0, Black, r1, p1);
      AddAllLeft(Nil, k1, Red, Nil, p1);
    }
    assert AddAll(t2, p2) == BNode(s0, k0, Black, BNode(s1, k1, Red, s2)) by {
      assert Above(p2, k0);
      AddAllRight(s0, k0, Black, BNode(s1, k1, Red, Nil), p2);
      AddAllRight(s1, k1, Red, Nil, p2);
    }
    AddAllRuns(e, p0, p1, p2, []);
    assert e + p0 + p1 + p2 + [] == e + p0 + p1 + p2;
  }

  /** A 4-node's keys added in order: a red chain to the right. */
  lemma BuildChain(k0: int, k1: int, k2: int, p0: seq<Entry>, p1: seq<Entry>, p2: seq<Entry>, p3: seq<Entry>)
    requires k0 < k1 < k2 && Below(p0, k0) && Above(p1, k0) && Below(p1, k1)
    requires Above(p2, k1) && Below(p2, k2) && Above(p3, k2)
    ensures AddAll(Nil, [Entry(k0, Black), Entry(k1, Red), Entry(k2, Red)] + p0 + p1 + p2 + p3)
         == BNode(AddAll(Nil, p0), k0, Black,
              BNode(AddAll(Nil, p1), k1, Red, BNode(AddAll(Nil, p2), k2, Red, AddAll(Nil, p3))))
  {
    var e := [Entry(k0, Black), Entry(k1, Red), Entry(k2, Red)];
    var s0, s1, s2, s3 := AddAll(Nil, p0), AddAll(Nil, p1), AddAll(Nil, p2), AddAll(Nil, p3);
    var r2 := BNode(Nil, k2, Red, Nil);
    var r1 := BNode(Nil, k1, Red, r2);
    var t0 := BNode(Nil, k0, Black, r1);
    assert AddAll(Nil, e) == t0 by {
      AddAllFirst(Nil, Entry(k0, Black), [Entry(k1, Red), Entry(k2, Red)]);
      AddAllFirst(BNode(Nil, k0, Black, Nil), Entry(k1, Red), [Entry(k2, Red)]);
      AddAllOne(BNode(Nil, k0, Black, BNode(Nil, k1, Red, Nil)), Entry(k2, Red));
      assert Add(BNode(Nil, k1, Red, Nil), k2, Red) == r1;
    }
    var t1 := BNode(s0, k0, Black, r1);
    assert AddAll(t0, p0) == t1 by {
      AddAllLeft(Nil, k0, Black, r1, p0);
    }
    var q1 := BNode(s1, k1, Red, r2);
    assert AddAll(t1, p1) == BNode(s0, k0, Black, q1) by {
      AddAllRight(s0, k0, Black, r1, p1);
      AddAllLeft(Nil, k1, Red, r2, p1);
    }
    var q2 := BNode(s1, k1, Red, BNode(s2, k2, Red, Nil));
    assert AddAll(BNode(s0, k0, Black, q1), p2) == BNode(s0, k0, Black, q2) by {
      assert Above(p2, k0);
      AddAllRight(s0, k0, Black, q1, p2);
      AddAllRight(s1, k1, Red, r2, p2);
      AddAllLeft(Nil, k2, Red, Nil, p2);
    }
    assert AddAll(BNode(s0, k0, Black, q2), p3) == BNode(s0, k0, Black, BNode(s1, k1, Red, BNode(s2, k2, Red, s3))) by {
      assert Above(p3, k0) && Above(p3, k1);
      AddAllRight(s0, k0, Black, q2, p3);
      AddAllRight(s1, k1, Red, BNode(s2, k2, Red, Nil), p3);
      AddAllRight(s2, k2, Red, Nil, p3);
    }
    AddAllRuns(e, p0, p1, p2, p3);
  }

  /** A 4-node's middle key added first: a black node between two red
      ones. */
  lemma BuildBalanced(k0: int, k1: int, k2: int, p0: seq<Entry>, p1: seq<Entry>, p2: seq<Entry>, p3: seq<Entry>)
    requires k0 < k1 < k2 && Below(p0, k0) && Above(p1, k0) && Below(p1, k1)
    requires Above(p2, k1) && Below(p2, k2) && Above(p3, k2)
    ensures AddAll(Nil, [Entry(k1, Black), Entry(k0, Red), Entry(k2, Red)] + p0 + p1 + p2 + p3)
         == BNode(BNode(AddAll(Nil, p0), k0, Red, AddAll(Nil, p1)), k1, Black,
              BNode(AddAll(Nil, p2), k2, Red, AddAll(Nil, p3)))
  {
    var e := [Entry(k1, Black), Entry(k0, Red), Entry(k2, Red)];
    var s0, s1, s2, s3 := AddAll(Nil, p0), AddAll(Nil, p1), AddAll(Nil, p2), AddAll(Nil, p3);
    var l0 := BNode(Nil, k0, Red, Nil);
    var r2 := BNode(Nil, k2, Red, Nil);
    var t0 := BNode(l0, k1, Black, r2);
    assert AddAll(Nil, e) == t0 by {
      AddAllFirst(Nil, Entry(k1, Black), [Entry(k0, Red), Entry(k2, Red)]);
      AddAllFirst(BNode(Nil, k1, Black, Nil), Entry(k0, Red), [Entry(k2, Red)]);
      AddAllOne(BNode(l0, k1, Black, Nil), Entry(k2, Red));
    }
    var a := BNode(s0, k0, Red, Nil);
    assert AddAll(t0, p0) == BNode(a, k1, Black, r2) by {
      assert Below(p0, k1);
      AddAllLeft(l0, k1, Black, r2, p0);
      AddAllLeft(Nil, k0, Red, Nil, p0);
    }
    var b := BNode(s0, k0, Red, s1);
    assert AddAll(BNode(a, k1, Black, r2), p1) == BNode(b, k1, Black, r2) by {
      AddAllLeft(a, k1, Black, r2, p1);
      AddAllRight(s0, k0, Red, Nil, p1);
    }
    var c := BNode(s2, k2, Red, Nil);
    assert AddAll(BNode(b, k1, Black, r2), p2) == BNode(b, k1, Black, c) by {
      AddAllRight(b, k1, Black, r2, p2);
      AddAllLeft(Nil, k2, Red, Nil, p2);
    }
    assert AddAll(BNode(b, k1, Black, c), p3) == BNode(b, k1, Black, BNode(s2, k2, Red, s3)) by {
      assert Above(p3, k1);
      AddAllRight(b, k1, Black, c, p3);
      AddAllRight(s2, k2, Red, Nil, p3);
    }
    AddAllRuns(e, p0, p1, p2, p3);
  }

  // ---------------------------------------------------------------------
  // The conversion builds ToRb

  lemma {:induction false} StrictFits(n: Node)
    requires Strict(n) && Occupied(n)
    ensures Fits(n)
    decreases n
  {
    forall i | 0 <= i < |n.children| ensures Fits(n.children[i]) {
      StrictFits(n.children[i]);
    }
  }

  /** The entries the walk emits for child `i`, none when there is none. */
  function PaintSub(n: Node, i: nat, layout: Layout): seq<Entry> {
    if i < |n.children| then Painted(n.children[i], layout) else []
  }

  /** The runs of children `i` up to the fourth, one after another. */
  function Runs(n: Node, i: nat, layout: Layout): seq<Entry>
    decreases 4 - i
  {
    if i >= 4 then [] else PaintSub(n, i, layout) + Runs(n, i + 1, layout)
  }

  lemma {:induction false} RunsPastChildren(n: Node, i: nat, layout: Layout)
    requires |n.children| <= i
    ensures Runs(n, i, layout) == []
    decreases 4 - i
  {
    if i < 4 {
      RunsPastChildren(n, i + 1, layout);
    }
  }

  lemma {:induction false} ForestRuns(n: Node, i: nat, layout: Layout)
    requires i <= |n.children| <= 4
    ensures PaintForest(n.children[i..], layout) == Runs(n, i, layout)
    decreases |n.children| - i
  {
    if i == |n.children| {
      RunsPastChildren(n, i, layout);
    } else {
      assert n.children[i..][1..] == n.children[i + 1..];
      ForestRuns(n, i + 1, layout);
    }
  }

  /** The runs from the first child: the four children's entries in turn. */
  lemma RunsFromFirst(n: Node, layout: Layout)
    ensures Runs(n, 0, layout)
         == PaintSub(n, 0, layout) + (PaintSub(n, 1, layout) + (PaintSub(n, 2, layout) + PaintSub(n, 3, layout)))
  {
    var p2, p3 := PaintSub(n, 2, layout), PaintSub(n, 3, layout);
    assert Runs(n, 3, layout) == p3;
    assert Runs(n, 2, layout) == p2 + p3;
  }

  /** What the walk emits for a node: its own entries, then the runs of its
      (up to four) children. */
  lemma PaintedRuns(n: Node, layout: Layout)
    requires |n.children| <= 4 && |n.keys| > 0
    ensures Painted(n, layout)
         == OwnEntries(n.keys, Black, Red, layout)
            + PaintSub(n, 0, layout) + PaintSub(n, 1, layout) + PaintSub(n, 2, layout) + PaintSub(n, 3, layout)
  {
    ForestRuns(n, 0, layout);
    assert n.children[0..] == n.children;
    RunsFromFirst(n, layout);
  }

  /** The keys emitted for child `i` lie strictly between the node's
      neighbouring keys. */
  lemma SubBounds(n: Node, i: nat, layout: Layout)
    requires Strict(n) && Occupied(n)
    ensures 0 < i <= |n.keys| ==> Above(PaintSub(n, i, layout), n.keys[i - 1])
    ensures i < |n.keys| ==> Below(PaintSub(n, i, layout), n.keys[i])
  {
    if i < |n.children| {
      var c := n.children[i];
      var es := Painted(c, layout);
      StrictFits(c);
      PaintedKeys(c, layout);
      assert Between(n.keys, i, c);
      forall j | 0 <= j < |es| ensures es[j].key in KeysOf(c) {
        assert EntryKeys(es)[j] == es[j].key;
        assert es[j].key in multiset(EntryKeys(es));
      }
    }
  }

  /** Adding the walk's entries into an empty tree builds `ToRb`. */
  lemma {:induction false} Built(n: Node, layout: Layout)
    requires Strict(n) && Occupied(n)
    ensures AddAll(Nil, Painted(n, layout)) == ToRb(n, layout)
    decreases n, 1
  {
    PaintedRuns(n, layout);
    forall i: nat | i < 4
      ensures AddAll(Nil, PaintSub(n, i, layout)) == Sub(n, i, layout)
      ensures RunFits(n, i, layout)
    {
      SubBuilt(n, i, layout);
      SubBounds(n, i, layout);
    }
    BuiltFromRuns(n, layout);
  }

  /** The bounds `SubBounds` gives for the entries of child `i`. */
  ghost predicate RunFits(n: Node, i: nat, layout: Layout) {
    && (0 < i <= |n.keys| ==> Above(PaintSub(n, i, layout), n.keys[i - 1]))
    && (i < |n.keys| ==> Below(PaintSub(n, i, layout), n.keys[i]))
  }

  /** One node's step of `Built`, once its children are built. */
  lemma BuiltFromRuns(n: Node, layout: Layout)
    requires 0 < |n.keys| <= 3 && (n.IsLeaf() || |n.children| == |n.keys| + 1)
    requires forall i, j :: 0 <= i < j < |n.keys| ==> n.keys[i] < n.keys[j]
    requires forall i: nat :: i < 4 ==> AddAll(Nil, PaintSub(n, i, layout)) == Sub(n, i, layout) && RunFits(n, i, layout)
    ensures AddAll(Nil, OwnEntries(n.keys, Black, Red, layout)
              + PaintSub(n, 0, layout) + PaintSub(n, 1, layout) + PaintSub(n, 2, layout) + PaintSub(n, 3, layout))
         == ToRb(n, layout)
  {
    var ks := n.keys;
    var own := OwnEntries(ks, Black, Red, layout);
    var p0, p1, p2, p3 := PaintSub(n, 0, layout), PaintSub(n, 1, layout), PaintSub(n, 2, layout), PaintSub(n, 3, layout);
    assert RunFits(n, 0, layout) && RunFits(n, 1, layout) && RunFits(n, 2, layout) && RunFits(n, 3, layout);
    if |ks| == 1 {
      assert p2 == [] && p3 == [];
      assert own == [Entry(ks[0], Black)];
      assert own + p0 + p1 + p2 + p3 == own + p0 + p1;
      BuildOne(ks[0], p0, p1);
    } else if |ks| == 2 {
      assert p3 == [];
      assert own == [Entry(ks[0], Black), Entry(ks[1], Red)];
      assert own + p0 + p1 + p2 + p3 == own + p0 + p1 + p2;
      BuildTwo(ks[0], ks[1], p0, p1, p2);
    } else if layout == KeysInOrder {
      assert own == [Entry(ks[0], Black), Entry(ks[1], Red), Entry(ks[2], Red)];
      BuildChain(ks[0], ks[1], ks[2], p0, p1, p2, p3);
    } else {
      BuildBalanced(ks[0], ks[1], ks[2], p0, p1, p2, p3);
    }
  }

  lemma {:induction false} SubBuilt(n: Node, i: nat, layout: Layout)
    requires Strict(n) && Occupied(n)
    ensures AddAll(Nil, PaintSub(n, i, layout)) == Sub(n, i, layout)
    decreases n, 0
  {
    if i < |n.children| {
      Built(n.children[i], layout);
    }
  }

  // ---------------------------------------------------------------------
  // Which of the two shapes is a red-black tree

  /** With the middle key first no red node ever has a red child: red nodes
      only appear right below a black one, above subtrees with black
      roots. */
  lemma {:induction false} MiddleFirstNoRedRed(n: Node)
    ensures NoRedRed(ToRb(n, MiddleFirst))
    decreases n, 1
  {
    forall i: nat | i < 4 ensures NoRedRed(Sub(n, i, MiddleFirst)) {
      SubNoRedRed(n, i);
    }
  }

  lemma {:induction false} SubNoRedRed(n: Node, i: nat)
    ensures NoRedRed(Sub(n, i, MiddleFirst))
    decreases n, 0
  {
    if i < |n.children| {
      MiddleFirstNoRedRed(n.children[i]);
    }
  }

  /** Every 2-3-4 node contributes exactly one black node on each path, so
      leaves at one depth give one black height. */
  lemma {:induction false} ToRbBlackHeight(n: Node, layout: Layout, h: nat)
    requires Occupied(n) && BalancedAt(n, h)
    ensures BlackHeight(ToRb(n, layout), h + 1)
    decreases n, 1
  {
    forall i: nat | i <= |n.keys| ensures BlackHeight(Sub(n, i, layout), h) {
      SubBlackHeight(n, i, layout, h);
    }
  }

  lemma {:induction false} SubBlackHeight(n: Node, i: nat, layout: Layout, h: nat)
    requires Occupied(n) && BalancedAt(n, h) && i <= |n.keys|
    ensures BlackHeight(Sub(n, i, layout), h)
    decreases n, 0
  {
    if h > 0 {
      ToRbBlackHeight(n.children[i], layout, h - 1);
    }
  }

  /** Without 4-nodes the two layouts build the same tree. */
  lemma {:induction false} NoFullSameShape(n: Node)
    requires NoFull(n)
    ensures ToRb(n, KeysInOrder) == ToRb(n, MiddleFirst)
    decreases n, 1
  {
    forall i: nat | i < 4 ensures Sub(n, i, KeysInOrder) == Sub(n, i, MiddleFirst) {
      if i < |n.children| {
        NoFullSameShape(n.children[i]);
      }
    }
  }

  /** Keys added in order: one 4-node anywhere in the tree puts a red node
      under a red node. */
  lemma {:induction false} FullNodeRedRed(n: Node)
    requires Strict(n) && Occupied(n) && !NoFull(n)
    ensures !NoRedRed(ToRb(n, KeysInOrder))
    decreases n
  {
    if |n.keys| < 3 {
      var j :| 0 <= j < |n.children| && !NoFull(n.children[j]);
      assert Strict(n.children[j]) && Occupied(n.children[j]);
      FullNodeRedRed(n.children[j]);
      RedRedLifts(n, j);
    } else {
      ChainRedRed(n);
    }
  }

  lemma ChainRedRed(n: Node)
    requires |n.keys| >= 3
    ensures !NoRedRed(ToRb(n, KeysInOrder))
  {
    var r := ToRb(n, KeysInOrder).right;
    assert r.rb == Red && r.right.rb == Red;
  }

  /** A red node under a red node inside the tree of child `j` of a 2- or
      3-node is one inside the node's tree. */
  lemma RedRedLifts(n: Node, j: nat)
    requires 0 < |n.keys| < 3 && j <= |n.keys| && !NoRedRed(Sub(n, j, KeysInOrder))
    ensures !NoRedRed(ToRb(n, KeysInOrder))
  {
    var b := ToRb(n, KeysInOrder);
    if |n.keys| == 2 && j > 0 {
      assert !NoRedRed(b.right);
    }
  }

  function BlackLevels(t: Tree): nat {
    if t.Empty? then 0 else Height(t.root) + 1
  }

  /** Program.cs:241-286 on a strictly ordered tree builds exactly `ToRb`
      of the root, for either layout. */
  lemma ConvertBuilds(t: Tree, layout: Layout)
    requires t.Root? ==> Strict(t.root) && Occupied(t.root)
    ensures Convert(t, layout) == Some(if t.Empty? then Nil else ToRb(t.root, layout))
  {
    if t.Root? {
      StrictFits(t.root);
      EmitPainted(t.root, Black, true, layout);
      Built(t.root, layout);
    }
  }

  /** With the middle key of each 4-node added first, a valid 2-3-4 tree
      without repeated keys converts to a red-black tree holding the same
      keys, whose black height is the 2-3-4 height plus one. */
  lemma ConvertMiddleFirstRedBlack(t: Tree)
    requires ValidTree(t) && (t.Root? ==> Strict(t.root))
    ensures Convert(t, MiddleFirst).Some?
    ensures RedBlackTree(Convert(t, MiddleFirst).value, BlackLevels(t))
    ensures forall x :: x in Items(Convert(t, MiddleFirst).value) <==> x in TreeKeys(t)
  {
    ConvertBuilds(t, MiddleFirst);
    ConvertValid(t, MiddleFirst);
    if t.Root? {
      var n := t.root;
      BalancedHeight(n, Height(n));
      ToRbBlackHeight(n, MiddleFirst, Height(n));
      MiddleFirstNoRedRed(n);
      OrderedFits(n);
      ConvertKeys(t, MiddleFirst);
    }
  }

  /** The conversion as written gives an ordered tree with a black root
      and equal black heights, and it is a red-black tree exactly when the
      2-3-4 tree has no 4-node. */
  lemma ConvertInOrderRedBlackIff(t: Tree)
    requires ValidTree(t) && (t.Root? ==> Strict(t.root))
    ensures Convert(t, KeysInOrder).Some?
    ensures BstOrdered(Convert(t, KeysInOrder).value) && RootColor(Convert(t, KeysInOrder).value) == Black
    ensures BlackHeight(Convert(t, KeysInOrder).value, BlackLevels(t))
    ensures RedBlackTree(Convert(t, KeysInOrder).value, BlackLevels(t)) <==> t.Empty? || NoFull(t.root)
  {
    ConvertBuilds(t, KeysInOrder);
    if t.Root? {
      var n := t.root;
      OrderedFits(n);
      ConvertKeys(t, KeysInOrder);
      BalancedHeight(n, Height(n));
      ToRbBlackHeight(n, KeysInOrder, Height(n));
      if NoFull(n) {
        NoFullSameShape(n);
        MiddleFirstNoRedRed(n);
      } else {
        FullNodeRedRed(n);
      }
    }
  }
}

=== FILE: redblack.dfy ===
/** The target of the conversion (Program.cs:330-416): a binary search tree
    whose nodes carry a colour.  `Add` does no rebalancing or recolouring;
    the colours are whatever the caller passes. */
module RedBlack {

  datatype Color = Red | Black

  datatype Bst = Nil | BNode(left: Bst, item: int, rb: Color, right: Bst)

  ghost function Items(b: Bst): set<int>
    decreases b
  {
    match b
    case Nil => {}
    case BNode(l, x, _, r) => Items(l) + {x} + Items(r)
  }

  /** Every stored item together with its colour. */
  ghost function Entries(b: Bst): set<(int, Color)>
    decreases b
  {
    match b
    case Nil => {}
    case BNode(l, x, c, r) => Entries(l) + {(x, c)} + Entries(r)
  }

  function Size(b: Bst): nat
    decreases b
  {
    match b
    case Nil => 0
    case BNode(l, _, _, r) => Size(l) + 1 + Size(r)
  }

  /** Strict search-tree order: smaller items to the left, larger to the
      right, no item twice. */
  ghost predicate BstOrdered(b: Bst)
    decreases b
  {
    match b
    case Nil => true
    case BNode(l, x, _, r) =>
      && BstOrdered(l) && BstOrdered(r)
      && (forall y :: y in Items(l) ==> y < x)
      && (forall y :: y in Items(r) ==> x < y)
  }

  /** Program.cs:379-416.  Walk down from the root by comparison and hang a
      new node with the given colour in the empty spot; an item that compares
      equal to one on the way is dropped.  The source's loop is written here
      as recursion over the path it walks. */
  function Add(b: Bst, item: int, rb: Color): (r: Bst)
    ensures Items(r) == Items(b) + {item}
    ensures BstOrdered(b) ==> BstOrdered(r)
    ensures r.BNode?
    ensures b.BNode? ==> r.item == b.item && r.rb == b.rb
    decreases b
  {
    match b
    case Nil => BNode(Nil, item, rb, Nil)
    case BNode(l, x, c, rt) =>
      if item < x then BNode(Add(l, item, rb), x, c, rt)
      else if item > x then BNode(l, x, c, Add(rt, item, rb))
      else b
  }

  /** A duplicate is not inserted: adding an item already in an ordered tree
      changes nothing, whatever colour is passed. */
  lemma {:induction false} AddExisting(b: Bst, item: int, rb: Color)
    requires BstOrdered(b) && item in Items(b)
    ensures Add(b, item, rb) == b
    decreases b
  {
    match b
    case BNode(l, x, c, rt) =>
      if item < x {
        assert item !in Items(rt);
        AddExisting(l, item, rb);
      } else if item > x {
        assert item !in Items(l);
        AddExisting(rt, item, rb);
      }
  }

  /** A new item becomes exactly one new node, with the colour passed; every
      other node keeps its item and colour. */
  lemma {:induction false} AddNew(b: Bst, item: int, rb: Color)
    requires item !in Items(b)
    ensures Entries(Add(b, item, rb)) == Entries(b) + {(item, rb)}
    ensures Size(Add(b, item, rb)) == Size(b) + 1
    decreases b
  {
    match b
    case Nil =>
    case BNode(l, x, c, rt) =>
      if item < x {
        AddNew(l, item, rb);
      } else {
        AddNew(rt, item, rb);
      }
  }

  /** `r` is `b` with one new node `(item, rb)` hung in the empty spot that
      the comparisons with `item` lead to: every node on the way keeps its
      item and colour, and the side not taken is left as it was. */
  ghost predicate Grafted(b: Bst, r: Bst, item: int, rb: Color)
    decreases b
  {
    match b
    case Nil => r == BNode(Nil, item, rb, Nil)
    case BNode(l, x, c, rt) =>
      && r.BNode? && r.item == x && r.rb == c
      && (if item < x then r.right == rt && Grafted(l, r.left, item, rb)
          else x < item && r.left == l && Grafted(rt, r.right, item, rb))
  }

  /** An item not yet stored is attached as a new leaf at the end of the
      search path; no existing node moves, so there is no rebalancing. */
  lemma {:induction false} AddGrafts(b: Bst, item: int, rb: Color)
    requires item !in Items(b)
    ensures Grafted(b, Add(b, item, rb), item, rb)
    decreases b
  {
    match b
    case Nil =>
    case BNode(l, x, c, rt) =>
      if item < x {
        AddGrafts(l, item, rb);
      } else {
        AddGrafts(rt, item, rb);
      }
  }

  // ---------------------------------------------------------------------
  // The red-black conditions a converted tree is meant to meet

  function RootColor(b: Bst): Color {
    if b.Nil? then Black else b.rb
  }

  /** No red node has a red child. */
  ghost predicate NoRedRed(b: Bst)
    decreases b
  {
    match b
    case Nil => true
    case BNode(l, _, c, r) =>
      && NoRedRed(l) && NoRedRed(r)
      && (c == Red ==> RootColor(l) == Black && RootColor(r) == Black)
  }

  /** Every path from `b` down to an empty spot passes `h` black nodes. */
  ghost predicate BlackHeight(b: Bst, h: nat)
    decreases b
  {
    match b
    case Nil => h == 0
    case BNode(l, _, c, r) =>
      var d := if c == Black then 1 else 0;
      h >= d && BlackHeight(l, h - d) && BlackHeight(r, h - d)
  }

  /** The red-black tree conditions, with the height of black nodes `h`. */
  ghost predicate RedBlackTree(b: Bst, h: nat) {
    BstOrdered(b) && RootColor(b) == Black && NoRedRed(b) && BlackHeight(b, h)
  }
}

=== FILE: scenarios.dfy ===
/** The run of Program.cs:447-475 and the concrete inputs behind the
    findings, evaluated on the model. */
module Scenarios {
  import opened Seqs
  import opened Nodes
  import opened Insertion
  import opened InsertionProperties
  import opened Lookup
  import opened Deletion
  import opened RedBlack
  import opened Conversion
  import opened RedBlackShape

  function Leaf(ks: seq<int>): Node {
    Node(ks, [])
  }

  /** A root with one key over two sorted leaves of one to three keys, the
      left ones at most the key and the right ones at least it, is a valid
      2-3-4 tree of height 1. */
  lemma TwoLeavesValid(a: seq<int>, b: seq<int>, m: int)
    requires 1 <= |a| <= 3 && 1 <= |b| <= 3 && Sorted(a) && Sorted(b)
    requires forall i :: 0 <= i < |a| ==> a[i] <= m
    requires forall i :: 0 <= i < |b| ==> m <= b[i]
    ensures Valid(Node([m], [Leaf(a), Leaf(b)]))
  {
    var n := Node([m], [Leaf(a), Leaf(b)]);
    ForestKeysSingle(Leaf(a));
    ForestKeysSingle(Leaf(b));
    assert KeysOf(Leaf(a)) == multiset(a);
    assert KeysOf(Leaf(b)) == multiset(b);
    assert InSlot(n.keys, 0, Leaf(a));
    assert InSlot(n.keys, 1, Leaf(b));
    assert forall i :: 0 <= i < 2 ==> n.children[i] == Leaf(a) || n.children[i] == Leaf(b);
    assert Height(n) == 1;
  }

  lemma MainTreesValid()
    ensures ValidTree(MainTree) && ValidTree(AfterDeletes)
  {
    TwoLeavesValid([20, 30, 40], [60, 70, 80], 50);
    TwoLeavesValid([30, 40], [70, 80], 50);
  }

  /** The same root over leaves with no repeated key is strictly ordered. */
  lemma TwoLeavesStrict(a: seq<int>, b: seq<int>, m: int)
    requires forall i, j :: 0 <= i < j < |a| ==> a[i] < a[j]
    requires forall i, j :: 0 <= i < j < |b| ==> b[i] < b[j]
    requires forall i :: 0 <= i < |a| ==> a[i] < m
    requires forall i :: 0 <= i < |b| ==> m < b[i]
    ensures Strict(Node([m], [Leaf(a), Leaf(b)]))
  {
    var n := Node([m], [Leaf(a), Leaf(b)]);
    ForestKeysSingle(Leaf(a));
    ForestKeysSingle(Leaf(b));
    assert KeysOf(Leaf(a)) == multiset(a);
    assert KeysOf(Leaf(b)) == multiset(b);
    assert Between(n.keys, 0, Leaf(a));
    assert Between(n.keys, 1, Leaf(b));
    assert forall i :: 0 <= i < 2 ==> n.children[i] == Leaf(a) || n.children[i] == Leaf(b);
  }

  lemma MainTreesStrict()
    ensures Strict(MainTree.root) && Strict(AfterDeletes.root)
  {
    TwoLeavesStrict([20, 30, 40], [60, 70, 80], 50);
    TwoLeavesStrict([30, 40], [70, 80], 50);
  }

  /** Insertions one after another, as the loop in Main performs them. */
  function InsertAll(t: Tree, ks: seq<int>, steer: Steering): (r: Tree)
    requires TreeShaped(t)
    ensures TreeShaped(r)
    ensures TreeKeys(r) == TreeKeys(t) + multiset(ks)
    decreases |ks|
  {
    if |ks| == 0 then t
    else
      InsertAddsKey(t, ks[0], steer);
      assert ks == [ks[0]] + ks[1..];
      InsertAll(Insert(t, ks[0], steer), ks[1..], steer)
  }

  /** The tree Main builds from 50, 40, 60, 30, 70, 20, 80. */
  const MainTree: Tree := Root(Node([50], [Leaf([20, 30, 40]), Leaf([60, 70, 80])]))

  /** Main's tree after deleting 20 and 60. */
  const AfterDeletes: Tree := Root(Node([50], [Leaf([30, 40]), Leaf([70, 80])]))

  /** One step of the insertion loop from a root whose child on the way
      has room: only that child changes. */
  lemma NodeDescend(n: Node, k: int, steer: Steering, ci: nat, c: Node)
    requires Shaped(n) && |n.keys| < 3 && !n.IsLeaf() && ci == ChildSlot(n, k)
    requires !n.children[ci].IsFull() && InsertNode(n.children[ci], k, steer) == c
    ensures InsertNode(n, k, steer) == Node(n.keys, n.children[ci := c])
  {
  }

  lemma RootDescend(n: Node, k: int, steer: Steering, ci: nat, c: Node)
    requires Shaped(n) && |n.keys| < 3 && !n.IsLeaf() && ci == ChildSlot(n, k)
    requires !n.children[ci].IsFull() && InsertNode(n.children[ci], k, steer) == c
    ensures Insert(Root(n), k, steer) == Root(Node(n.keys, n.children[ci := c]))
  {
    NodeDescend(n, k, steer, ci, c);
  }

  /** A leaf takes the new key in front of the first greater key. */
  lemma LeafInsert(ks: seq<int>, k: int, i: nat, steer: Steering)
    requires |ks| < 3 && i == UpperIndex(ks, k)
    ensures InsertNode(Leaf(ks), k, steer) == Leaf(ks[..i] + [k] + ks[i..])
  {
    var r := InsertSorted(ks, k);
    var e := ks[..i] + [k] + ks[i..];
    forall j | 0 <= j < |r| ensures r[j] == e[j] {
    }
  }

  lemma TwoLeavesShaped(a: seq<int>, b: seq<int>, k: int)
    requires |a| <= 3 && |b| <= 3
    ensures Shaped(Node([k], [Leaf(a), Leaf(b)]))
  {
    var n := Node([k], [Leaf(a), Leaf(b)]);
    assert forall i :: 0 <= i < 2 ==> n.children[i] == Leaf(a) || n.children[i] == Leaf(b);
  }

  lemma Insert30(steer: Steering)
    ensures Insert(Root(Leaf([40, 50, 60])), 30, steer) == Root(Node([50], [Leaf([30, 40]), Leaf([60])]))
  {
    var r := SplitRoot(Leaf([40, 50, 60]));
    assert r == Node([50], [Leaf([40]), Leaf([60])]);
    TwoLeavesShaped([40], [60], 50);
    assert UpperIndex([50], 30) == 0;
    assert UpperIndex([40], 30) == 0;
    LeafInsert([40], 30, 0, steer);
    assert [40][..0] + [30] + [40][0..] == [30, 40];
    NodeDescend(r, 30, steer, 0, Leaf([30, 40]));
  }

  /** Insertion of `k` into the leaf `a` under the root `[m]`, when the leaf
      has room. */
  lemma InsertLeft(a: seq<int>, b: seq<int>, m: int, k: int, steer: Steering)
    requires |a| < 3 && |b| <= 3 && k < m && UpperIndex(a, k) == 0
    ensures Insert(Root(Node([m], [Leaf(a), Leaf(b)])), k, steer) == Root(Node([m], [Leaf([k] + a), Leaf(b)]))
  {
    var n := Node([m], [Leaf(a), Leaf(b)]);
    TwoLeavesShaped(a, b, m);
    assert UpperIndex([m], k) == 0;
    assert ChildSlot(n, k) == 0;
    LeafInsert(a, k, 0, steer);
    assert a[..0] + [k] + a[0..] == [k] + a;
    assert n.children[0 := Leaf([k] + a)] == [Leaf([k] + a), Leaf(b)];
    RootDescend(n, k, steer, 0, Leaf([k] + a));
  }

  lemma InsertRight(a: seq<int>, b: seq<int>, m: int, k: int, steer: Steering)
    requires |a| <= 3 && |b| < 3 && m < k && UpperIndex(b, k) == |b|
    ensures Insert(Root(Node([m], [Leaf(a), Leaf(b)])), k, steer) == Root(Node([m], [Leaf(a), Leaf(b + [k])]))
  {
    TwoLeavesShaped(a, b, m);
    assert UpperIndex([m], k) == 1;
    LeafInsert(b, k, |b|, steer);
    assert b[..|b|] + [k] + b[|b|..] == b + [k];
    RootDescend(Node([m], [Leaf(a), Leaf(b)]), k, steer, 1, Leaf(b + [k]));
  }

  lemma InsertAllStep(t: Tree, k: int, rest: seq<int>, steer: Steering, u: Tree)
    requires TreeShaped(t) && Insert(t, k, steer) == u
    ensures TreeShaped(u)
    ensures InsertAll(t, [k] + rest, steer) == InsertAll(u, rest, steer)
  {
    InsertAddsKey(t, k, steer);
    assert ([k] + rest)[1..] == rest;
  }

  lemma FirstThree(steer: Steering)
    ensures Insert(Empty, 50, steer) == Root(Leaf([50]))
    ensures Insert(Root(Leaf([50])), 40, steer) == Root(Leaf([40, 50]))
    ensures Insert(Root(Leaf([40, 50])), 60, steer) == Root(Leaf([40, 50, 60]))
  {
    Insert40(steer);
    Insert60(steer);
  }

  lemma Insert40(steer: Steering)
    ensures Insert(Root(Leaf([50])), 40, steer) == Root(Leaf([40, 50]))
  {
    assert UpperIndex([50], 40) == 0;
    LeafInsert([50], 40, 0, steer);
    assert [50][..0] + [40] + [50][0..] == [40, 50];
  }

  lemma Insert60(steer: Steering)
    ensures Insert(Root(Leaf([40, 50])), 60, steer) == Root(Leaf([40, 50, 60]))
  {
    assert UpperIndex([40, 50], 60) == 2;
    LeafInsert([40, 50], 60, 2, steer);
    assert [40, 50][..2] + [60] + [40, 50][2..] == [40, 50, 60];
  }

  lemma MainKeysSplit()
    ensures [50, 40, 60, 30, 70, 20, 80] == [50] + [40, 60, 30, 70, 20, 80]
    ensures [40, 60, 30, 70, 20, 80] == [40] + [60, 30, 70, 20, 80]
    ensures [60, 30, 70, 20, 80] == [60] + [30, 70, 20, 80]
    ensures [30, 70, 20, 80] == [30] + [70, 20, 80]
    ensures [70, 20, 80] == [70] + [20, 80]
    ensures [20, 80] == [20] + [80]
    ensures [80] == [80] + []
  {
  }

  lemma Insert70(steer: Steering)
    ensures Insert(Root(Node([50], [Leaf([30, 40]), Leaf([60])])), 70, steer)
         == Root(Node([50], [Leaf([30, 40]), Leaf([60, 70])]))
  {
    assert UpperIndex([60], 70) == 1;
    InsertRight([30, 40], [60], 50, 70, steer);
    assert [60] + [70] == [60, 70];
  }

  lemma Insert20(steer: Steering)
    ensures Insert(Root(Node([50], [Leaf([30, 40]), Leaf([60, 70])])), 20, steer)
         == Root(Node([50], [Leaf([20, 30, 40]), Leaf([60, 70])]))
  {
    assert UpperIndex([30, 40], 20) == 0;
    InsertLeft([30, 40], [60, 70], 50, 20, steer);
    assert [20] + [30, 40] == [20, 30, 40];
  }

  lemma Insert80(steer: Steering)
    ensures Insert(Root(Node([50], [Leaf([20, 30, 40]), Leaf([60, 70])])), 80, steer) == MainTree
  {
    assert UpperIndex([60, 70], 80) == 2;
    InsertRight([20, 30, 40], [60, 70], 50, 80, steer);
    assert [60, 70] + [80] == [60, 70, 80];
  }

  /** No insertion of Main's keys meets a full child, so both steerings give
      the same tree. */
  lemma MainInsertions(steer: Steering)
    ensures InsertAll(Empty, [50, 40, 60, 30, 70, 20, 80], steer) == MainTree
  {
    var t1 := Root(Leaf([50]));
    var t2 := Root(Leaf([40, 50]));
    var t3 := Root(Leaf([40, 50, 60]));
    var t4 := Root(Node([50], [Leaf([30, 40]), Leaf([60])]));
    var t5 := Root(Node([50], [Leaf([30, 40]), Leaf([60, 70])]));
    var t6 := Root(Node([50], [Leaf([20, 30, 40]), Leaf([60, 70])]));
    MainKeysSplit();
    FirstThree(steer);
    Insert30(steer);
    Insert70(steer);
    Insert20(steer);
    Insert80(steer);
    InsertAllStep(Empty, 50, [40, 60, 30, 70, 20, 80], steer, t1);
    InsertAllStep(t1, 40, [60, 30, 70, 20, 80], steer, t2);
    InsertAllStep(t2, 60, [30, 70, 20, 80], steer, t3);
    InsertAllStep(t3, 30, [70, 20, 80], steer, t4);
    InsertAllStep(t4, 70, [20, 80], steer, t5);
    InsertAllStep(t5, 20, [80], steer, t6);
    InsertAllStep(t6, 80, [], steer, MainTree);
  }

  // ---------------------------------------------------------------------
  // Lookups and deletions of Main

  lemma MainSearches()
    ensures Search(MainTree, 60)
    ensures !Search(MainTree, 15)
  {
    SearchOneKeyRoot(50, [20, 30, 40], [60, 70, 80], 60);
    SearchOneKeyRoot(50, [20, 30, 40], [60, 70, 80], 15);
    assert 15 !in [20, 30, 40];
  }

  /** A search in a one-key root over two leaves looks in the root, then in
      the leaf on the side of the key. */
  lemma SearchOneKeyRoot(m: int, a: seq<int>, b: seq<int>, x: int)
    ensures Search(Root(Node([m], [Leaf(a), Leaf(b)])), x) <==> x == m || (x < m && x in a) || (m < x && x in b)
  {
    assert x != m ==> UpperIndex([m], x) == if x < m then 0 else 1;
  }

  /** Deleting a key from a leaf under the root `[m]`. */
  lemma DeleteInLeftLeaf(a: seq<int>, b: seq<int>, m: int, k: int)
    requires |a| > 0 && a[0] == k && k < m
    ensures Delete(Root(Node([m], [Leaf(a), Leaf(b)])), k)
         == TreeRemoval(Root(Node([m], [Leaf(a[1..]), Leaf(b)])), Removed)
  {
    assert IndexOf([m], k) == 1;
    assert UpperIndex([m], k) == 0;
    assert IndexOf(a, k) == 0;
    assert RemoveAt(a, 0) == a[1..];
    var n := Node([m], [Leaf(a), Leaf(b)]);
    assert ChildSlot(n, k) == 0;
    assert DeleteNode(Leaf(a), k) == Removal(Leaf(a[1..]), Removed);
    assert n.children[0 := Leaf(a[1..])] == [Leaf(a[1..]), Leaf(b)];
  }

  lemma DeleteInRightLeaf(a: seq<int>, b: seq<int>, m: int, k: int)
    requires |b| > 0 && b[0] == k && m < k
    ensures Delete(Root(Node([m], [Leaf(a), Leaf(b)])), k)
         == TreeRemoval(Root(Node([m], [Leaf(a), Leaf(b[1..])])), Removed)
  {
    assert IndexOf([m], k) == 1;
    assert UpperIndex([m], k) == 1;
    assert IndexOf(b, k) == 0;
    assert RemoveAt(b, 0) == b[1..];
    var n := Node([m], [Leaf(a), Leaf(b)]);
    assert ChildSlot(n, k) == 1;
    assert DeleteNode(Leaf(b), k) == Removal(Leaf(b[1..]), Removed);
    assert n.children[1 := Leaf(b[1..])] == [Leaf(a), Leaf(b[1..])];
  }

  /** Program.cs:464-466: deleting 20 and then 60 leaves each leaf with two
      keys. */
  lemma MainDeletes()
    ensures Delete(MainTree, 20) == TreeRemoval(Root(Node([50], [Leaf([30, 40]), Leaf([60, 70, 80])])), Removed)
    ensures Delete(Root(Node([50], [Leaf([30, 40]), Leaf([60, 70, 80])])), 60) == TreeRemoval(AfterDeletes, Removed)
    ensures !Search(AfterDeletes, 20) && !Search(AfterDeletes, 60)
  {
    SearchOneKeyRoot(50, [30, 40], [70, 80], 20);
    SearchOneKeyRoot(50, [30, 40], [70, 80], 60);
    DeleteInLeftLeaf([20, 30, 40], [60, 70, 80], 50, 20);
    assert [20, 30, 40][1..] == [30, 40];
    DeleteInRightLeaf([30, 40], [60, 70, 80], 50, 60);
    assert [60, 70, 80][1..] == [70, 80];
  }

  /** A one-key root over two children. */
  lemma TwoNodeRb(m: int, a: Node, b: Node, layout: Layout)
    ensures ToRb(Node([m], [a, b]), layout) == BNode(ToRb(a, layout), m, Black, ToRb(b, layout))
  {
    var n := Node([m], [a, b]);
    assert Sub(n, 0, layout) == ToRb(a, layout);
    assert Sub(n, 1, layout) == ToRb(b, layout);
  }

  /** The red-black tree Main prints at the end. */
  const FinalRb: Bst := BNode(BNode(Nil, 30, Black, BNode(Nil, 40, Red, Nil)), 50, Black,
                              BNode(Nil, 70, Black, BNode(Nil, 80, Red, Nil)))

  lemma AfterDeletesRb(layout: Layout)
    ensures Convert(AfterDeletes, layout) == Some(FinalRb)
  {
    MainTreesValid();
    MainTreesStrict();
    ConvertBuilds(AfterDeletes, layout);
    TwoNodeRb(50, Leaf([30, 40]), Leaf([70, 80]), layout);
  }

  lemma FinalRbRedBlack()
    ensures RedBlackTree(FinalRb, 2)
  {
    AfterDeletesRb(MiddleFirst);
    MainTreesValid();
    MainTreesStrict();
    ConvertMiddleFirstRedBlack(AfterDeletes);
    assert BlackLevels(AfterDeletes) == 2;
  }

  /** Program.cs:470-473: Main's final tree converts, with either layout,
      into a red-black tree with two black levels. */
  lemma MainConvert(layout: Layout)
    ensures Convert(AfterDeletes, layout)
         == Some(BNode(BNode(Nil, 30, Black, BNode(Nil, 40, Red, Nil)), 50, Black,
                       BNode(Nil, 70, Black, BNode(Nil, 80, Red, Nil))))
    ensures RedBlackTree(Convert(AfterDeletes, layout).value, 2)
  {
    AfterDeletesRb(layout);
    FinalRbRedBlack();
  }
}

=== FILE: search.dfy ===
/** Lookup (Program.cs:216-237).  The descent compares `k` with the keys of
    each node it enters and takes the child slot before the first greater
    key, or the last child.  On a leaf, or on a node whose slot has no child,
    the source's list indexing throws, the exception is caught, and the
    answer is false; here that is the branch where the slot is out of
    range. */
module Lookup {
  import opened Seqs
  import opened Nodes
  import opened Insertion
  import opened InsertionOrder

  function SearchNode(n: Node, k: int): (found: bool)
    ensures found ==> k in KeysOf(n)
    ensures k in n.keys ==> found
    ensures n.IsLeaf() ==> (found <==> k in n.keys)
    decreases n
  {
    if k in n.keys then true
    else
      var i := ChildSlot(n, k);
      if 0 <= i < |n.children| then
        ChildKeysIncluded(n.children, i);
        SearchNode(n.children[i], k)
      else false
  }

  function Search(t: Tree, k: int): (found: bool)
    ensures t.Empty? ==> !found
    ensures found ==> k in TreeKeys(t)
  {
    match t
    case Empty => false
    case Root(n) => SearchNode(n, k)
  }

  /** In an ordered node, a key stored below child `j` but not in the node
      itself sends the descent to child `j`. */
  lemma ChildSlotOfMember(n: Node, j: nat, k: int)
    requires Ordered(n) && j < |n.children| && k !in n.keys && k in KeysOf(n.children[j])
    ensures ChildSlot(n, k) == j
  {
    var ks := n.keys;
    assert InSlot(ks, j, n.children[j]);
    var u := UpperIndex(ks, k);
    if j < |ks| {
      assert k < ks[j];
      assert u <= j;
    }
    if 0 < j {
      assert ks[j - 1] < k;
      assert forall i :: 0 <= i < j ==> ks[i] < k;
      assert u >= j;
    }
  }

  /** Search answers true exactly for the keys an ordered subtree holds. */
  lemma {:induction false} SearchComplete(n: Node, k: int)
    requires Ordered(n)
    ensures SearchNode(n, k) <==> k in KeysOf(n)
    decreases n
  {
    if k !in n.keys && k in KeysOf(n) {
      assert k in ForestKeys(n.children);
      ForestKeysMember(n.children, k);
      var j :| 0 <= j < |n.children| && k in KeysOf(n.children[j]);
      ChildSlotOfMember(n, j, k);
      SearchComplete(n.children[j], k);
    }
  }

  /** Program.cs:216-237 on a tree that satisfies the search-tree order:
      found exactly when stored, never on an empty tree. */
  lemma SearchFindsStored(t: Tree, k: int)
    requires t.Root? ==> Ordered(t.root)
    ensures Search(t, k) <==> k in TreeKeys(t)
  {
    if t.Root? {
      SearchComplete(t.root, k);
    }
  }

  /** With the median steering, after inserting `k` into a valid tree a
      search finds exactly the keys found before plus `k`.  The first
      ensures is about the input: a valid tree is shaped, which is what
      `Insert` asks of its argument in the second. */
  lemma SearchAfterInsert(t: Tree, k: int, x: int)
    requires ValidTree(t)
    ensures TreeShaped(t)
    ensures Search(Insert(t, k, Median), x) <==> Search(t, x) || x == k
  {
    InsertKeepsValid(t, k);
    SearchFindsStored(t, x);
    SearchFindsStored(Insert(t, k, Median), x);
  }
}

=== FILE: seqs.dfy ===
/** Sequence helpers for the key lists of a 2-3-4 node.

    The source looks keys up with `List.FindIndex`, which answers -1 when no
    element matches.  Here "no match" is the index `|s|` instead, so every
    answer is a valid insertion point. */
module Seqs {

  /** Keys in non-decreasing order (duplicates are accepted by insertion). */
  predicate Sorted(s: seq<int>) {
    forall i, j :: 0 <= i < j < |s| ==> s[i] <= s[j]
  }

  /** `FindIndex(x => k.CompareTo(x) < 0)`: the first position whose key
      exceeds `k`, or `|s|` when there is none. */
  function UpperIndex(s: seq<int>, k: int): (i: nat)
    ensures i <= |s|
    ensures forall j :: 0 <= j < i ==> s[j] <= k
    ensures i < |s| ==> k < s[i]
  {
    if |s| == 0 then 0
    else if k < s[0] then 0
    else 1 + UpperIndex(s[1..], k)
  }

  /** `FindIndex(x => k.CompareTo(x) == 0)`: the first position holding `k`,
      or `|s|` when `k` does not occur. */
  function IndexOf(s: seq<int>, k: int): (i: nat)
    ensures i <= |s|
    ensures i < |s| ==> s[i] == k
    ensures forall j :: 0 <= j < i ==> s[j] != k
    ensures i == |s| <==> k !in s
  {
    if |s| == 0 then 0
    else if s[0] == k then 0
    else 1 + IndexOf(s[1..], k)
  }

  /** `List.Insert(i, x)`. */
  function InsertAt(s: seq<int>, i: nat, x: int): (r: seq<int>)
    requires i <= |s|
    ensures |r| == |s| + 1
    ensures r[i] == x
    ensures forall j :: 0 <= j < i ==> r[j] == s[j]
    ensures forall j :: i < j < |r| ==> r[j] == s[j - 1]
    ensures multiset(r) == multiset(s) + multiset{x}
  {
    assert s == s[..i] + s[i..];
    s[..i] + [x] + s[i..]
  }

  /** `List.RemoveAt(i)`. */
  function RemoveAt(s: seq<int>, i: nat): (r: seq<int>)
    requires i < |s|
    ensures |r| == |s| - 1
    ensures forall j :: 0 <= j < i ==> r[j] == s[j]
    ensures forall j :: i <= j < |r| ==> r[j] == s[j + 1]
    ensures multiset(r) == multiset(s) - multiset{s[i]}
  {
    assert s == s[..i] + [s[i]] + s[i + 1..];
    s[..i] + s[i + 1..]
  }

  /** Removing one key keeps a sorted list sorted. */
  lemma RemoveAtSorted(s: seq<int>, i: nat)
    requires Sorted(s) && i < |s|
    ensures Sorted(RemoveAt(s, i))
  {
    var r := RemoveAt(s, i);
    forall a, b | 0 <= a < b < |r| ensures r[a] <= r[b] {
      assert r[a] == s[if a < i then a else a + 1];
      assert r[b] == s[if b < i then b else b + 1];
    }
  }

  /** Insertion of `k` at its sorted position: before the first greater key,
      or at the end (the two branches at Program.cs:86-93 and 127-130). */
  function InsertSorted(s: seq<int>, k: int): (r: seq<int>)
    ensures |r| == |s| + 1
    ensures multiset(r) == multiset(s) + multiset{k}
    ensures Sorted(s) ==> Sorted(r)
  {
    var i := UpperIndex(s, k);
    var r := InsertAt(s, i, k);
    assert Sorted(s) ==> Sorted(r) by {
      if Sorted(s) {
        forall a, b | 0 <= a < b < |r| ensures r[a] <= r[b] {
          if b < i {
          } else if b == i {
          } else if a < i {
          } else if a == i {
          } else {
          }
        }
      }
    }
    r
  }

  /** Inserting `x` at any slot `i` whose left neighbours are `<= x` and whose
      right neighbour is `>= x` gives the same sequence as the sorted insertion:
      the slots in between all hold keys equal to `x`. */
  lemma {:induction false} InsertSortedAnySlot(s: seq<int>, i: nat, x: int)
    requires Sorted(s)
    requires i <= |s|
    requires forall j :: 0 <= j < i ==> s[j] <= x
    requires i < |s| ==> x <= s[i]
    ensures InsertSorted(s, x) == InsertAt(s, i, x)
  {
    var u := UpperIndex(s, x);
    assert i <= u;
    forall j | i <= j < u ensures s[j] == x {
      assert s[i] <= s[j];
    }
    var a := InsertAt(s, u, x);
    var b := InsertAt(s, i, x);
    forall t | 0 <= t < |a| ensures a[t] == b[t] {
      if t < i {
      } else if t == i {
        if i < u {
          assert a[t] == s[t];
        }
      } else if t < u {
        assert a[t] == s[t] && b[t] == s[t - 1];
      } else if t == u {
        assert b[t] == s[t - 1];
      } else {
      }
    }
  }

  /** The last element (`List.Last()`). */
  function Last<T>(s: seq<T>): T
    requires |s| > 0
  {
    s[|s| - 1]
  }
}
